=== FILE: README.md ===
# ft_vox terrain and world core, in Dafny

This project models the integer and table-driven core of ft_vox, a voxel
world renderer. The world is cut into chunks of 16 × 16 × 256 cells. The
core decides what each cell holds and keeps a cache of resident chunks. It
remembers the blocks the player deleted, so a chunk that is evicted and
reloaded comes back with its holes. It also chooses which chunks to stream
and re-mesh around the camera.

The modules follow the Rust files:

| module | file | what it holds |
|---|---|---|
| `Wrappers` | — | `Option` |
| `Utils` | `utils.dfy` | `lerp` over the reals; `ceil_div` |
| `Chunks` | `chunk.dfy` | the 16 × 16 × 256 grid of `Option<BlockType>` with its bounds-checked get and set |
| `Coords` | `coords.dfy` | `split_coords`, with Euclidean division by the chunk width |
| `Blocks` | `block.dfy` | block types and their texture-atlas tiles |
| `Faces` | `face.dfy` | the six faces, their normals, quad corners and texture coordinates |
| `Biomes` | `biome.dfy` | biome types and their block palettes |
| `Classify` | `classify.dfy` | the noise-level tables and the biome decision table of `determine_biome` |
| `Terrain` | `terrain.dfy` | the column fill of `generate_chunk_blocks` and its split of the chunk between worker threads |
| `WorldCache` | `world.dfy` | `load_chunk`, `retain_chunks`, `get_block`, `delete_block` and the loads of `generate_chunk_mesh` |
| `Splines` | `spline.dfy` | the piecewise-linear curves used for terrain height |
| `Noise` | `noise.dfy` | the Perlin builder, the seeded permutation shuffle, the lattice index masks and the octave sum |
| `Remesh` | `app.dfy` | the chunks re-meshed after a block deletion |
| `Streaming` | `state.dfy` | `update_chunks`: the render square, the retain step and meshing of chunks without render data |

**The cache invariant.** `WorldCache.Faithful` says every resident chunk
is its freshly generated grid with its recorded deletions cleared.

- Loading, evicting and deleting all preserve it.
- Under it, a deleted block still reads as air after any eviction and
  reload (`WorldCache.DeletionSurvivesReload`).

**Generation, sequential and split.** The worker split fills each
worker's slice of x-planes in turn. Its result is proved equal to the
chunk generated in one piece (`Terrain.FillBySlices`).

**Representation choices.**

- Floating-point values are modelled as `real`.
- Integers are unbounded; `u64` hashing uses `bv64`, which wraps as `u64`
  does.
- Noise channels, cave noise and the surface height are functions in a
  `Terrain.Generator` and are not otherwise interpreted.
- Chunk meshes are a function of chunk coordinates.

**Three behaviours of the code as written.**

- **The pv ridge.** The peaks-and-valleys value is exactly 1.0 along the
  ridge where |weirdness| = 2/3. That value matches no pv band, and the
  level falls through to 6, which no arm of the decision table uses. So
  every land column on the ridge is Plains (`Classify.RidgeIsPlains`).
- **The Bottom face.** Its corners wind the opposite way to the other
  five faces (`Faces.WindingAsFound`).
- **The doubled permutation table.** Only its first 256 entries are ever
  read, because every lookup is masked to the low byte.

**Verifying.** All files are given to Dafny 4.11 together, with a
resource limit in place of a time limit:

    dafny verify --resource-limit 2000000 --verification-time-limit 0 --warn-contradictory-assumptions *.dfy

Add `--boogie /randomSeed:N` to try another solver seed.

## Model

| member | source | states |
|---|---|---|
| Utils.Lerp | src/utils.rs:1-3 | lerp returns a at t = 0 and b at t = 1; for t in [0, 1] the result lies between a and b, in either order of a and b |
| Utils.LerpMonotone | src/utils.rs:1-3 | for a <= b, lerp is non-decreasing in t |
| Utils.CeilDiv | src/utils.rs:5-7 | for a positive divisor the result is the exact ceiling: d·q >= n and d·(q − 1) < n; a zero divisor, which panics in Rust, is excluded |
| Utils.CeilDivIsCeiling | src/utils.rs:5-7 | the Rust formula (n + d − 1) / d satisfies both ceiling inequalities |
| Utils.CeilDivCoversWidth | src/world.rs:710-714 | for 1 to 16 workers the slice length ceil_div(16, w) is at least 1, w slices of it reach 16, and w − 1 slices of one less do not |
| Chunks.GetBlock | src/chunk.rs:15-21 | any out-of-range x, y or z reads as air; in range, the stored cell is returned |
| Chunks.SetBlock | src/chunk.rs:23-27 | an out-of-range write leaves the grid unchanged; an in-range write is read back, and every other cell keeps its value |
| Chunks.GridExtensionality | src/chunk.rs:3-4 | two 16 × 16 × 256 grids that agree on every in-range cell are equal |
| Coords.SplitCoords | src/coords.rs:7-16 | None exactly when z is outside [0, 256); otherwise the block position is in range, keeps z, and joins back to the world position (chunk·16 + block on x and y) |
| Coords.SplitJoin | src/coords.rs:10-13 | splitting the world position of block b of chunk c gives back (c, b): split is the inverse of join |
| Coords.SplitInjective | src/coords.rs:7-16 | distinct in-range world positions split to distinct (chunk, block) pairs |
| Coords.SplitAxesIndependent | src/coords.rs:10-13 | the x results depend only on x and the y results only on y; z never affects the chunk |
| Coords.SplitFloorsNegatives | src/coords.rs:10-11 | division floors: x = −1 gives chunk −1, block 15; x = −16 gives chunk −1, block 0; z = −1 and z = 256 are rejected |
| Blocks.AtlasOffsetTop | src/block.rs:21-37 | every top tile lies inside the 64 × 32 atlas grid |
| Blocks.AtlasOffsetSide | src/block.rs:39-55 | every side tile lies inside the grid, and differs from the top tile exactly for Grass and Snow |
| Blocks.AtlasOffsetBottom | src/block.rs:57-73 | every bottom tile lies inside the grid; Grass and Snow show Dirt's top tile below, every other block its own top tile |
| Blocks.UniformFacesIff | src/block.rs:21-73 | top, side and bottom tiles coincide exactly for the blocks other than Grass and Snow |
| Blocks.GrassTilesAreTinted | scripts/update_atlas.py:84-89 | Grass's top [31, 2] and side [30, 15] are the tiles the atlas script recolours; its bottom is Dirt's [25, 2] |
| Faces.FacesListsEachOnce | src/face.rs:11-18 | FACES holds six entries, each face occurs, and no face occurs twice |
| Faces.Normal | src/face.rs:21-30 | every normal has exactly one non-zero component, and it is ±1 |
| Faces.OppositeInvolution | src/face.rs:2-9 | pairing Top/Bottom, Left/Right and Front/Back is an involution without fixed points |
| Faces.OppositeNormals | src/face.rs:21-30 | paired faces have negated normals |
| Faces.NormalInjective | src/face.rs:21-30 | two faces have the same normal exactly when they are the same face |
| Faces.Positions | src/face.rs:32-71 | each face's four corners are corners of the unit cube lying on the side of the block its normal points to |
| Faces.PositionsFormProperQuad | src/face.rs:32-71 | the four corners are distinct unit-cube corners on the side the normal points to, and cyclically consecutive corners differ in exactly one coordinate, so no face is a bow-tie |
| Faces.TurnIsCross | src/face.rs:32-71 | the right-hand rule on two axis directions is their integer cross product: none exactly when they are parallel |
| Faces.StepIsEdge | src/face.rs:32-71 | between two cube corners sharing an edge, the edge direction read off is exactly q − p |
| Faces.WindingAsFound | src/face.rs:21-71 | (p1 − p0) × (p2 − p1) equals the normal for Top, Left, Right, Front and Back; for Bottom it points up, the opposite of its normal |
| Faces.CrossOfEdges | src/face.rs:32-71 | for two consecutive unit-cube edges that turn, the cross product of the edge vectors is the turn direction |
| Faces.WindingIsCross | src/face.rs:21-71 | the integer cross product (p1 − p0) × (p2 − p1) of each face's corners is its normal, and Top's normal for Bottom |
| Faces.Uvs | src/face.rs:73-75 | every face's texture coordinates are four distinct corners of the unit square |
| Faces.UvsFaceIndependent | src/face.rs:73-75 | uvs() returns the same list for every face |
| Biomes.SurfaceBlock | src/biome.rs:56-77 | total, and never Water |
| Biomes.SurfacePreimages | src/biome.rs:56-77 | exactly which biomes get Sand, RedSand, Snow, Ice, Stone or Dirt on top; all others get Grass |
| Biomes.SurfaceDefaultIsGrass | src/biome.rs:75 | every biome not listed in the match, WoodedBadlands among them, has a Grass surface |
| Biomes.SubsurfaceBlock | src/biome.rs:79-91 | the subsurface block is always Sand, RedSand or Dirt |
| Biomes.SubsurfacePreimages | src/biome.rs:79-91 | Sand exactly for Desert, Beach and Ocean; RedSand exactly for Badlands; Dirt for every other biome |
| Biomes.DeepBlock | src/biome.rs:93-95 | the deep block is Stone for every biome |
| Biomes.OceanSurfaces | src/biome.rs:56-77 | among the seven ocean biomes only Ocean has a Sand surface; the other six have Grass |
| Classify.BandFrom | src/world.rs:228-278 | the band search from i returns the first band k >= i with bs[k] <= x < bs[k+1] whenever one exists, and otherwise the fallback |
| Classify.BandFromSpec | src/world.rs:228-278 | with increasing breakpoints, a first-match band search from i returns the band holding x when bs[i] <= x < last, and the fallback otherwise |
| Classify.BandSpec | src/world.rs:228-278 | a level is the unique band holding the input; inputs outside the table take the match's catch-all value |
| Classify.TablesIncreasing | src/world.rs:228-278 | the five breakpoint tables are strictly increasing |
| Classify.TemperatureLevel | src/world.rs:228-235 | the temperature level is in 0..4 |
| Classify.HumidityLevel | src/world.rs:238-245 | the humidity level is in 0..4 |
| Classify.ContinentalnessLevel | src/world.rs:248-256 | the continentalness level is in 0..5 |
| Classify.ErosionLevel | src/world.rs:259-268 | the erosion level is in 0..6 |
| Classify.PvLevel | src/world.rs:271-278 | the pv level is in 0..4, or 6 when it falls through |
| Classify.WeirdnessLevel | src/world.rs:280 | the weirdness level is 1 exactly when weirdness >= 0, and 0 otherwise |
| Classify.ContinentalnessOceanLevels | src/world.rs:248-256 | the continentalness level is 0 or 1 exactly for inputs in [−1, −0.2) |
| Classify.LevelsBelowRange | src/world.rs:228-278 | inputs below −1 fall through to the top level of four tables and to the unused level 6 for pv |
| Classify.PvLevelAtOne | src/world.rs:271-278 | pv = 1.0 matches no band and gets level 6 |
| Classify.Pv | src/world.rs:692 | pv never exceeds 1, lies in [−1, 1] for weirdness in [−1, 1], and is 1 exactly when \|w\| = 2/3 |
| Classify.BeachBiome | src/world.rs:563-570 | the beach helper returns only SnowyBeach, Beach or Desert: SnowyBeach exactly at temperature level 0, Desert exactly at 4 |
| Classify.BadlandsBiome | src/world.rs:572-579 | the badlands helper returns only Badlands, ErodedBadlands or WoodedBadlands; ErodedBadlands exactly for humidity 0..1 with weirdness 1; WoodedBadlands exactly for humidity outside 0..2 |
| Classify.MiddleBiome | src/world.rs:581-617 | the middle helper never yields an ocean, and temperature level 4 yields Desert |
| Classify.PlateauBiome | src/world.rs:619-656 | the plateau helper never yields an ocean |
| Classify.ShatteredBiome | src/world.rs:658-680 | the shattered helper never yields an ocean, and temperature level 4 yields Desert |
| Classify.PlateauHotIsBadlands | src/world.rs:649-652 | at temperature level 4 the plateau helper agrees with the badlands helper |
| Classify.ShatteredWarmIsMiddle | src/world.rs:669-676 | at temperature levels 3 and 4 the shattered helper agrees with the middle helper |
| Classify.ShatteredColdIsWindswept | src/world.rs:665-668 | at temperature levels 0 to 2 the shattered helper yields only windswept biomes |
| Classify.ValleyArms | src/world.rs:299-312 | no valley arm (pv level 0) yields an ocean biome |
| Classify.LowArms | src/world.rs:314-367 | no low-ground arm (pv level 1) yields an ocean biome |
| Classify.MidArms | src/world.rs:369-441 | no mid-ground arm (pv level 2) yields an ocean biome |
| Classify.HighArms | src/world.rs:443-500 | no high-ground arm (pv level 3) yields an ocean biome |
| Classify.PeakArms | src/world.rs:502-556 | no peak arm (pv level 4) yields an ocean biome |
| Classify.DetermineBiome | src/world.rs:282-560 | the result is an ocean exactly when continentalness is at level 0..1 and temperature at 0..4; in that case it is WarmOcean exactly at temperature level 4 |
| Classify.OceanIffLowContinentalness | src/world.rs:248-297 | a column is an ocean exactly when its continentalness is in [−1, −0.2), whatever the other channels say |
| Classify.PvFallthroughIsPlains | src/world.rs:558-559 | on land, a pv level outside 0..4 matches no arm and the result is Plains |
| Classify.RidgeIsPlains | src/world.rs:271-278 | every land column with \|weirdness\| = 2/3 is Plains |
| Classify.ColumnNoise | src/world.rs:682-702 | the column's pv lies in [−1, 1] when its weirdness does, and is 1 exactly on the ridge \|weirdness\| = 2/3 |
| Classify.LevelsOf | src/world.rs:228-280 | every banded level tuple is within the ranges the tables produce |
| Terrain.CellAt | src/world.rs:746-748 | every cell at or below the core layer, z <= 31, is RedSand |
| Terrain.GroundIff | src/world.rs:746-759 | above the core, a cell holds ground exactly when it is not carved and z <= height |
| Terrain.WaterIff | src/world.rs:746-762 | a cell is water exactly when it is above the core and the ground, at or below sea level 62, and not carved |
| Terrain.AirIff | src/world.rs:746-762 | a cell is air exactly when it is above the core and is carved, or is above both the ground and the sea |
| Terrain.CarvingPrecedence | src/world.rs:747-753 | a cave cuts through ground and water alike, but never reaches the core |
| Terrain.OceanHasNoAirBelowSea | src/world.rs:749 | caves never open in an ocean column: at or below sea level it holds no air |
| Terrain.GroundLayers | src/world.rs:754-759 | ground takes the biome's surface block in the top five layers (height − z in 0..4) and Stone below them |
| Terrain.NoiseAt | src/world.rs:682-702 | the noise sampled at a world column classifies as an ocean exactly when its continentalness is in [−1, −0.2), and its pv is in [−1, 1] when the weirdness is |
| Terrain.ColumnAt | src/world.rs:729-744 | the column is an ocean exactly when the continentalness there is in [−1, −0.2); with cave noise in [−1, 1] the cave floor lies within 20 of 110 − 0.6·h and the roof within 25 of lerp(56, h, 0.3) = 39.2 + 0.3·h |
| Terrain.GenerateChunkBlocks | src/world.rs:704-774 | every cell (x, y, z) of the generated chunk is the column rule at height z applied to the column at world (16·cx + x, 16·cy + y), so every chunk is RedSand at z <= 31 |
| Terrain.WorkerCount | src/world.rs:710-713 | the worker count is the available parallelism capped at 16, and 1 when it cannot be queried |
| Terrain.TilesOrdered | src/world.rs:719-770 | back-to-back slices never run backwards, and every slice lies inside the range they tile |
| Terrain.Owner | src/world.rs:719-770 | every plane of a tiled range lies in some slice |
| Terrain.OwnerUnique | src/world.rs:719-770 | slices that tile a range are pairwise disjoint: each plane has exactly one slice |
| Terrain.WorkerSlices | src/world.rs:714-770 | the loop with len = min(16 − start, ceil_div(16, workers)) makes one slice per worker; the slices tile 0..16 back to back, and none is longer than ceil_div(16, workers); each slice is ceil_div(16, workers) planes long or what is left of the 16, so a shorter slice reaches plane 16 and every later slice is empty |
| Terrain.CutSlices | src/world.rs:719-770 | the loop cuts one slice per worker, back to back from plane 0, each min(16 − start, chunk_size) long, reaching plane min(workers · chunk_size, 16) |
| Terrain.CutStep | src/world.rs:722-769 | one turn of the loop moves the start by the clipped length and keeps the slices back to back and clipped |
| Terrain.ReachIsProduct | src/world.rs:714-770 | k full slices of chunk_size planes reach plane k · chunk_size |
| Terrain.ClippedSlices | src/world.rs:722 | a slice of length min(16 − start, chunk_size) is at most chunk_size long, and a shorter one ends at plane 16 |
| Terrain.FillBySlices | src/world.rs:716-773 | the workers' slices, each filled in turn, give exactly the chunk generated in one piece |
| Terrain.FillWith | src/world.rs:727-765 | the loop over `head.iter_mut().enumerate()` sets exactly the planes of its slice, in order, and writes nothing behind it |
| Terrain.FillSlice | src/world.rs:719-770 | one worker fills the planes of its own slice, keeps the filled planes in front of it, and leaves every plane behind its slice untouched, as the disjoint `split_at_mut` halves require |
| WorldCache.Overlay | src/world.rs:150-154 | a cell listed in the deletions reads as air; every other cell reads as in the generated grid |
| WorldCache.LoadChunk | src/world.rs:147-158 | a resident chunk leaves the cache unchanged; otherwise exactly that chunk is added, as its generated grid with its recorded deletions cleared, and the other chunks and the deletion record are unchanged |
| WorldCache.LoadedFromTrans | src/world.rs:147-158 | two rounds of loading are one: chunks loaded in the second round are still their generated grids with the deletions recorded before the first |
| WorldCache.LoadedFromFaithful | src/world.rs:147-158 | any sequence of loads preserves the cache invariant |
| WorldCache.LoadedCells | src/world.rs:147-158 | a newly loaded chunk reads as the column rule, except at its recorded deletions, which read as air |
| WorldCache.RetainChunks | src/world.rs:160-163 | exactly the listed resident chunks are kept, unchanged, and the deletion record is untouched |
| WorldCache.WorldGetBlock | src/world.rs:888-892 | a block is only found at an in-range height in a resident chunk, and there it is that chunk's cell at the split coordinates |
| WorldCache.DeleteBlock | src/world.rs:894-908 | out-of-range heights and non-resident chunks change nothing; otherwise the position then reads as air, its deletion is added to its own chunk's record, and every other chunk's record is unchanged |
| WorldCache.DeleteFrame | src/world.rs:894-908 | a deletion changes what no other world position reads |
| WorldCache.DeleteIdempotent | src/world.rs:894-908 | deleting the same position twice is deleting it once |
| WorldCache.LoadNeighbourhood | src/world.rs:780-784 | the chunk and its four edge neighbours are resident afterwards; every chunk it makes resident is its generated grid with its recorded deletions cleared, resident chunks and the deletion record are untouched, and the cache invariant is preserved |
| WorldCache.LoadAll | src/world.rs:780-784 | loading a list of chunks in turn adds exactly those chunks; every chunk it makes resident is its generated grid with its recorded deletions cleared, resident chunks and the deletion record are untouched, and the cache invariant is preserved |
| WorldCache.DeleteCenterBlock | src/world.rs:798-803 | no hit changes nothing; a hit is reported back unchanged, reads as air afterwards, and is the only position that changes |
| WorldCache.EmptyFaithful | src/world.rs:133-134 | the empty cache satisfies the invariant |
| WorldCache.LoadFaithful | src/world.rs:147-158 | loading a chunk preserves the invariant |
| WorldCache.RetainFaithful | src/world.rs:160-163 | evicting chunks preserves the invariant |
| WorldCache.OverlayStep | src/world.rs:150-154 | clearing one more cell of an overlaid grid is overlaying one more deletion |
| WorldCache.DeleteFaithful | src/world.rs:894-908 | deleting a block preserves the invariant |
| WorldCache.RecordedDeletionsAreAir | src/world.rs:888-908 | under the invariant every recorded deletion of a resident chunk reads as air |
| WorldCache.ResidentCellsAreGenerated | src/world.rs:147-158 | under the invariant a resident cell that was never deleted reads as the column rule |
| WorldCache.DeletionSurvivesReload | src/world.rs:147-163 | a deleted block reads as air after any eviction and reload of its chunk |
| Splines.Insert | src/spline.rs:27-29 | inserting into a sorted list keeps it sorted and adds exactly the new point |
| Splines.InsertWithX | src/spline.rs:27-29 | the inserted point comes before every point of the same x, which keep their order |
| Splines.New | src/spline.rs:21-29 | construction yields an x-sorted permutation of the given points |
| Splines.NewIsStable | src/spline.rs:27-29 | the sort is stable: points of equal x keep their given order |
| Splines.NewOfSorted | src/spline.rs:21-29 | points already in order come out unchanged |
| Splines.Interp | src/spline.rs:52-54 | on a segment of positive width the interpolant lies between the end values and meets them at the ends |
| Splines.Scan | src/spline.rs:48-58 | inside the curve the search stops at the segment that holds x; that segment has positive width, so there is no division by zero and the fallback after the loop is never reached |
| Splines.Sample | src/spline.rs:31-59 | no points give 0.0; one point gives its y; x at or left of the first point gives the first y; x at or right of the last point gives the last y; otherwise the result interpolates the segment holding x |
| Splines.SegmentExists | src/spline.rs:48-56 | between the first and last x exactly one segment holds x |
| Splines.SampleBetween | src/spline.rs:48-56 | inside the curve the result lies between the y values of the two points bracketing x |
| Splines.SampleAtControlPoint | src/spline.rs:31-59 | at a control point's x the curve passes through that point, when it is the first point of its x and lies left of the last point |
| Splines.SampleInRange | src/spline.rs:31-59 | with non-decreasing y values the curve stays between the first and last y |
| Splines.SampleInRangeFalling | src/spline.rs:31-59 | with non-increasing y values the curve stays between the last and first y |
| Splines.SampleMonotone | src/spline.rs:31-59 | control points with non-decreasing y give a non-decreasing curve |
| Splines.SampleMonotoneFalling | src/spline.rs:31-59 | control points with non-increasing y give a non-increasing curve |
| Splines.SegmentMonotone | src/spline.rs:52-54 | a rising segment interpolates non-decreasingly |
| Splines.SegmentMonotoneFalling | src/spline.rs:52-54 | a falling segment interpolates non-increasingly |
| Splines.ContinentalnessPointsOrdered | src/world.rs:179-190 | the continentalness points are listed in order of x and rise |
| Splines.ContinentalnessKept | src/world.rs:179-192 | construction keeps the continentalness points as listed |
| Splines.ContinentalnessRange | src/world.rs:179-192 | the continentalness curve stays within [−40, 30] |
| Splines.ContinentalnessMonotone | src/world.rs:179-192 | the continentalness curve is non-decreasing |
| Splines.ErosionPointsOrdered | src/world.rs:197-206 | the erosion points are listed in order of x and never rise |
| Splines.ErosionKept | src/world.rs:197-208 | construction keeps the erosion points as listed |
| Splines.ErosionRange | src/world.rs:197-208 | the erosion factor stays within [0.1, 1.0] |
| Splines.ErosionMonotone | src/world.rs:197-208 | the erosion factor is non-increasing |
| Splines.PeaksValleysPointsOrdered | src/world.rs:213-221 | the peaks-and-valleys points are listed in order of x and never fall |
| Splines.PeaksValleysKept | src/world.rs:213-223 | construction keeps the peaks-and-valleys points as listed |
| Splines.PeaksValleysRange | src/world.rs:213-223 | the peaks-and-valleys curve stays within [−30, 60] |
| Splines.PeaksValleysMonotone | src/world.rs:213-223 | the peaks-and-valleys curve is non-decreasing |
| Noise.NewBuilder | src/noise.rs:10-18 | the builder keeps the seed, and its defaults already satisfy every setter's range |
| Noise.SetFrequency | src/noise.rs:20-23 | frequency is at least 0.0001, an in-range value is kept as given, and no other setting changes |
| Noise.SetOctaves | src/noise.rs:25-28 | octaves is clamped into 1..16, an in-range value is kept, and no other setting changes |
| Noise.SetPersistence | src/noise.rs:30-33 | persistence is clamped into [0, 1], an in-range value is kept, and no other setting changes |
| Noise.SetLacunarity | src/noise.rs:35-38 | lacunarity is at least 1, an in-range value is kept, and no other setting changes |
| Noise.ChainedSettingsValid | src/noise.rs:10-38 | after any chain of setters following new, every setting is in range and the seed is untouched |
| Noise.SettersIdempotent | src/noise.rs:20-38 | setting a value twice is setting it once |
| Noise.NextHash | src/noise.rs:46-49 | the xorshift step with wrapping multiply keeps a zero hash at zero and never takes a nonzero hash to zero |
| Noise.SwapIndex | src/noise.rs:51-52 | the swap partner hash % (i + 1) is at most i, so every swap is in bounds |
| Noise.Swap | src/noise.rs:52 | a swap exchanges the two entries, keeps the multiset of entries, and leaves every other entry alone |
| Noise.RangeCounts | src/noise.rs:42 | 0..n−1 holds each of its numbers once and nothing else |
| Noise.ShuffleFrom | src/noise.rs:45-53 | the shuffle pass keeps the table's length and its multiset of entries |
| Noise.Shuffled | src/noise.rs:42-53 | the shuffled table has 256 entries and the same multiset as 0..255 |
| Noise.ShuffledCounts | src/noise.rs:42-53 | the shuffled table holds each of 0..255 exactly once and nothing else |
| Noise.ShuffledIsPermutation | src/noise.rs:42-53 | the shuffled table contains every number 0..255, only such numbers, and no number twice |
| Noise.Doubled | src/noise.rs:55-57 | the doubled table has 512 entries, its first half is the shuffle, and entry i equals entry i mod 256 |
| Noise.Build | src/noise.rs:40-66 | build yields the doubled shuffle of the seed with the settings copied, so equal seeds give equal tables; the table has 512 entries and entry i equals entry i mod 256 |
| Noise.ShuffleInPlace | src/noise.rs:42-53 | the in-place loop from 255 down to 0 computes exactly the seed's Fisher–Yates shuffle |
| Noise.DoubleTable | src/noise.rs:55-57 | the copy loop computes exactly the doubled table |
| Noise.LowByte | src/noise.rs:139-145 | x & 255 is below 256 and agrees with x modulo 256, negative x included |
| Noise.BuiltIsTable | src/noise.rs:40-66 | every built table has 512 entries, each a byte |
| Noise.Hash2 | src/noise.rs:139-145 | all four corner hashes of perlin2d are table entries and below 256, so every lookup is in bounds |
| Noise.Hash3 | src/noise.rs:177-193 | all eight corner hashes of perlin3d are below 256 |
| Noise.Gradient2Index | src/noise.rs:264-265 | hash & 15 indexes the 16 two-dimensional gradients and agrees with hash modulo 16 |
| Noise.Gradient3Index | src/noise.rs:270-271 | hash % 12 indexes the 12 three-dimensional gradients |
| Noise.Clamp | src/noise.rs:100 | the clamp lands in [lo, hi] and leaves in-range values alone |
| Noise.Fbm | src/noise.rs:96-100 | the normalised, clamped and shifted octave sum lies in [0, 1] |
| Noise.Noise2d | src/noise.rs:78-101 | noise2d returns a value in [0, 1] |
| Noise.Noise3d | src/noise.rs:103-127 | noise3d returns a value in [0, 1] |
| Noise.Accumulate | src/noise.rs:84-94 | after k octaves the amplitude is persistence^k, the frequency is frequency·lacunarity^k, and the total amplitude is 1 + persistence + … + persistence^(k−1) |
| Noise.PowerBounds | src/noise.rs:92 | repeated multiplication by a persistence in [0, 1] keeps the amplitude in [0, 1] |
| Noise.PowerSumBounds | src/noise.rs:90 | the sum of amplitudes is non-negative, and at least 1 after one octave |
| Noise.AmplitudeBounds | src/noise.rs:84-94 | with persistence in [0, 1] the amplitude stays in [0, 1], the total amplitude is non-negative, and it is at least 1 after one octave |
| Noise.OctaveBound | src/noise.rs:89-90 | adding an octave whose sample lies in [−1, 1] keeps the value within the normaliser |
| Noise.AccumulateBounds | src/noise.rs:84-94 | with octave samples in [−1, 1] the weighted sum never exceeds the total amplitude in size |
| Noise.FbmClampInactive | src/noise.rs:96-100 | with samples in [−1, 1] and at least one octave, the clamp never bites: the result is the normalised sum mapped to [0, 1] |
| Remesh.EdgeX | src/app.rs:104-108 | block x = 0 marks exactly the west neighbour, x = 15 exactly the east one, any other x no x-neighbour |
| Remesh.EdgeY | src/app.rs:109-113 | block y = 0 marks exactly (cx, cy − 1), y = 15 exactly (cx, cy + 1), any other y no y-neighbour |
| Remesh.MarkedIn | src/app.rs:99-113 | the owning chunk is always marked; at most three chunks are marked, and none diagonal |
| Remesh.AfterDelete | src/app.rs:94-114 | no reported deletion marks nothing new; a reported one adds exactly the chunks marked for it |
| Remesh.MarkedAreAffected | src/app.rs:99-113 | the marking rule is exact: it marks precisely the owners of the deleted block and of its four horizontal neighbours |
| Remesh.MarkedInAffected | src/app.rs:99-113 | the same, stated for block b of chunk c |
| Remesh.StepWest | src/app.rs:104-105 | one step west of a block stays in its chunk, except on the west edge, where it enters the west neighbour |
| Remesh.StepEast | src/app.rs:106-107 | one step east stays in the chunk, except on the east edge |
| Remesh.StepSouth | src/app.rs:109-110 | one step south stays in the chunk, except on the south edge |
| Remesh.StepNorth | src/app.rs:111-112 | one step north stays in the chunk, except on the north edge |
| Remesh.AffectedAlongX | src/app.rs:104-108 | the owners along x are the chunk plus its marked x-neighbour |
| Remesh.AffectedAlongY | src/app.rs:109-113 | the owners along y are the chunk plus its marked y-neighbour |
| Streaming.StripMembers | src/state.rs:353-355 | one inner loop collects exactly the chunks at offset dx with dy in range |
| Streaming.StripSize | src/state.rs:353-355 | one inner loop collects hi − lo chunks |
| Streaming.StripsMembers | src/state.rs:352-358 | the double loop collects exactly the chunks with both offsets in range |
| Streaming.StripsSize | src/state.rs:352-358 | the double loop over (hi − lo) strips collects (hi − lo)(2r + 1) chunks |
| Streaming.SquareSize | src/state.rs:352-358 | the square of radius r holds (2r + 1)² chunks |
| Streaming.ChunksInRange | src/state.rs:350-358 | chunks_in_range is exactly the chunks within r of the centre along both axes, (2r + 1)² of them for r >= 0, and all are resident afterwards; every chunk it makes resident is its generated grid with its recorded deletions cleared, resident chunks and the deletion record are untouched, and the cache invariant is preserved |
| Streaming.SquareMembers | src/state.rs:352-358 | the double loop over −r..=r collects exactly the chunks within r of the centre along both axes |
| Streaming.VisitStrip | src/state.rs:353-357 | the inner loop adds its strip to the set and loads every chunk of it; every chunk it makes resident is its generated grid with its recorded deletions cleared, resident chunks and the deletion record are untouched, and the cache invariant is preserved |
| Streaming.ToWorld | src/state.rs:377-383 | vertices move by 16 chunk widths per chunk along x and y, and keep their z |
| Streaming.RenderDataFor | src/state.rs:371-412 | nothing is produced exactly when the vertex or the index list is empty; otherwise the render data holds the mesh's indices, its vertices moved by 16 per chunk along x and y into world positions, and the index count |
| Streaming.Retain | src/state.rs:360-361 | exactly the render data inside the range is kept, unchanged |
| Streaming.Filled | src/state.rs:363-368 | a chunk that has render data keeps it; one without it gets the data of its non-empty mesh, keyed by its own coordinates |
| Streaming.FilledStep | src/state.rs:363-368 | meshing one more chunk extends the result by that chunk's entry, if it gets one |
| Streaming.MeshOne | src/state.rs:364-366 | one pass of the second loop meshes the chunk if it has no render data, loading it and its edge neighbours; every chunk it makes resident is its generated grid with its recorded deletions cleared, resident chunks and the deletion record are untouched, and the cache invariant is preserved |
| Streaming.MeshMissing | src/state.rs:363-368 | the second loop yields the same render data whatever order the set gives, and leaves each newly meshed chunk's neighbourhood resident; every chunk it makes resident is its generated grid with its recorded deletions cleared, resident chunks and the deletion record are untouched, and the cache invariant is preserved |
| Streaming.UpdateChunks | src/state.rs:345-369 | afterwards no render data lies outside the range; in-range data is kept, not regenerated; missing in-range data comes from the non-empty mesh; every in-range chunk is resident; every chunk it makes resident is its generated grid with its recorded deletions cleared, resident chunks and the deletion record are untouched, and the cache invariant is preserved |
| Streaming.EmptyMeshNeverStored | src/state.rs:373-375 | a chunk whose mesh is empty never gets render data, so every later update asks for it again |
| Streaming.FilledIdempotent | src/state.rs:363-368 | a second pass over the same chunks with the same meshes changes nothing |

## Left out

- The ray cast of `find_block_in_dir` (src/world.rs:806-886). It steps
  through floating-point distances with infinities. `DeleteCenterBlock`
  takes its result as a parameter, and hits are taken to have z in
  [0, 256), as the cast's range check ensures.
- The mesher `Chunk::generate_mesh` and `AdjacentChunks`. They are not
  part of this model: a chunk's mesh is a function of its coordinates
  passed to the streaming operations.
- The chunk compression tree. It is not part of this model.
- The GPU side: buffers, bounding boxes, camera, frustum, uniforms,
  windowing and input. The non-position vertex attributes are carried
  unchanged and not modelled.
- The world methods `update_chunks` calls but that src/world.rs does not
  define: `get_chunk`, `get_render_distance`, `get_chunk_index_from_position`.
  `get_chunk` is taken to be `load_chunk`; the render distance and the
  centre chunk are parameters.
- `BiomeType::is_ocean`. It is not defined next to the biome list and is
  modelled as `Biomes.IsOcean`: the seven biomes at src/world.rs:291-297.
- The noise source. src/world.rs imports `SimplexNoise`, which is not part
  of this model. The noise channels and the cave noise are uninterpreted
  functions of the world column.
- The numeric body of `perlin2d`/`perlin3d`: the fade curve, the gradient
  dot products and the interpolation. The lattice sample is a function
  parameter; only the index masks and the octave sum are modelled.
- Terrain height: the spline arithmetic of `generate_height_at` and the
  saturating `as usize` cast. The height is a function of the noise
  values passed in with the generator. The splines themselves are
  modelled. The cave bounds are computed from the height and the cave
  noise as src/world.rs:738-744 does; only the cave noise is a
  parameter.
- Floating-point rounding, NaN and infinities. Every float is a real, and
  `partial_cmp(..).unwrap()` in the spline sort cannot panic.
- Integer overflow of `i32` in coordinates and lattice hashes (for example
  `xi + 1` or `chunk_x * 16 + x`): integers are unbounded.
- The fork-join of `generate_chunk_blocks` (`thread::scope`,
  `split_at_mut`). The workers' writes are modelled one after another.
- `scripts/update_atlas.py` beyond its grid size and the tiles it
  recolours.
- `get_subsurface_block` is modelled but never called by the column fill,
  which uses the surface and deep blocks only.
- Noise.SwapIndex: states only that the partner is at most i. The value is
  computed on the unbounded integer of the `u64` hash, which is the same
  number.
- Noise.LowByte: `x & 255` on an `i32` is written as the Euclidean
  remainder by 256; the two agree on every `i32`.
- Noise.Gradient2Index: `hash & 15` on a `usize` is written as the
  remainder by 16.
- Noise.Hash3: states the range of the eight hashes but not that each is a
  table entry, which Noise.Hash2 states for the two-dimensional case.
- Streaming.RenderDataFor: the index count is the `u32` cast of the
  length; it is stated only for meshes with fewer than 2³² indices.

=== FILE: app.dfy ===
/** The chunks whose meshes are rebuilt after the player deletes a block
    (the right-click release handler in `src/app.rs`). */
module Remesh {

  import opened Wrappers
  import opened Blocks
  import opened Chunks
  import opened Coords

  /** The chunk that owns an in-range world position. */
  function Owner(wc: WorldCoords): ChunkCoords
    requires SplitCoords(wc).Some?
  {
    SplitCoords(wc).value.0
  }

  /** The position of an in-range world position inside its chunk. */
  function InChunk(wc: WorldCoords): BlockCoords
    requires SplitCoords(wc).Some?
  {
    SplitCoords(wc).value.1
  }

  /** Two chunks share an edge: one step along x or along y. */
  predicate EdgeNeighbours(a: ChunkCoords, b: ChunkCoords) {
    || (a.1 == b.1 && (a.0 == b.0 + 1 || a.0 == b.0 - 1))
    || (a.0 == b.0 && (a.1 == b.1 + 1 || a.1 == b.1 - 1))
  }

  /** The x-neighbour to re-mesh for a block at `px` along x: west on the
      west edge, east on the east edge, none inside. */
  function EdgeX(c: ChunkCoords, px: nat): (r: set<ChunkCoords>)
    ensures |r| <= 1
    ensures forall n | n in r :: n.1 == c.1 && EdgeNeighbours(n, c)
    ensures (c.0 - 1, c.1) in r <==> px == 0
    ensures (c.0 + 1, c.1) in r <==> px == CHUNK_WIDTH - 1
  {
    if px == 0 then {(c.0 - 1, c.1)} else if px == CHUNK_WIDTH - 1 then {(c.0 + 1, c.1)} else {}
  }

  /** The y-neighbour to re-mesh for a block at `py` along y. */
  function EdgeY(c: ChunkCoords, py: nat): (r: set<ChunkCoords>)
    ensures |r| <= 1
    ensures forall n | n in r :: n.0 == c.0 && EdgeNeighbours(n, c)
    ensures (c.0, c.1 - 1) in r <==> py == 0
    ensures (c.0, c.1 + 1) in r <==> py == CHUNK_WIDTH - 1
  {
    if py == 0 then {(c.0, c.1 - 1)} else if py == CHUNK_WIDTH - 1 then {(c.0, c.1 + 1)} else {}
  }

  /** The chunks marked for block `b` of chunk `c`: the chunk itself and its
      edge neighbours across the edges the block touches. */
  function MarkedIn(c: ChunkCoords, b: BlockCoords): (r: set<ChunkCoords>)
    ensures c in r
    ensures forall n | n in r :: n == c || EdgeNeighbours(n, c)
    ensures |r| <= 3
    ensures (c.0 - 1, c.1) in r <==> b.0 == 0
    ensures (c.0 + 1, c.1) in r <==> b.0 == CHUNK_WIDTH - 1
    ensures (c.0, c.1 - 1) in r <==> b.1 == 0
    ensures (c.0, c.1 + 1) in r <==> b.1 == CHUNK_WIDTH - 1
  {
    var xs, ys := EdgeX(c, b.0), EdgeY(c, b.1);
    assert |{c} + xs| <= 2;
    {c} + xs + ys
  }

  /** The chunks marked for a deleted block at world position `wc`. */
  function Marked(wc: WorldCoords): set<ChunkCoords>
    requires SplitCoords(wc).Some?
  {
    MarkedIn(Owner(wc), InChunk(wc))
  }

  /** The handler: the chunks already pending, plus those marked for the
      block `delete_center_block` reports, if any. A reported position
      always has a height in range (ray hits are taken inside the column),
      so the split never fails. */
  function AfterDelete(pending: set<ChunkCoords>, reported: Option<(WorldCoords, BlockType)>)
    : (r: set<ChunkCoords>)
    requires reported.Some? ==> SplitCoords(reported.value.0).Some?
    ensures reported.None? ==> r == pending
    ensures pending <= r
    ensures reported.Some? ==> r - pending <= Marked(reported.value.0)
    ensures reported.Some? ==> Marked(reported.value.0) <= r
  {
    match reported
    case None => pending
    case Some((wc, _)) => pending + Marked(wc)
  }

  /** The owners of a position and of its four horizontal neighbours: the
      chunks whose meshes can show a face of the block. */
  function AffectedChunks(wc: WorldCoords): set<ChunkCoords>
    requires SplitCoords(wc).Some?
  {
    OwnersAlongX(wc) + OwnersAlongY(wc)
  }

  /** The owners of a position and of its two neighbours along x. */
  function OwnersAlongX(wc: WorldCoords): set<ChunkCoords>
    requires SplitCoords(wc).Some?
  {
    {Owner(wc), Owner((wc.0 - 1, wc.1, wc.2)), Owner((wc.0 + 1, wc.1, wc.2))}
  }

  /** The owners of a position and of its two neighbours along y. */
  function OwnersAlongY(wc: WorldCoords): set<ChunkCoords>
    requires SplitCoords(wc).Some?
  {
    {Owner(wc), Owner((wc.0, wc.1 - 1, wc.2)), Owner((wc.0, wc.1 + 1, wc.2))}
  }

  /** One step west of block `b` of chunk `c`: the same chunk, or the
      western neighbour when the block is on its west edge. */
  lemma StepWest(c: ChunkCoords, b: BlockCoords)
    requires ValidBlock(b)
    ensures var w := Join(c, b);
            SplitCoords((w.0 - 1, w.1, w.2)).Some? &&
            Owner((w.0 - 1, w.1, w.2)) == if b.0 == 0 then (c.0 - 1, c.1) else c
  {
    if b.0 == 0 {
      SplitJoin((c.0 - 1, c.1), (CHUNK_WIDTH - 1, b.1, b.2));
    } else {
      SplitJoin(c, (b.0 - 1, b.1, b.2));
    }
  }

  lemma StepEast(c: ChunkCoords, b: BlockCoords)
    requires ValidBlock(b)
    ensures var w := Join(c, b);
            SplitCoords((w.0 + 1, w.1, w.2)).Some? &&
            Owner((w.0 + 1, w.1, w.2)) == if b.0 == CHUNK_WIDTH - 1 then (c.0 + 1, c.1) else c
  {
    if b.0 == CHUNK_WIDTH - 1 {
      SplitJoin((c.0 + 1, c.1), (0, b.1, b.2));
    } else {
      SplitJoin(c, (b.0 + 1, b.1, b.2));
    }
  }

  lemma StepSouth(c: ChunkCoords, b: BlockCoords)
    requires ValidBlock(b)
    ensures var w := Join(c, b);
            SplitCoords((w.0, w.1 - 1, w.2)).Some? &&
            Owner((w.0, w.1 - 1, w.2)) == if b.1 == 0 then (c.0, c.1 - 1) else c
  {
    if b.1 == 0 {
      SplitJoin((c.0, c.1 - 1), (b.0, CHUNK_WIDTH - 1, b.2));
    } else {
      SplitJoin(c, (b.0, b.1 - 1, b.2));
    }
  }

  lemma StepNorth(c: ChunkCoords, b: BlockCoords)
    requires ValidBlock(b)
    ensures var w := Join(c, b);
            SplitCoords((w.0, w.1 + 1, w.2)).Some? &&
            Owner((w.0, w.1 + 1, w.2)) == if b.1 == CHUNK_WIDTH - 1 then (c.0, c.1 + 1) else c
  {
    if b.1 == CHUNK_WIDTH - 1 {
      SplitJoin((c.0, c.1 + 1), (b.0, 0, b.2));
    } else {
      SplitJoin(c, (b.0, b.1 + 1, b.2));
    }
  }

  /** The marking rule is exact: it marks precisely the chunks that own the
      deleted block or one of its four horizontal neighbours. */
  lemma MarkedAreAffected(wc: WorldCoords)
    requires SplitCoords(wc).Some?
    ensures Marked(wc) == AffectedChunks(wc)
  {
    var c, b := Owner(wc), InChunk(wc);
    assert wc == Join(c, b);
    MarkedInAffected(c, b);
  }

  lemma MarkedInAffected(c: ChunkCoords, b: BlockCoords)
    requires ValidBlock(b)
    ensures SplitCoords(Join(c, b)).Some?
    ensures MarkedIn(c, b) == AffectedChunks(Join(c, b))
  {
    SplitJoin(c, b);
    AffectedAlongX(c, b);
    AffectedAlongY(c, b);
  }

  lemma AffectedAlongX(c: ChunkCoords, b: BlockCoords)
    requires ValidBlock(b)
    ensures SplitCoords(Join(c, b)).Some?
    ensures OwnersAlongX(Join(c, b)) == {c} + EdgeX(c, b.0)
  {
    SplitJoin(c, b);
    StepWest(c, b);
    StepEast(c, b);
  }

  lemma AffectedAlongY(c: ChunkCoords, b: BlockCoords)
    requires ValidBlock(b)
    ensures SplitCoords(Join(c, b)).Some?
    ensures OwnersAlongY(Join(c, b)) == {c} + EdgeY(c, b.1)
  {
    SplitJoin(c, b);
    StepSouth(c, b);
    StepNorth(c, b);
  }
}

=== FILE: biome.dfy ===
/** Biomes and the blocks each one is built from (`src/biome.rs`). */
module Biomes {

  import opened Blocks

  datatype BiomeType =
    | Desert | Plains | Forest | Taiga | Swamp | Beach | FrozenPeaks
    | Ocean | ColdOcean | FrozenOcean | WarmOcean | DeepOcean | DeepColdOcean
    | DeepFrozenOcean | River | FrozenRiver | Grove | Mangrove | StonyShore
    | StonyPeaks | WindsweptSavanna | SnowySlopes | SnowyBeach | JaggedPeaks
    | Badlands | ErodedBadlands | WoodedBadlands | Jungle | BambooJungle
    | SparseJungle | Savanna | DarkForest | OldGrowthBirchForest | BirchForest
    | SunflowerForest | FlowerForest | OldGrowthPineTaiga
    | OldGrowthSpruceTaiga | SnowyTaiga | SnowyPlains | IceSpikes
    | WindsweptHills | WindsweptForest | WindsweptGravellyHills | PaleGarden
    | Meadow | CherryGrove | SavannaPlateau

  /** The ocean family. The terrain fill asks every biome whether it is an
      ocean, but no such test is defined next to the biome list; this model
      takes it to mean the seven biomes the classifier hands out for the two
      lowest continentalness levels. */
  predicate IsOcean(b: BiomeType) {
    b in {FrozenOcean, ColdOcean, Ocean, DeepFrozenOcean, DeepColdOcean, DeepOcean, WarmOcean}
  }

  /** The block at the very top of a column of this biome. */
  function SurfaceBlock(b: BiomeType): (r: BlockType)
    ensures r != Water
  {
    match b
    case Desert => Sand
    case Plains => Grass
    case Forest => Grass
    case Taiga => Snow
    case Swamp => Dirt
    case Beach => Sand
    case SnowyBeach => Sand
    case SnowyPlains => Snow
    case SnowyTaiga => Snow
    case SnowySlopes => Snow
    case SunflowerForest => Grass
    case ErodedBadlands => RedSand
    case Ocean => Sand
    case IceSpikes => Ice
    case Badlands => RedSand
    case StonyPeaks => Stone
    case StonyShore => Stone
    case _ => Grass
  }

  /** The block just under the surface. */
  function SubsurfaceBlock(b: BiomeType): (r: BlockType)
    ensures r in {Sand, RedSand, Dirt}
  {
    match b
    case Desert => Sand
    case Plains => Dirt
    case Forest => Dirt
    case Taiga => Dirt
    case Swamp => Dirt
    case Beach => Sand
    case Ocean => Sand
    case Badlands => RedSand
    case _ => Dirt
  }

  /** The block deep below the surface. */
  function DeepBlock(b: BiomeType): (r: BlockType)
    ensures r == Stone
  {
    Stone
  }

  /** The surface palette, read backwards: which biomes get each block. */
  lemma SurfacePreimages(b: BiomeType)
    ensures SurfaceBlock(b) == Sand <==> b in {Desert, Beach, SnowyBeach, Ocean}
    ensures SurfaceBlock(b) == RedSand <==> b in {Badlands, ErodedBadlands}
    ensures SurfaceBlock(b) == Snow <==> b in {Taiga, SnowyPlains, SnowyTaiga, SnowySlopes}
    ensures SurfaceBlock(b) == Ice <==> b == IceSpikes
    ensures SurfaceBlock(b) == Stone <==> b in {StonyPeaks, StonyShore}
    ensures SurfaceBlock(b) == Dirt <==> b == Swamp
    ensures SurfaceBlock(b) in {Sand, RedSand, Snow, Ice, Stone, Dirt, Grass}
  {
  }

  /** Every biome not singled out above, WoodedBadlands among them, is
      grass-topped. */
  lemma SurfaceDefaultIsGrass(b: BiomeType)
    requires b !in {Desert, Beach, SnowyBeach, Ocean, Badlands, ErodedBadlands,
                    Taiga, SnowyPlains, SnowyTaiga, SnowySlopes, IceSpikes,
                    StonyPeaks, StonyShore, Swamp}
    ensures SurfaceBlock(b) == Grass
  {
  }

  /** The subsurface palette, read backwards. */
  lemma SubsurfacePreimages(b: BiomeType)
    ensures SubsurfaceBlock(b) == Sand <==> b in {Desert, Beach, Ocean}
    ensures SubsurfaceBlock(b) == RedSand <==> b == Badlands
    ensures SubsurfaceBlock(b) == Dirt <==> b !in {Desert, Beach, Ocean, Badlands}
  {
  }

  /** Of the seven ocean biomes only Ocean has a sand surface; the six
      other ocean variants fall through to the grass default. */
  lemma OceanSurfaces(b: BiomeType)
    requires IsOcean(b)
    ensures SurfaceBlock(b) == (if b == Ocean then Sand else Grass)
  {
  }
}

=== FILE: block.dfy ===
/** Block materials and their texture-atlas tiles (`src/block.rs`). */
module Blocks {

  datatype BlockType =
    | Dirt | EmeraldOre | GoldOre | Grass | Gravel | Ice | Magma
    | RedSand | RedStone | Sand | Snow | Stone | Water

  /** A tile position in the texture atlas, in tile units (`[u32; 2]`). */
  datatype Tile = Tile(x: nat, y: nat)

  /** The atlas is a grid of 64 by 32 tiles; the recolouring script works on
      this grid. */
  const GRID_W: nat := 64
  const GRID_H: nat := 32

  predicate InAtlas(t: Tile) {
    t.x < GRID_W && t.y < GRID_H
  }

  /** Only Grass and Snow look different from the side or from below. */
  predicate HasDistinctFaces(b: BlockType) {
    b == Grass || b == Snow
  }

  function AtlasOffsetTop(b: BlockType): (t: Tile)
    ensures InAtlas(t)
  {
    match b
    case Grass => Tile(31, 2)
    case Snow => Tile(19, 24)
    case Stone => Tile(30, 29)
    case Sand => Tile(6, 27)
    case Dirt => Tile(25, 2)
    case Ice => Tile(4, 22)
    case Water => Tile(6, 4)
    case Gravel => Tile(31, 3)
    case RedSand => Tile(27, 25)
    case Magma => Tile(24, 26)
    case RedStone => Tile(24, 0)
    case GoldOre => Tile(23, 13)
    case EmeraldOre => Tile(23, 12)
  }

  function AtlasOffsetSide(b: BlockType): (t: Tile)
    ensures InAtlas(t)
    ensures HasDistinctFaces(b) <==> t != AtlasOffsetTop(b)
  {
    match b
    case Grass => Tile(30, 15)
    case Snow => Tile(31, 1)
    case Stone => Tile(30, 29)
    case Sand => Tile(6, 27)
    case Dirt => Tile(25, 2)
    case Ice => Tile(4, 22)
    case Water => Tile(6, 4)
    case Gravel => Tile(31, 3)
    case RedSand => Tile(27, 25)
    case Magma => Tile(24, 26)
    case RedStone => Tile(24, 0)
    case GoldOre => Tile(23, 13)
    case EmeraldOre => Tile(23, 12)
  }

  function AtlasOffsetBottom(b: BlockType): (t: Tile)
    ensures InAtlas(t)
    ensures HasDistinctFaces(b) ==> t == AtlasOffsetTop(Dirt)
    ensures !HasDistinctFaces(b) ==> t == AtlasOffsetTop(b)
  {
    match b
    case Grass => Tile(25, 2)
    case Snow => Tile(25, 2)
    case Stone => Tile(30, 29)
    case Sand => Tile(6, 27)
    case Dirt => Tile(25, 2)
    case Ice => Tile(4, 22)
    case Water => Tile(6, 4)
    case Gravel => Tile(31, 3)
    case RedSand => Tile(27, 25)
    case Magma => Tile(24, 26)
    case RedStone => Tile(24, 0)
    case GoldOre => Tile(23, 13)
    case EmeraldOre => Tile(23, 12)
  }

  /** Top, side and bottom agree exactly for the blocks other than Grass and
      Snow. */
  lemma UniformFacesIff(b: BlockType)
    ensures (AtlasOffsetTop(b) == AtlasOffsetSide(b) == AtlasOffsetBottom(b))
            <==> !HasDistinctFaces(b)
  {
  }

  /** The two Grass tiles are the ones the atlas script tints green:
      it multiplies tile (31, 2) and repaints tile (30, 15). */
  lemma GrassTilesAreTinted()
    ensures AtlasOffsetTop(Grass) == Tile(31, 2)
    ensures AtlasOffsetSide(Grass) == Tile(30, 15)
    ensures AtlasOffsetBottom(Grass) == AtlasOffsetTop(Dirt) == Tile(25, 2)
  {
  }
}

=== FILE: chunk.dfy ===
/** A chunk's block grid (`src/chunk.rs`): a 16 x 16 x 256 array of optional
    blocks, indexed `[x][y][z]`, with bounds-checked access. */
module Chunks {
  import opened Wrappers
  import opened Blocks

  const CHUNK_WIDTH: nat := 16
  const CHUNK_HEIGHT: nat := 256

  /** A cell: a block, or air. */
  type Cell = Option<BlockType>

  predicate Shaped(g: seq<seq<seq<Cell>>>) {
    && |g| == CHUNK_WIDTH
    && (forall x | 0 <= x < |g| :: |g[x]| == CHUNK_WIDTH)
    && (forall x, y | 0 <= x < |g| && 0 <= y < |g[x]| :: |g[x][y]| == CHUNK_HEIGHT)
  }

  /** An all-air grid. */
  const EMPTY: seq<seq<seq<Cell>>> :=
    seq(CHUNK_WIDTH, _ => seq(CHUNK_WIDTH, _ => seq(CHUNK_HEIGHT, _ => None)))

  /** The fixed-size array type `[[[Option<BlockType>; 256]; 16]; 16]`. */
  type Grid = g: seq<seq<seq<Cell>>> | Shaped(g) witness EMPTY

  predicate InBounds(x: nat, y: nat, z: nat) {
    x < CHUNK_WIDTH && y < CHUNK_WIDTH && z < CHUNK_HEIGHT
  }

  /** `Chunk::get_block`: out-of-range coordinates read as air. */
  function GetBlock(g: Grid, x: nat, y: nat, z: nat): (r: Cell)
    ensures !InBounds(x, y, z) ==> r == None
    ensures InBounds(x, y, z) ==> r == g[x][y][z]
  {
    if InBounds(x, y, z) then g[x][y][z] else None
  }

  /** `Chunk::set_block`: out-of-range writes are ignored; an in-range write
      changes exactly one cell. */
  function SetBlock(g: Grid, x: nat, y: nat, z: nat, b: Cell): (r: Grid)
    ensures !InBounds(x, y, z) ==> r == g
    ensures InBounds(x, y, z) ==> GetBlock(r, x, y, z) == b
    ensures forall x': nat, y': nat, z': nat | (x', y', z') != (x, y, z) ::
              GetBlock(r, x', y', z') == GetBlock(g, x', y', z')
  {
    if InBounds(x, y, z) then
      g[x := g[x][y := g[x][y][z := b]]]
    else
      g
  }

  /** Two grids that read the same at every in-range cell are equal. */
  lemma {:induction false} GridExtensionality(g1: Grid, g2: Grid)
    requires forall x: nat, y: nat, z: nat | InBounds(x, y, z) ::
               GetBlock(g1, x, y, z) == GetBlock(g2, x, y, z)
    ensures g1 == g2
  {
    forall x | 0 <= x < CHUNK_WIDTH
      ensures g1[x] == g2[x]
    {
      forall y | 0 <= y < CHUNK_WIDTH
        ensures g1[x][y] == g2[x][y]
      {
        forall z | 0 <= z < CHUNK_HEIGHT
          ensures g1[x][y][z] == g2[x][y][z]
        {
          assert GetBlock(g1, x, y, z) == GetBlock(g2, x, y, z);
        }
      }
    }
  }
}

=== FILE: classify.dfy ===
/** Biome classification (`World::determine_biome` and its helpers in
    `src/world.rs`): six noise channels are banded into integer levels, and
    a first-match decision table maps the level tuple to a biome. */
module Classify {

  import opened Biomes

  /** The noise channels sampled at one column; `pv` (peaks and valleys)
      is derived from the weirdness channel. */
  datatype NoiseValues = NoiseValues(
    temperature: real, humidity: real, continentalness: real,
    erosion: real, weirdness: real, pv: real)

  /** The banded channels, in the order the decision table matches them. */
  datatype Levels = Levels(c: int, t: int, h: int, e: int, pv: int, w: int)

  // ---------------------------------------------------------------------
  // Level tables

  /** Strictly increasing breakpoints. */
  predicate Increasing(bs: seq<real>) {
    forall i, j | 0 <= i < j < |bs| :: bs[i] < bs[j]
  }

  /** The first band `[bs[k], bs[k+1])` with `k >= i` that holds `x`, or
      the fallback level when none does: the guard chain of one level
      match. */
  function BandFrom(x: real, bs: seq<real>, fallback: nat, i: nat): (r: nat)
    ensures r == fallback || i <= r < |bs| - 1
    ensures r != fallback ==> bs[r] <= x < bs[r + 1]
    ensures (exists k | i <= k < |bs| - 1 :: bs[k] <= x < bs[k + 1]) ==>
      i <= r < |bs| - 1 && bs[r] <= x < bs[r + 1] &&
      forall k | i <= k < r :: !(bs[k] <= x < bs[k + 1])
    decreases |bs| - i
  {
    if i + 1 >= |bs| then fallback
    else if bs[i] <= x < bs[i + 1] then i
    else BandFrom(x, bs, fallback, i + 1)
  }

  function Band(x: real, bs: seq<real>, fallback: nat): nat {
    BandFrom(x, bs, fallback, 0)
  }

  /** With increasing breakpoints, a band search from `i` finds the band
      holding `x` when `x` is in `[bs[i], last)`, and falls back otherwise. */
  lemma {:induction false} BandFromSpec(x: real, bs: seq<real>, fallback: nat, i: nat)
    requires Increasing(bs) && i < |bs|
    ensures var r := BandFrom(x, bs, fallback, i);
      if bs[i] <= x < bs[|bs| - 1] then i <= r < |bs| - 1 && bs[r] <= x < bs[r + 1]
      else r == fallback
    decreases |bs| - i
  {
    if i + 1 < |bs| && !(bs[i] <= x < bs[i + 1]) {
      BandFromSpec(x, bs, fallback, i + 1);
    }
  }

  /** A level is the band holding the input, and inputs outside the table
      take the fallback. The fallback may coincide with the top band's
      level, as it does for four of the five tables. */
  lemma BandSpec(x: real, bs: seq<real>, fallback: nat)
    requires Increasing(bs) && |bs| >= 2
    ensures var r := Band(x, bs, fallback);
      && (bs[0] <= x < bs[|bs| - 1] ==> r < |bs| - 1 && bs[r] <= x < bs[r + 1])
      && (!(bs[0] <= x < bs[|bs| - 1]) ==> r == fallback)
  {
    BandFromSpec(x, bs, fallback, 0);
  }

  const TEMPERATURE_BOUNDS: seq<real> := [-1.0, -0.45, -0.15, 0.2, 0.55, 1.0]
  const HUMIDITY_BOUNDS: seq<real> := [-1.0, -0.35, -0.1, 0.1, 0.3, 1.0]
  const CONTINENTALNESS_BOUNDS: seq<real> := [-1.0, -0.45, -0.2, -0.1, 0.05, 0.3, 1.0]
  const EROSION_BOUNDS: seq<real> := [-1.0, -0.8, -0.38, -0.22, 0.05, 0.45, 0.55, 1.0]
  const PV_BOUNDS: seq<real> := [-1.0, -0.85, -0.2, 0.2, 0.7, 1.0]

  function TemperatureLevel(x: real): (r: nat)
    ensures r <= 4
  {
    Band(x, TEMPERATURE_BOUNDS, 4)
  }

  function HumidityLevel(x: real): (r: nat)
    ensures r <= 4
  {
    Band(x, HUMIDITY_BOUNDS, 4)
  }

  function ContinentalnessLevel(x: real): (r: nat)
    ensures r <= 5
  {
    Band(x, CONTINENTALNESS_BOUNDS, 5)
  }

  function ErosionLevel(x: real): (r: nat)
    ensures r <= 6
  {
    Band(x, EROSION_BOUNDS, 6)
  }

  /** Unlike the other tables, the pv table falls back to 6, a level no
      arm of the decision table mentions. */
  function PvLevel(x: real): (r: nat)
    ensures r <= 4 || r == 6
  {
    Band(x, PV_BOUNDS, 6)
  }

  function WeirdnessLevel(x: real): (r: nat)
    ensures r <= 1
    ensures r == 1 <==> x >= 0.0
  {
    if x >= 0.0 then 1 else 0
  }

  lemma TablesIncreasing()
    ensures Increasing(TEMPERATURE_BOUNDS) && Increasing(HUMIDITY_BOUNDS)
    ensures Increasing(CONTINENTALNESS_BOUNDS) && Increasing(EROSION_BOUNDS)
    ensures Increasing(PV_BOUNDS)
  {
  }

  /** The two ocean levels are exactly the continentalness inputs in
      `[-1, -0.2)`. */
  lemma ContinentalnessOceanLevels(x: real)
    ensures ContinentalnessLevel(x) <= 1 <==> -1.0 <= x < -0.2
  {
    TablesIncreasing();
    BandSpec(x, CONTINENTALNESS_BOUNDS, 5);
  }

  /** Inputs below -1 fall through every band: to the top level for four
      tables and to the unused level 6 for pv. */
  lemma LevelsBelowRange(x: real)
    requires x < -1.0
    ensures TemperatureLevel(x) == 4 && HumidityLevel(x) == 4
    ensures ContinentalnessLevel(x) == 5 && ErosionLevel(x) == 6
    ensures PvLevel(x) == 6
  {
  }

  /** The top of the pv range is outside every band. */
  lemma PvLevelAtOne()
    ensures PvLevel(1.0) == 6
  {
  }

  function LevelsOf(v: NoiseValues): (l: Levels)
    ensures ValidLevels(l)
  {
    Levels(ContinentalnessLevel(v.continentalness), TemperatureLevel(v.temperature),
           HumidityLevel(v.humidity), ErosionLevel(v.erosion), PvLevel(v.pv),
           WeirdnessLevel(v.weirdness))
  }

  /** The ranges the level tables produce. */
  predicate ValidLevels(l: Levels) {
    && 0 <= l.c <= 5 && 0 <= l.t <= 4 && 0 <= l.h <= 4 && 0 <= l.e <= 6
    && (0 <= l.pv <= 4 || l.pv == 6) && 0 <= l.w <= 1
  }

  // ---------------------------------------------------------------------
  // Peaks and valleys

  function Abs(x: real): real {
    if x < 0.0 then -x else x
  }

  /** Peaks and valleys, folded out of weirdness: `1 - |3|w| - 2|`. It
      never exceeds 1, stays in [-1, 1] for weirdness in [-1, 1], and peaks
      at `|w| = 2/3` and only there. */
  function Pv(w: real): (r: real)
    ensures r <= 1.0
    ensures -1.0 <= w <= 1.0 ==> -1.0 <= r
    ensures r == 1.0 <==> Abs(w) == 2.0 / 3.0
  {
    1.0 - Abs(3.0 * Abs(w) - 2.0)
  }

  /** The noise values of one column, with pv derived from weirdness: in
      [-1, 1] when weirdness is, and 1 exactly on the ridge `|w| = 2/3`. */
  function ColumnNoise(temperature: real, humidity: real, continentalness: real,
                       erosion: real, weirdness: real): (v: NoiseValues)
    ensures v.weirdness == weirdness && v.pv == Pv(weirdness)
    ensures -1.0 <= weirdness <= 1.0 ==> -1.0 <= v.pv <= 1.0
    ensures v.pv == 1.0 <==> Abs(weirdness) == 2.0 / 3.0
  {
    NoiseValues(temperature, humidity, continentalness, erosion, weirdness, Pv(weirdness))
  }

  // ---------------------------------------------------------------------
  // Helper tables

  function BeachBiome(t: int): (r: BiomeType)
    ensures r in {SnowyBeach, Beach, Desert}
    ensures r == SnowyBeach <==> t == 0
    ensures r == Desert <==> t == 4
  {
    if t == 0 then SnowyBeach
    else if 1 <= t <= 3 then Beach
    else if t == 4 then Desert
    else Beach
  }

  function BadlandsBiome(h: int, w: int): (r: BiomeType)
    ensures r in {Badlands, ErodedBadlands, WoodedBadlands}
    ensures r == ErodedBadlands <==> 0 <= h <= 1 && w == 1
    ensures 0 <= w <= 1 ==> (r == WoodedBadlands <==> !(0 <= h <= 2))
  {
    if 0 <= h <= 1 && w == 0 then Badlands
    else if 0 <= h <= 1 && w == 1 then ErodedBadlands
    else if h == 2 then Badlands
    else WoodedBadlands
  }

  function MiddleBiome(t: int, h: int, w: int): (r: BiomeType)
    ensures !IsOcean(r)
    ensures t == 4 ==> r == Desert
  {
    if t == 0 && h == 0 && w == 0 then SnowyPlains
    else if t == 0 && h == 0 && w == 1 then IceSpikes
    else if t == 0 && h == 1 then SnowyPlains
    else if t == 0 && h == 2 && w == 0 then SnowyPlains
    else if t == 0 && h == 2 && w == 1 then SnowyTaiga
    else if t == 0 && h == 3 then SnowyTaiga
    else if t == 0 && h == 4 then Taiga
    else if t == 1 && 0 <= h <= 1 then Plains
    else if t == 1 && h == 3 then Taiga
    else if t == 1 && h == 4 && w == 0 then OldGrowthSpruceTaiga
    else if t == 1 && h == 4 && w == 1 then OldGrowthPineTaiga
    else if t == 2 && h == 0 && w == 0 then FlowerForest
    else if t == 2 && h == 0 && w == 1 then SunflowerForest
    else if t == 2 && h == 1 then Plains
    else if 1 <= t <= 2 && h == 2 then Forest
    else if t == 2 && h == 3 && w == 0 then BirchForest
    else if t == 2 && h == 3 && w == 1 then OldGrowthBirchForest
    else if t == 2 && h == 4 then DarkForest
    else if t == 3 && 0 <= h <= 1 then Savanna
    else if t == 3 && h == 2 && w == 0 then Forest
    else if t == 3 && h == 2 && w == 1 then Plains
    else if t == 3 && h == 3 && w == 0 then Jungle
    else if t == 3 && h == 3 && w == 1 then SparseJungle
    else if t == 3 && h == 4 && w == 0 then Jungle
    else if t == 3 && h == 4 && w == 1 then BambooJungle
    else if t == 4 then Desert
    else Plains
  }

  function PlateauBiome(t: int, h: int, w: int): (r: BiomeType)
    ensures !IsOcean(r)
  {
    if t == 0 && h == 0 && w == 0 then SnowyPlains
    else if t == 0 && h == 0 && w == 1 then IceSpikes
    else if t == 0 && 1 <= h <= 2 then SnowyPlains
    else if t == 0 && 3 <= h <= 4 then SnowyTaiga
    else if t == 1 && h == 0 && w == 0 then Meadow
    else if t == 1 && h == 0 && w == 1 then CherryGrove
    else if t == 1 && h == 1 then Meadow
    else if t == 1 && h == 2 && w == 0 then Forest
    else if t == 1 && h == 2 && w == 1 then Meadow
    else if t == 1 && h == 3 && w == 0 then Taiga
    else if t == 1 && h == 3 && w == 1 then Meadow
    else if t == 1 && h == 4 && w == 0 then OldGrowthSpruceTaiga
    else if t == 1 && h == 4 && w == 1 then OldGrowthPineTaiga
    else if t == 2 && 0 <= h <= 1 && w == 0 then Meadow
    else if t == 2 && 0 <= h <= 1 && w == 1 then CherryGrove
    else if t == 2 && h == 2 && w == 0 then Meadow
    else if t == 2 && h == 2 && w == 1 then Forest
    else if t == 2 && h == 3 && w == 0 then Meadow
    else if t == 2 && h == 3 && w == 1 then BirchForest
    else if t == 2 && h == 4 then PaleGarden
    else if t == 3 && 0 <= h <= 1 then SavannaPlateau
    else if t == 3 && 2 <= h <= 3 then Forest
    else if t == 3 && h == 4 then Jungle
    else if t == 4 && 0 <= h <= 1 && w == 0 then Badlands
    else if t == 4 && 0 <= h <= 1 && w == 1 then ErodedBadlands
    else if t == 4 && h == 2 then Badlands
    else if t == 4 && 3 <= h <= 4 then WoodedBadlands
    else Plains
  }

  function ShatteredBiome(t: int, h: int, w: int): (r: BiomeType)
    ensures !IsOcean(r)
    ensures t == 4 ==> r == Desert
  {
    if 0 <= t <= 1 && 0 <= h <= 1 then WindsweptGravellyHills
    else if 0 <= t <= 1 && h == 2 then WindsweptHills
    else if t == 2 && 0 <= h <= 2 then WindsweptHills
    else if 0 <= t <= 2 && 3 <= h <= 4 then WindsweptForest
    else if t == 3 && 0 <= h <= 1 then Savanna
    else if t == 3 && h == 2 && w == 0 then Forest
    else if t == 3 && h == 2 && w == 1 then Plains
    else if t == 3 && h == 3 && w == 0 then Jungle
    else if t == 3 && h == 3 && w == 1 then SparseJungle
    else if t == 3 && h == 4 && w == 0 then Jungle
    else if t == 3 && h == 4 && w == 1 then BambooJungle
    else if t == 4 then Desert
    else Plains
  }

  /** A hot plateau is the badlands helper under another name. */
  lemma PlateauHotIsBadlands(h: int, w: int)
    requires 0 <= h <= 4 && 0 <= w <= 1
    ensures PlateauBiome(4, h, w) == BadlandsBiome(h, w)
  {
  }

  /** The shattered helper agrees with the middle helper from temperature
      level 3 up; below that it yields windswept biomes only. */
  lemma ShatteredWarmIsMiddle(t: int, h: int, w: int)
    requires 3 <= t <= 4 && 0 <= h <= 4 && 0 <= w <= 1
    ensures ShatteredBiome(t, h, w) == MiddleBiome(t, h, w)
  {
  }

  lemma ShatteredColdIsWindswept(t: int, h: int, w: int)
    requires 0 <= t <= 2 && 0 <= h <= 4
    ensures ShatteredBiome(t, h, w) in {WindsweptGravellyHills, WindsweptHills, WindsweptForest}
  {
  }

  // ---------------------------------------------------------------------
  // The decision table

  /** `lo <= v <= hi`: a range pattern `lo..=hi`. */
  predicate R(v: int, lo: int, hi: int) {
    lo <= v <= hi
  }

  /** Arms with pv level 0 (valleys). */
  function ValleyArms(l: Levels): (r: BiomeType)
    ensures !IsOcean(r)
  {
    var c, t, h, e, w := l.c, l.t, l.h, l.e, l.w;
    if c == 2 && t == 0 then FrozenRiver
    else if c == 2 then River
    else if c == 3 && t == 0 && R(e, 0, 5) then FrozenRiver
    else if c == 3 && R(e, 0, 5) then River
    else if R(c, 3, 5) && t == 0 && e == 6 then FrozenRiver
    else if R(c, 3, 5) && R(t, 1, 2) && e == 6 then Swamp
    else if R(c, 3, 5) && R(t, 3, 4) && e == 6 then Mangrove
    else if R(c, 4, 5) && R(t, 0, 3) && R(e, 0, 5) then MiddleBiome(t, h, w)
    else if R(c, 4, 5) && t == 4 && R(e, 0, 5) then BadlandsBiome(h, w)
    else Plains
  }

  /** Arms with pv level 1 (low ground). */
  function LowArms(l: Levels): (r: BiomeType)
    ensures !IsOcean(r)
  {
    var c, t, h, e, w := l.c, l.t, l.h, l.e, l.w;
    if c == 2 && R(e, 0, 2) then StonyShore
    else if c == 2 && R(e, 3, 4) then BeachBiome(t)
    else if c == 2 && e == 5 && w == 0 then BeachBiome(t)
    else if c == 2 && R(t, 0, 1) && e == 5 && w == 1 then MiddleBiome(t, h, w)
    else if c == 2 && h == 4 && e == 5 && w == 1 then MiddleBiome(t, h, w)
    else if c == 2 && R(t, 2, 4) && R(h, 0, 3) && e == 5 && w == 1 then WindsweptSavanna
    else if c == 2 && e == 6 then BeachBiome(t)
    else if c == 3 && R(t, 0, 3) && R(e, 0, 1) then MiddleBiome(t, h, w)
    else if c == 3 && t == 4 && R(e, 0, 1) then BadlandsBiome(h, w)
    else if c == 3 && R(e, 2, 4) then MiddleBiome(t, h, w)
    else if c == 3 && R(t, 0, 1) && e == 5 then MiddleBiome(t, h, w)
    else if c == 3 && h == 4 && e == 5 then MiddleBiome(t, h, w)
    else if c == 3 && e == 5 && w == 0 then MiddleBiome(t, h, w)
    else if c == 3 && R(t, 2, 4) && R(h, 0, 3) && e == 5 && w == 1 then WindsweptSavanna
    else if R(c, 3, 5) && t == 0 && e == 6 then MiddleBiome(t, h, w)
    else if R(c, 3, 5) && R(t, 1, 2) && e == 6 then Swamp
    else if R(c, 3, 5) && R(t, 3, 4) && e == 6 then Mangrove
    else if R(c, 4, 5) && t == 0 && R(h, 0, 1) && R(e, 0, 1) then SnowySlopes
    else if R(c, 4, 5) && t == 0 && R(h, 2, 4) && R(e, 0, 1) then Grove
    else if R(c, 4, 5) && R(t, 1, 3) && R(e, 0, 1) then MiddleBiome(t, h, w)
    else if R(c, 4, 5) && t == 4 && R(e, 0, 1) then BadlandsBiome(h, w)
    else if R(c, 4, 5) && R(t, 0, 3) && R(e, 2, 3) then BadlandsBiome(h, w)
    else if R(c, 4, 5) && t == 4 && R(e, 2, 3) then BadlandsBiome(h, w)
    else if R(c, 4, 5) && R(e, 4, 5) then MiddleBiome(t, h, w)
    else Plains
  }

  /** Arms with pv level 2 (mid ground). */
  function MidArms(l: Levels): (r: BiomeType)
    ensures !IsOcean(r)
  {
    var c, t, h, e, w := l.c, l.t, l.h, l.e, l.w;
    if c == 2 && R(e, 0, 2) then StonyShore
    else if c == 2 && e == 3 then MiddleBiome(t, h, w)
    else if c == 2 && e == 4 && w == 0 then BeachBiome(t)
    else if c == 2 && e == 4 && w == 1 then MiddleBiome(t, h, w)
    else if c == 2 && e == 5 && w == 0 then BeachBiome(t)
    else if c == 2 && R(t, 0, 1) && e == 5 && w == 1 then MiddleBiome(t, h, w)
    else if c == 2 && h == 4 && e == 5 && w == 1 then MiddleBiome(t, h, w)
    else if c == 2 && R(t, 2, 4) && R(h, 0, 3) && e == 5 && w == 1 then WindsweptSavanna
    else if c == 2 && e == 6 && w == 0 then BeachBiome(t)
    else if c == 2 && e == 6 && w == 1 then MiddleBiome(t, h, w)
    else if R(c, 3, 5) && R(t, 0, 2) && R(h, 0, 1) && e == 0 then SnowySlopes
    else if R(c, 3, 5) && R(t, 0, 2) && R(h, 2, 4) && e == 0 then Grove
    else if R(c, 3, 5) && R(t, 3, 4) && e == 0 then PlateauBiome(t, h, w)
    else if R(c, 3, 4) && t == 0 && R(h, 0, 1) && e == 1 then SnowySlopes
    else if R(c, 3, 4) && t == 0 && R(h, 2, 4) && e == 1 then Grove
    else if R(c, 3, 4) && R(t, 1, 3) && e == 1 then MiddleBiome(t, h, w)
    else if R(c, 3, 4) && t == 4 && e == 1 then BadlandsBiome(h, w)
    else if c == 5 && t == 0 && R(h, 0, 1) && e == 1 then SnowySlopes
    else if c == 5 && t == 0 && R(h, 2, 4) && e == 1 then Grove
    else if c == 5 && R(t, 1, 4) && e == 1 then PlateauBiome(t, h, w)
    else if c == 3 && R(e, 2, 4) then MiddleBiome(t, h, w)
    else if c == 4 && R(t, 0, 3) && R(e, 2, 3) then MiddleBiome(t, h, w)
    else if c == 4 && t == 4 && R(e, 2, 3) then BadlandsBiome(h, w)
    else if c == 5 && e == 2 then PlateauBiome(t, h, w)
    else if c == 5 && R(t, 0, 3) && e == 3 then MiddleBiome(t, h, w)
    else if c == 5 && t == 4 && e == 3 then BadlandsBiome(h, w)
    else if R(c, 4, 5) && e == 4 then MiddleBiome(t, h, w)
    else if c == 3 && R(t, 0, 1) && e == 5 && w == 0 then MiddleBiome(t, h, w)
    else if c == 3 && h == 4 && e == 5 && w == 0 then MiddleBiome(t, h, w)
    else if c == 3 && R(t, 2, 4) && R(h, 0, 3) && e == 5 && w == 1 then WindsweptSavanna
    else if R(c, 4, 5) && e == 5 then ShatteredBiome(t, h, w)
    else if R(c, 3, 5) && t == 0 && e == 6 then MiddleBiome(t, h, w)
    else if R(c, 3, 5) && R(t, 1, 2) && e == 6 then Swamp
    else if R(c, 3, 5) && R(t, 3, 4) && e == 6 then Mangrove
    else Plains
  }

  /** Arms with pv level 3 (high ground). */
  function HighArms(l: Levels): (r: BiomeType)
    ensures !IsOcean(r)
  {
    var c, t, h, e, w := l.c, l.t, l.h, l.e, l.w;
    if c == 2 && R(e, 0, 4) then MiddleBiome(t, h, w)
    else if c == 3 && R(t, 0, 2) && R(h, 0, 1) && e == 0 then SnowySlopes
    else if c == 3 && R(t, 0, 2) && R(h, 2, 4) && e == 0 then Grove
    else if c == 3 && R(t, 3, 4) && e == 0 then PlateauBiome(t, h, w)
    else if c == 3 && t == 0 && R(h, 0, 1) && e == 1 then SnowySlopes
    else if c == 3 && t == 0 && R(h, 2, 4) && e == 1 then Grove
    else if c == 3 && R(t, 1, 3) && e == 1 then MiddleBiome(t, h, w)
    else if c == 3 && t == 4 && e == 1 then BadlandsBiome(h, w)
    else if c == 3 && R(e, 2, 4) then MiddleBiome(t, h, w)
    else if R(c, 2, 3) && R(t, 0, 1) && e == 5 then MiddleBiome(t, h, w)
    else if R(c, 2, 3) && h == 4 && e == 5 then MiddleBiome(t, h, w)
    else if R(c, 2, 3) && e == 5 && w == 0 then MiddleBiome(t, h, w)
    else if R(c, 2, 3) && R(t, 2, 4) && R(h, 0, 3) && e == 5 && w == 1 then WindsweptSavanna
    else if R(c, 4, 5) && R(t, 0, 2) && e == 0 && w == 0 then JaggedPeaks
    else if R(c, 4, 5) && R(t, 0, 2) && e == 0 && w == 1 then FrozenPeaks
    else if R(c, 4, 5) && t == 3 && e == 0 then StonyPeaks
    else if R(c, 4, 5) && t == 4 && e == 0 then BadlandsBiome(h, w)
    else if R(c, 4, 5) && R(t, 0, 2) && R(h, 0, 1) && e == 1 then SnowySlopes
    else if R(c, 4, 5) && R(t, 0, 2) && R(h, 2, 4) && e == 1 then Grove
    else if R(c, 4, 5) && R(t, 3, 4) && e == 1 then PlateauBiome(t, h, w)
    else if c == 4 && e == 2 then PlateauBiome(t, h, w)
    else if c == 4 && R(t, 0, 3) && e == 3 then MiddleBiome(t, h, w)
    else if c == 4 && t == 4 && e == 3 then BadlandsBiome(h, w)
    else if c == 5 && R(e, 2, 3) then PlateauBiome(t, h, w)
    else if c == 5 && e == 4 then MiddleBiome(t, h, w)
    else if R(c, 4, 5) && e == 5 then ShatteredBiome(t, h, w)
    else if R(c, 2, 5) && e == 6 then MiddleBiome(t, h, w)
    else Plains
  }

  /** Arms with pv level 4 (peaks). */
  function PeakArms(l: Levels): (r: BiomeType)
    ensures !IsOcean(r)
  {
    var c, t, h, e, w := l.c, l.t, l.h, l.e, l.w;
    if R(c, 2, 3) && R(t, 0, 2) && e == 0 && w == 0 then JaggedPeaks
    else if R(c, 2, 3) && R(t, 0, 2) && e == 0 && w == 1 then FrozenPeaks
    else if R(c, 2, 3) && t == 3 && e == 0 then StonyPeaks
    else if R(c, 2, 3) && t == 4 && e == 0 then BadlandsBiome(h, w)
    else if R(c, 2, 3) && t == 0 && R(h, 0, 1) && e == 1 then SnowySlopes
    else if R(c, 2, 3) && t == 0 && R(h, 2, 4) && e == 1 then Grove
    else if R(c, 2, 3) && R(t, 1, 3) && e == 1 then MiddleBiome(t, h, w)
    else if R(c, 2, 3) && t == 4 && e == 1 then BadlandsBiome(h, w)
    else if R(c, 2, 3) && R(e, 2, 4) then MiddleBiome(t, h, w)
    else if R(c, 2, 3) && e == 5 && w == 0 then ShatteredBiome(t, h, w)
    else if R(c, 2, 3) && R(t, 0, 1) && e == 5 then ShatteredBiome(t, h, w)
    else if R(c, 2, 3) && h == 4 && e == 5 then ShatteredBiome(t, h, w)
    else if R(c, 2, 3) && R(t, 2, 4) && R(h, 0, 3) && e == 5 && w == 1 then WindsweptSavanna
    else if R(c, 4, 5) && R(t, 0, 2) && R(e, 0, 1) && w == 0 then JaggedPeaks
    else if R(c, 4, 5) && R(t, 0, 2) && R(e, 0, 1) && w == 1 then FrozenPeaks
    else if R(c, 4, 5) && t == 3 && R(e, 0, 1) then StonyPeaks
    else if R(c, 4, 5) && t == 4 && R(e, 0, 1) then BadlandsBiome(h, w)
    else if c == 4 && e == 2 then PlateauBiome(t, h, w)
    else if c == 4 && R(t, 0, 3) && R(e, 3, 4) then MiddleBiome(t, h, w)
    else if c == 4 && t == 4 && R(e, 3, 4) then BadlandsBiome(h, w)
    else if c == 5 && R(e, 2, 4) then PlateauBiome(t, h, w)
    else if R(c, 4, 5) && e == 4 then MiddleBiome(t, h, w)
    else if R(c, 4, 5) && e == 5 then ShatteredBiome(t, h, w)
    else if R(c, 2, 5) && e == 6 then MiddleBiome(t, h, w)
    else Plains
  }

  /** The decision table. Its ocean arms come first and are the only arms
      for continentalness levels 0 and 1; every other arm fixes the pv
      level, so the table is split by pv level without changing which arm
      matches first. */
  function DetermineBiome(l: Levels): (r: BiomeType)
    ensures IsOcean(r) <==> R(l.c, 0, 1) && R(l.t, 0, 4)
    ensures R(l.c, 0, 1) && R(l.t, 0, 4) ==> (R(l.c, 0, 1) && l.t == 4 <==> r == WarmOcean)
  {
    var c, t := l.c, l.t;
    if c == 0 && t == 0 then FrozenOcean
    else if c == 0 && t == 1 then ColdOcean
    else if c == 0 && R(t, 2, 3) then Ocean
    else if c == 1 && t == 0 then DeepFrozenOcean
    else if c == 1 && t == 1 then DeepColdOcean
    else if c == 1 && R(t, 2, 3) then DeepOcean
    else if R(c, 0, 1) && t == 4 then WarmOcean
    else if l.pv == 0 then ValleyArms(l)
    else if l.pv == 1 then LowArms(l)
    else if l.pv == 2 then MidArms(l)
    else if l.pv == 3 then HighArms(l)
    else if l.pv == 4 then PeakArms(l)
    else Plains
  }

  /** The biome of a column. */
  function BiomeAt(v: NoiseValues): BiomeType {
    DetermineBiome(LevelsOf(v))
  }

  /** A column is an ocean exactly when its continentalness is in
      `[-1, -0.2)`, whatever the other channels say. */
  lemma OceanIffLowContinentalness(v: NoiseValues)
    ensures IsOcean(BiomeAt(v)) <==> -1.0 <= v.continentalness < -0.2
  {
    ContinentalnessOceanLevels(v.continentalness);
  }

  /** A pv level outside the table matches no arm: on land the result is
      Plains. */
  lemma PvFallthroughIsPlains(l: Levels)
    requires !R(l.c, 0, 1) && !R(l.pv, 0, 4)
    ensures DetermineBiome(l) == Plains
  {
  }

  /** Along the ridge `|weirdness| = 2/3`, pv is exactly 1.0, which falls
      outside every pv band, so every land column there is Plains. */
  lemma RidgeIsPlains(t: real, h: real, c: real, e: real, w: real)
    requires Abs(w) == 2.0 / 3.0 && !(-1.0 <= c < -0.2)
    ensures BiomeAt(ColumnNoise(t, h, c, e, w)) == Plains
  {
    PvLevelAtOne();
    ContinentalnessOceanLevels(c);
  }
}

=== FILE: coords.dfy ===
/** World, chunk and block coordinates and the split between them
    (`src/coords.rs`). */
module Coords {
  import opened Wrappers
  import opened Chunks

  /** Global block position `(i32, i32, i32)`; z is the vertical axis. */
  type WorldCoords = (int, int, int)
  /** A chunk's column position `(i32, i32)`. */
  type ChunkCoords = (int, int)
  /** A position inside a chunk `(usize, usize, usize)`. */
  type BlockCoords = (nat, nat, nat)

  predicate ValidBlock(b: BlockCoords) {
    InBounds(b.0, b.1, b.2)
  }

  /** Inverse of the split: the world position of block `b` of chunk `c`. */
  function Join(c: ChunkCoords, b: BlockCoords): WorldCoords {
    (c.0 * CHUNK_WIDTH + b.0, c.1 * CHUNK_WIDTH + b.1, b.2)
  }

  /** `split_coords`: Euclidean division and remainder by the chunk width on
      x and y; `None` when z is outside `[0, CHUNK_HEIGHT)`. Dafny's `/` and
      `%` are Euclidean, as are Rust's `div_euclid` and `rem_euclid`. */
  function SplitCoords(w: WorldCoords): (r: Option<(ChunkCoords, BlockCoords)>)
    ensures r.None? <==> w.2 < 0 || w.2 >= CHUNK_HEIGHT
    ensures r.Some? ==> ValidBlock(r.value.1) && r.value.1.2 == w.2
    ensures r.Some? ==> Join(r.value.0, r.value.1) == w
  {
    if 0 <= w.2 < CHUNK_HEIGHT then
      var (x, y, z) := w;
      Some(((x / CHUNK_WIDTH, y / CHUNK_WIDTH), (x % CHUNK_WIDTH, y % CHUNK_WIDTH, z)))
    else
      None
  }

  /** The split undoes the join: every (chunk, in-range block) pair is
      recovered from its world position. */
  lemma SplitJoin(c: ChunkCoords, b: BlockCoords)
    requires ValidBlock(b)
    ensures SplitCoords(Join(c, b)) == Some((c, b))
  {
    DivModUnique(c.0, b.0);
    DivModUnique(c.1, b.1);
  }

  lemma DivModUnique(q: int, r: nat)
    requires r < CHUNK_WIDTH
    ensures (q * CHUNK_WIDTH + r) / CHUNK_WIDTH == q
    ensures (q * CHUNK_WIDTH + r) % CHUNK_WIDTH == r
  {
    var n := q * CHUNK_WIDTH + r;
    var q', r' := n / CHUNK_WIDTH, n % CHUNK_WIDTH;
    assert n == q' * CHUNK_WIDTH + r';
    assert (q - q') * CHUNK_WIDTH == r' - r;
  }

  /** Distinct in-range world positions land on distinct (chunk, block)
      pairs. */
  lemma SplitInjective(w1: WorldCoords, w2: WorldCoords)
    requires SplitCoords(w1).Some? && SplitCoords(w1) == SplitCoords(w2)
    ensures w1 == w2
  {
  }

  /** The chunk x and block x depend on x alone, the chunk y and block y on
      y alone, and z never moves the chunk. */
  lemma SplitAxesIndependent(w1: WorldCoords, w2: WorldCoords)
    requires SplitCoords(w1).Some? && SplitCoords(w2).Some?
    ensures w1.0 == w2.0 ==>
              SplitCoords(w1).value.0.0 == SplitCoords(w2).value.0.0
              && SplitCoords(w1).value.1.0 == SplitCoords(w2).value.1.0
    ensures w1.1 == w2.1 ==>
              SplitCoords(w1).value.0.1 == SplitCoords(w2).value.0.1
              && SplitCoords(w1).value.1.1 == SplitCoords(w2).value.1.1
    ensures (w1.0, w1.1) == (w2.0, w2.1) ==> SplitCoords(w1).value.0 == SplitCoords(w2).value.0
  {
  }

  /** Negative positions floor towards minus infinity instead of truncating
      towards zero. */
  lemma SplitFloorsNegatives()
    ensures SplitCoords((-1, -1, 0)) == Some(((-1, -1), (15, 15, 0)))
    ensures SplitCoords((-16, -17, 5)) == Some(((-1, -2), (0, 15, 5)))
    ensures SplitCoords((16, 15, 255)) == Some(((1, 0), (0, 15, 255)))
    ensures SplitCoords((0, 0, -1)) == None && SplitCoords((0, 0, 256)) == None
  {
  }
}

=== FILE: face.dfy ===
/** The six faces of a unit block and their geometry (`src/face.rs`). */
module Faces {

  import opened Wrappers

  datatype Face = Top | Bottom | Left | Right | Front | Back

  /** An integer vector: a face normal `(i32, i32, i32)`, or a corner
      position `[f32; 3]`, whose coordinates are all 0.0 or 1.0 and so are
      held exactly as integers. */
  datatype IVec = IVec(x: int, y: int, z: int)

  /** A texture coordinate `[f32; 2]`. */
  datatype Uv = Uv(u: real, v: real)

  /** The iteration order used when meshing. */
  const FACES: seq<Face> := [Top, Bottom, Left, Right, Front, Back]

  function Neg(v: IVec): IVec {
    IVec(-v.x, -v.y, -v.z)
  }

  function Sub(a: IVec, b: IVec): IVec {
    IVec(a.x - b.x, a.y - b.y, a.z - b.z)
  }

  function Cross(a: IVec, b: IVec): IVec {
    IVec(a.y * b.z - a.z * b.y, a.z * b.x - a.x * b.z, a.x * b.y - a.y * b.x)
  }

  datatype Axis = X | Y | Z

  /** A unit vector along one axis: the direction of a quad edge or of a
      face normal. */
  datatype Dir = Dir(axis: Axis, positive: bool)

  function AsIVec(d: Dir): IVec {
    var s := if d.positive then 1 else -1;
    match d.axis
    case X => IVec(s, 0, 0)
    case Y => IVec(0, s, 0)
    case Z => IVec(0, 0, s)
  }

  /** The direction of the edge from `p` to `q`, read off the first
      coordinate in which they differ (`StepIsEdge`: exact for the edges of
      the unit cube). */
  function Step(p: IVec, q: IVec): Dir {
    if p.x != q.x then Dir(X, p.x < q.x)
    else if p.y != q.y then Dir(Y, p.y < q.y)
    else Dir(Z, p.z < q.z)
  }

  predicate Cyclic(a: Axis, b: Axis) {
    (a == X && b == Y) || (a == Y && b == Z) || (a == Z && b == X)
  }

  /** The axis perpendicular to two distinct axes. */
  function Third(a: Axis, b: Axis): Axis {
    if a != X && b != X then X else if a != Y && b != Y then Y else Z
  }

  /** The right-hand rule for two axis directions: none when they are
      parallel (`TurnIsCross`: the cross product otherwise). */
  function Turn(a: Dir, b: Dir): Option<Dir> {
    if a.axis == b.axis then None
    else Some(Dir(Third(a.axis, b.axis), Cyclic(a.axis, b.axis) == (a.positive == b.positive)))
  }

  predicate Unit(n: int) {
    n == 1 || n == -1
  }

  /** Exactly one coordinate is non-zero, and it is 1 or -1. */
  predicate AxisUnit(v: IVec) {
    || (Unit(v.x) && v.y == 0 && v.z == 0)
    || (v.x == 0 && Unit(v.y) && v.z == 0)
    || (v.x == 0 && v.y == 0 && Unit(v.z))
  }

  predicate Bit(r: int) {
    0 <= r <= 1
  }

  predicate UnitCubeCorner(p: IVec) {
    Bit(p.x) && Bit(p.y) && Bit(p.z)
  }

  predicate UnitSquareCorner(uv: Uv) {
    (uv.u == 0.0 || uv.u == 1.0) && (uv.v == 0.0 || uv.v == 1.0)
  }

  /** Number of coordinates in which two points differ. */
  function Differing(a: IVec, b: IVec): nat {
    (if a.x != b.x then 1 else 0) + (if a.y != b.y then 1 else 0) + (if a.z != b.z then 1 else 0)
  }

  /** A point lies on the side of the unit cube a normal points to: at 1
      along a positive axis, at 0 along a negative one. */
  predicate OnFacePlane(p: IVec, n: IVec) {
    && (n.x == 1 ==> p.x == 1) && (n.x == -1 ==> p.x == 0)
    && (n.y == 1 ==> p.y == 1) && (n.y == -1 ==> p.y == 0)
    && (n.z == 1 ==> p.z == 1) && (n.z == -1 ==> p.z == 0)
  }

  function Normal(f: Face): (n: IVec)
    ensures AxisUnit(n)
  {
    match f
    case Top => IVec(0, 0, 1)
    case Bottom => IVec(0, 0, -1)
    case Left => IVec(-1, 0, 0)
    case Right => IVec(1, 0, 0)
    case Front => IVec(0, -1, 0)
    case Back => IVec(0, 1, 0)
  }

  /** The face across the block. */
  function Opposite(f: Face): Face {
    match f
    case Top => Bottom
    case Bottom => Top
    case Left => Right
    case Right => Left
    case Front => Back
    case Back => Front
  }

  /** Four points form a proper quad on the side of the unit cube that `n`
      points to: distinct cube corners in that plane, with cyclically
      consecutive corners sharing an edge (so the quad is not a bow-tie). */
  predicate ProperQuad(ps: seq<IVec>, n: IVec)
    requires |ps| == 4
  {
    && UnitCubeCorner(ps[0]) && UnitCubeCorner(ps[1])
    && UnitCubeCorner(ps[2]) && UnitCubeCorner(ps[3])
    && OnFacePlane(ps[0], n) && OnFacePlane(ps[1], n)
    && OnFacePlane(ps[2], n) && OnFacePlane(ps[3], n)
    && ps[0] != ps[1] && ps[0] != ps[2] && ps[0] != ps[3]
    && ps[1] != ps[2] && ps[1] != ps[3] && ps[2] != ps[3]
    && Differing(ps[0], ps[1]) == 1 && Differing(ps[1], ps[2]) == 1
    && Differing(ps[2], ps[3]) == 1 && Differing(ps[3], ps[0]) == 1
  }

  /** The four corners of the face's quad, in emission order: corners of
      the unit cube on the face's own side of the block. */
  function Positions(f: Face): (ps: seq<IVec>)
    ensures |ps| == 4
    ensures forall i | 0 <= i < 4 :: UnitCubeCorner(ps[i]) && OnFacePlane(ps[i], Normal(f))
  {
    match f
    case Right => [IVec(1, 0, 0), IVec(1, 1, 0), IVec(1, 1, 1), IVec(1, 0, 1)]
    case Left => [IVec(0, 1, 0), IVec(0, 0, 0), IVec(0, 0, 1), IVec(0, 1, 1)]
    case Back => [IVec(1, 1, 0), IVec(0, 1, 0), IVec(0, 1, 1), IVec(1, 1, 1)]
    case Front => [IVec(0, 0, 0), IVec(1, 0, 0), IVec(1, 0, 1), IVec(0, 0, 1)]
    case Top => [IVec(0, 0, 1), IVec(1, 0, 1), IVec(1, 1, 1), IVec(0, 1, 1)]
    case Bottom => [IVec(0, 1, 0), IVec(0, 0, 0), IVec(1, 0, 0), IVec(1, 1, 0)]
  }

  /** Texture coordinates of the four corners: the corners of the unit
      square, the same list for every face. */
  function Uvs(f: Face): (uv: seq<Uv>)
    ensures |uv| == 4
    ensures forall i | 0 <= i < 4 :: UnitSquareCorner(uv[i])
    ensures forall i, j | 0 <= i < j < 4 :: uv[i] != uv[j]
  {
    [Uv(0.0, 1.0), Uv(1.0, 1.0), Uv(1.0, 0.0), Uv(0.0, 0.0)]
  }

  /** The turn of a quad's first two edges, `(p1 - p0) x (p2 - p1)`: the
      side from which its corners are seen counter-clockwise. */
  function Winding(f: Face): Option<Dir> {
    var ps := Positions(f);
    Turn(Step(ps[0], ps[1]), Step(ps[1], ps[2]))
  }

  /** `FACES` lists each of the six faces exactly once. */
  lemma FacesListsEachOnce()
    ensures |FACES| == 6
    ensures forall f: Face :: f in FACES
    ensures forall i, j | 0 <= i < j < |FACES| :: FACES[i] != FACES[j]
  {
    forall f: Face
      ensures f in FACES
    {
      match f
      case Top => assert FACES[0] == f;
      case Bottom => assert FACES[1] == f;
      case Left => assert FACES[2] == f;
      case Right => assert FACES[3] == f;
      case Front => assert FACES[4] == f;
      case Back => assert FACES[5] == f;
    }
  }

  /** `Opposite` pairs the faces up: an involution without fixed points. */
  lemma OppositeInvolution(f: Face)
    ensures Opposite(Opposite(f)) == f && Opposite(f) != f
  {
  }

  /** The pairs Top/Bottom, Left/Right and Front/Back have negated
      normals. */
  lemma OppositeNormals(f: Face)
    ensures Normal(Opposite(f)) == Neg(Normal(f))
  {
    match f
    case Top =>
    case Bottom =>
    case Left =>
    case Right =>
    case Front =>
    case Back =>
  }

  /** Faces are told apart by their normals. */
  lemma NormalInjective(f: Face, g: Face)
    ensures Normal(f) == Normal(g) <==> f == g
  {
  }

  /** Every face's corners form a proper quad on its own side of the
      block. */
  lemma PositionsFormProperQuad(f: Face)
    ensures ProperQuad(Positions(f), Normal(f))
  {
    match f
    case Top =>
    case Bottom =>
    case Left =>
    case Right =>
    case Front =>
    case Back =>
  }

  /** The right-hand rule agrees with the cross product of the two unit
      vectors. */
  lemma TurnIsCross(a: Dir, b: Dir)
    ensures Turn(a, b).None? <==> Cross(AsIVec(a), AsIVec(b)) == IVec(0, 0, 0)
    ensures Turn(a, b).Some? ==> AsIVec(Turn(a, b).value) == Cross(AsIVec(a), AsIVec(b))
  {
  }

  /** Between two corners of the unit cube that share an edge, `Step` is
      the edge vector itself. */
  lemma StepIsEdge(p: IVec, q: IVec)
    requires UnitCubeCorner(p) && UnitCubeCorner(q) && Differing(p, q) == 1
    ensures AsIVec(Step(p, q)) == Sub(q, p)
  {
  }

  /** Winding as found: the corners of every face but Bottom run
      counter-clockwise seen from outside the block (the turn points along
      the normal); Bottom's run the other way, turning up into the
      block. */
  lemma WindingAsFound(f: Face)
    ensures Winding(f).Some?
    ensures f != Bottom ==> AsIVec(Winding(f).value) == Normal(f)
    ensures f == Bottom ==> AsIVec(Winding(f).value) == Normal(Top)
  {
    match f
    case Top =>
    case Bottom =>
    case Left =>
    case Right =>
    case Front =>
    case Back =>
  }

  /** Two consecutive edges of the unit cube that turn: their cross product
      is the turn. */
  lemma CrossOfEdges(p: IVec, q: IVec, r: IVec)
    requires UnitCubeCorner(p) && UnitCubeCorner(q) && UnitCubeCorner(r)
    requires Differing(p, q) == 1 && Differing(q, r) == 1
    requires Turn(Step(p, q), Step(q, r)).Some?
    ensures Cross(Sub(q, p), Sub(r, q)) == AsIVec(Turn(Step(p, q), Step(q, r)).value)
  {
    StepIsEdge(p, q);
    StepIsEdge(q, r);
    TurnIsCross(Step(p, q), Step(q, r));
  }

  /** The winding stated on the corners themselves: the cross product of a
      face's first two edges is its normal, except for Bottom, whose turn
      is Top's normal. */
  lemma WindingIsCross(f: Face)
    ensures var ps := Positions(f);
      Cross(Sub(ps[1], ps[0]), Sub(ps[2], ps[1])) == (if f == Bottom then Normal(Top) else Normal(f))
  {
    var ps := Positions(f);
    PositionsFormProperQuad(f);
    WindingAsFound(f);
    CrossOfEdges(ps[0], ps[1], ps[2]);
  }

  /** Every face uses the same texture-coordinate corners. */
  lemma UvsFaceIndependent(f: Face, g: Face)
    ensures Uvs(f) == Uvs(g)
  {
  }
}

=== FILE: noise.dfy ===
/** The noise generator of `src/noise.rs`: the builder and its setting
    ranges, the seeded permutation table, the index masks of the lattice
    lookups, and the octave sum with its final clamp. The gradient dot
    products and the fade curve are numeric detail left to a parameter. */
module Noise {

  import opened Utils

  // ---------------------------------------------------------------------
  // Builder
  // ---------------------------------------------------------------------

  datatype Builder = Builder(seed: bv64, frequency: real, octaves: nat,
                             persistence: real, lacunarity: real)

  /** The ranges the setters enforce. */
  predicate ValidSettings(b: Builder) {
    && b.frequency >= 0.0001
    && 1 <= b.octaves <= 16
    && 0.0 <= b.persistence <= 1.0
    && b.lacunarity >= 1.0
  }

  /** `PerlinNoiseBuilder::new`: the seed with the default settings, which
      already lie in the enforced ranges. */
  function NewBuilder(seed: bv64): (b: Builder)
    ensures b.seed == seed
    ensures ValidSettings(b)
  {
    Builder(seed, 0.005, 4, 0.5, 2.0)
  }

  /** `frequency`: at least 0.0001; a value in range is kept as given. */
  function SetFrequency(b: Builder, frequency: real): (r: Builder)
    ensures r.frequency >= 0.0001
    ensures frequency >= 0.0001 ==> r.frequency == frequency
    ensures frequency < 0.0001 ==> r.frequency == 0.0001
    ensures r == b.(frequency := r.frequency)
  {
    b.(frequency := if frequency >= 0.0001 then frequency else 0.0001)
  }

  /** `octaves`: clamped into 1..16. */
  function SetOctaves(b: Builder, octaves: nat): (r: Builder)
    ensures 1 <= r.octaves <= 16
    ensures 1 <= octaves <= 16 ==> r.octaves == octaves
    ensures octaves < 1 ==> r.octaves == 1
    ensures octaves > 16 ==> r.octaves == 16
    ensures r == b.(octaves := r.octaves)
  {
    var atLeastOne := if octaves >= 1 then octaves else 1;
    b.(octaves := if atLeastOne <= 16 then atLeastOne else 16)
  }

  /** `persistence`: clamped into [0, 1]. */
  function SetPersistence(b: Builder, persistence: real): (r: Builder)
    ensures 0.0 <= r.persistence <= 1.0
    ensures 0.0 <= persistence <= 1.0 ==> r.persistence == persistence
    ensures persistence < 0.0 ==> r.persistence == 0.0
    ensures persistence > 1.0 ==> r.persistence == 1.0
    ensures r == b.(persistence := r.persistence)
  {
    var atLeastZero := if persistence >= 0.0 then persistence else 0.0;
    b.(persistence := if atLeastZero <= 1.0 then atLeastZero else 1.0)
  }

  /** `lacunarity`: at least 1. */
  function SetLacunarity(b: Builder, lacunarity: real): (r: Builder)
    ensures r.lacunarity >= 1.0
    ensures lacunarity >= 1.0 ==> r.lacunarity == lacunarity
    ensures lacunarity < 1.0 ==> r.lacunarity == 1.0
    ensures r == b.(lacunarity := r.lacunarity)
  {
    b.(lacunarity := if lacunarity >= 1.0 then lacunarity else 1.0)
  }

  /** One builder call: a setter with its argument. */
  datatype Setting =
    | Frequency(f: real)
    | Octaves(n: nat)
    | Persistence(p: real)
    | Lacunarity(l: real)

  function Apply(b: Builder, s: Setting): Builder {
    match s
    case Frequency(f) => SetFrequency(b, f)
    case Octaves(n) => SetOctaves(b, n)
    case Persistence(p) => SetPersistence(b, p)
    case Lacunarity(l) => SetLacunarity(b, l)
  }

  function ApplyAll(b: Builder, ss: seq<Setting>): Builder
    decreases |ss|
  {
    if |ss| == 0 then b else ApplyAll(Apply(b, ss[0]), ss[1..])
  }

  /** Whatever chain of setters follows `new`, the builder's settings stay
      in range, and the seed is never touched. */
  lemma {:induction false} ChainedSettingsValid(b: Builder, ss: seq<Setting>)
    requires ValidSettings(b)
    ensures ValidSettings(ApplyAll(b, ss))
    ensures ApplyAll(b, ss).seed == b.seed
    decreases |ss|
  {
    if |ss| > 0 {
      ChainedSettingsValid(Apply(b, ss[0]), ss[1..]);
    }
  }

  /** Setting a value twice is setting it once: every setter is idempotent
      on its own output. */
  lemma SettersIdempotent(b: Builder, s: Setting)
    ensures var once := Apply(b, s);
            match s
            case Frequency(_) => SetFrequency(once, once.frequency) == once
            case Octaves(_) => SetOctaves(once, once.octaves) == once
            case Persistence(_) => SetPersistence(once, once.persistence) == once
            case Lacunarity(_) => SetLacunarity(once, once.lacunarity) == once
  {
  }

  // ---------------------------------------------------------------------
  // Permutation table
  // ---------------------------------------------------------------------

  const TABLE_SIZE: nat := 256

  /** One xorshift step followed by the wrapping multiplication; `bv64`
      arithmetic wraps exactly as `u64` does. Zero is the one fixed point:
      a zero seed hashes to zero forever (every swap partner is then 0),
      and any other seed never reaches zero. */
  function NextHash(h: bv64): (r: bv64)
    ensures h == 0 ==> r == 0
    ensures h != 0 ==> r != 0
  {
    var h1 := h ^ (h >> 12);
    var h2 := h1 ^ (h1 << 25);
    var h3 := h2 ^ (h2 >> 27);
    assert h != 0 ==> h1 != 0;
    assert h1 != 0 ==> h2 != 0;
    assert h2 != 0 ==> h3 != 0;
    h3 * 0x2545F4914F6CDD1D
  }

  /** The swap partner `hash % (i + 1)`: always at most `i`, so the swap
      stays inside the table. */
  function SwapIndex(h: bv64, i: nat): (j: nat)
    ensures j <= i
  {
    (h as int) % (i + 1)
  }

  function Swap(t: seq<int>, i: nat, j: nat): (r: seq<int>)
    requires i < |t| && j < |t|
    ensures |r| == |t|
    ensures multiset(r) == multiset(t)
    ensures r[i] == t[j] && r[j] == t[i]
    ensures forall k | 0 <= k < |t| && k != i && k != j :: r[k] == t[k]
  {
    t[i := t[j]][j := t[i]]
  }

  /** The numbers `0 .. n - 1` in order. */
  function Range(n: nat): seq<int> {
    seq(n, k => k)
  }

  /** Each of `0 .. n - 1` occurs in `Range(n)` once, and nothing else. */
  lemma {:induction false} RangeCounts(n: nat, v: int)
    ensures multiset(Range(n))[v] == if 0 <= v < n then 1 else 0
  {
    if n > 0 {
      RangeCounts(n - 1, v);
      assert Range(n) == Range(n - 1) + [n - 1];
    }
  }

  /** The Fisher–Yates pass from index `i` down to 0, continuing from hash
      `h`. */
  function ShuffleFrom(t: seq<int>, h: bv64, i: int): (r: seq<int>)
    requires |t| == TABLE_SIZE && -1 <= i < TABLE_SIZE
    ensures |r| == TABLE_SIZE
    ensures multiset(r) == multiset(t)
    decreases i + 1
  {
    if i < 0 then t
    else
      var h' := NextHash(h);
      ShuffleFrom(Swap(t, i, SwapIndex(h', i)), h', i - 1)
  }

  /** The shuffled 256 entries for a seed: a rearrangement of `0 .. 255`. */
  function Shuffled(seed: bv64): (r: seq<int>)
    ensures |r| == TABLE_SIZE
    ensures multiset(r) == multiset(Range(TABLE_SIZE))
  {
    ShuffleFrom(Range(TABLE_SIZE), seed, TABLE_SIZE - 1)
  }

  /** The shuffle only swaps: it holds each of `0 .. 255` once. */
  lemma ShuffledCounts(seed: bv64, v: int)
    ensures multiset(Shuffled(seed))[v] == if 0 <= v < TABLE_SIZE then 1 else 0
  {
    RangeCounts(TABLE_SIZE, v);
  }

  /** A permutation of `0 .. 255`: each of those numbers exactly once and
      nothing else. */
  lemma ShuffledIsPermutation(seed: bv64)
    ensures forall v | 0 <= v < TABLE_SIZE :: v in Shuffled(seed)
    ensures forall k | 0 <= k < TABLE_SIZE :: 0 <= Shuffled(seed)[k] < TABLE_SIZE
    ensures forall k, m | 0 <= k < m < TABLE_SIZE :: Shuffled(seed)[k] != Shuffled(seed)[m]
  {
    var r := Shuffled(seed);
    forall v | 0 <= v < TABLE_SIZE ensures v in r {
      ShuffledCounts(seed, v);
      assert multiset(r)[v] == 1;
    }
    forall k | 0 <= k < TABLE_SIZE ensures 0 <= r[k] < TABLE_SIZE {
      ShuffledCounts(seed, r[k]);
      assert r[k] in multiset(r);
    }
    forall k, m | 0 <= k < m < TABLE_SIZE ensures r[k] != r[m] {
      if r[k] == r[m] {
        TwoOccurrences(r, k, m);
        ShuffledCounts(seed, r[k]);
        assert false;
      }
    }
  }

  /** Two distinct indices holding the same value count it at least twice:
      the step of `ShuffledIsPermutation` that rules out duplicates. */
  lemma TwoOccurrences(r: seq<int>, k: nat, m: nat)
    requires k < m < |r| && r[k] == r[m]
    ensures multiset(r)[r[k]] >= 2
  {
    assert r == r[..m] + [r[m]] + r[m + 1..];
    assert r[..m] == r[..k] + [r[k]] + r[k + 1..m];
  }

  /** The table doubled to 512 entries. */
  function Doubled(t: seq<int>): (r: seq<int>)
    requires |t| == TABLE_SIZE
    ensures |r| == 2 * TABLE_SIZE
    ensures r[..TABLE_SIZE] == t
    ensures forall i | 0 <= i < 2 * TABLE_SIZE :: r[i] == r[i % TABLE_SIZE]
  {
    seq(2 * TABLE_SIZE, i requires 0 <= i < 2 * TABLE_SIZE => t[i % TABLE_SIZE])
  }

  datatype PerlinNoise = PerlinNoise(permutations: seq<int>, frequency: real, octaves: nat,
                                     persistence: real, lacunarity: real)

  /** What `build` produces: the doubled shuffle of the seed, and the
      settings copied. */
  function Built(b: Builder): PerlinNoise {
    PerlinNoise(Doubled(Shuffled(b.seed)), b.frequency, b.octaves, b.persistence, b.lacunarity)
  }

  /** `build`: shuffle `0 .. 255`, double the result into the 512-entry
      table, copy the settings. The table depends on the seed alone. */
  method Build(b: Builder) returns (n: PerlinNoise)
    ensures n == Built(b)
    ensures |n.permutations| == 2 * TABLE_SIZE
    ensures forall i | 0 <= i < 2 * TABLE_SIZE :: n.permutations[i] == n.permutations[i % TABLE_SIZE]
  {
    var temp := ShuffleInPlace(b.seed);
    var permutations := DoubleTable(temp);
    n := PerlinNoise(permutations, b.frequency, b.octaves, b.persistence, b.lacunarity);
  }

  /** The shuffle loop of `build`: from index 255 down to 0, advance the
      hash and swap entry `i` with entry `hash % (i + 1)`. */
  method ShuffleInPlace(seed: bv64) returns (t: seq<int>)
    ensures t == Shuffled(seed)
  {
    var temp := new int[TABLE_SIZE](k => k);
    assert temp[..] == Range(TABLE_SIZE);
    var hash := seed;
    var i: int := TABLE_SIZE - 1;
    while i >= 0
      invariant -1 <= i < TABLE_SIZE
      invariant ShuffleFrom(temp[..], hash, i) == Shuffled(seed)
      decreases i + 1
    {
      ghost var before := temp[..];
      hash := NextHash(hash);
      var j := SwapIndex(hash, i);
      temp[i], temp[j] := temp[j], temp[i];
      assert temp[..] == Swap(before, i, j);
      i := i - 1;
    }
    t := temp[..];
  }

  /** The copy loop of `build`: entry `i` of the table is entry `i % 256`
      of the shuffle. */
  method DoubleTable(t: seq<int>) returns (p: seq<int>)
    requires |t| == TABLE_SIZE
    ensures p == Doubled(t)
  {
    var permutations := new int[2 * TABLE_SIZE];
    for k := 0 to 2 * TABLE_SIZE
      invariant forall m | 0 <= m < k :: permutations[m] == t[m % TABLE_SIZE]
    {
      permutations[k] := t[k % TABLE_SIZE];
    }
    p := permutations[..];
  }

  // ---------------------------------------------------------------------
  // Lattice lookups
  // ---------------------------------------------------------------------

  /** `x & 255` on an `i32`: the low byte of the two's-complement
      representation, which is the Euclidean remainder by 256. */
  function LowByte(x: int): (r: nat)
    ensures r < TABLE_SIZE
    ensures x == x / TABLE_SIZE * TABLE_SIZE + r
  {
    x % TABLE_SIZE
  }

  /** A table built by `build`: 512 entries, each a `u8`. */
  predicate IsTable(p: seq<int>) {
    |p| == 2 * TABLE_SIZE && forall i | 0 <= i < |p| :: 0 <= p[i] < TABLE_SIZE
  }

  lemma BuiltIsTable(b: Builder)
    ensures IsTable(Built(b).permutations)
  {
    ShuffledIsPermutation(b.seed);
  }

  /** The four corner hashes of `perlin2d`. */
  datatype Corners2 = Corners2(aa: nat, ab: nat, ba: nat, bb: nat)

  /** The hash chain of `perlin2d` for the lattice cell `(xi, yi)`: every
      lookup is masked to the low byte, so every index is in the table and
      every hash is a table entry. */
  function Hash2(p: seq<int>, xi: int, yi: int): (c: Corners2)
    requires IsTable(p)
    ensures c.aa < TABLE_SIZE && c.ab < TABLE_SIZE && c.ba < TABLE_SIZE && c.bb < TABLE_SIZE
    ensures c.aa in p && c.ab in p && c.ba in p && c.bb in p
  {
    var a := p[LowByte(xi)] + yi;
    var b := p[LowByte(xi + 1)] + yi;
    Corners2(p[LowByte(a)], p[LowByte(a + 1)], p[LowByte(b)], p[LowByte(b + 1)])
  }

  /** The eight corner hashes of `perlin3d`. */
  datatype Corners3 = Corners3(aaa: nat, aab: nat, aba: nat, abb: nat,
                               baa: nat, bab: nat, bba: nat, bbb: nat)

  function Hash3(p: seq<int>, xi: int, yi: int, zi: int): (c: Corners3)
    requires IsTable(p)
    ensures c.aaa < TABLE_SIZE && c.aab < TABLE_SIZE && c.aba < TABLE_SIZE && c.abb < TABLE_SIZE
    ensures c.baa < TABLE_SIZE && c.bab < TABLE_SIZE && c.bba < TABLE_SIZE && c.bbb < TABLE_SIZE
  {
    var a := p[LowByte(xi)] + yi;
    var aa := p[LowByte(a)] + zi;
    var ab := p[LowByte(a + 1)] + zi;
    var b := p[LowByte(xi + 1)] + yi;
    var ba := p[LowByte(b)] + zi;
    var bb := p[LowByte(b + 1)] + zi;
    Corners3(p[LowByte(aa)], p[LowByte(aa + 1)], p[LowByte(ab)], p[LowByte(ab + 1)],
             p[LowByte(ba)], p[LowByte(ba + 1)], p[LowByte(bb)], p[LowByte(bb + 1)])
  }

  const GRADIENT_2D_COUNT: nat := 16
  const GRADIENT_3D_COUNT: nat := 12

  /** `hash & 15` on a `usize`: the remainder by 16, an index into the 16
      two-dimensional gradients. */
  function Gradient2Index(hash: nat): (k: nat)
    ensures k < GRADIENT_2D_COUNT
    ensures hash == hash / GRADIENT_2D_COUNT * GRADIENT_2D_COUNT + k
  {
    hash % GRADIENT_2D_COUNT
  }

  /** `hash % 12`: an index into the 12 three-dimensional gradients. */
  function Gradient3Index(hash: nat): (k: nat)
    ensures k < GRADIENT_3D_COUNT
    ensures hash == hash / GRADIENT_3D_COUNT * GRADIENT_3D_COUNT + k
  {
    hash % GRADIENT_3D_COUNT
  }

  // ---------------------------------------------------------------------
  // Octave sum
  // ---------------------------------------------------------------------

  /** The loop state of `noise2d`/`noise3d`. */
  datatype OctaveState = OctaveState(value: real, maxValue: real, amplitude: real, frequency: real)

  /** `x` to the power `k`. */
  function Power(x: real, k: nat): real {
    if k == 0 then 1.0 else Power(x, k - 1) * x
  }

  /** The geometric sum `1 + x + ... + x^(k-1)`. */
  function PowerSum(x: real, k: nat): real {
    if k == 0 then 0.0 else PowerSum(x, k - 1) + Power(x, k - 1)
  }

  /** The loop state after `k` octaves; `sample(f)` is the lattice noise at
      the input scaled by frequency `f`. Octave `k` runs at amplitude
      `persistence^k` and frequency `frequency * lacunarity^k`, and the
      normaliser is the geometric sum of the amplitudes so far. */
  function Accumulate(n: PerlinNoise, sample: real -> real, k: nat): (s: OctaveState)
    ensures s.amplitude == Power(n.persistence, k)
    ensures s.frequency == n.frequency * Power(n.lacunarity, k)
    ensures s.maxValue == PowerSum(n.persistence, k)
  {
    if k == 0 then OctaveState(0.0, 0.0, 1.0, n.frequency)
    else
      var s := Accumulate(n, sample, k - 1);
      OctaveState(s.value + sample(s.frequency) * s.amplitude, s.maxValue + s.amplitude,
              s.amplitude * n.persistence, s.frequency * n.lacunarity)
  }

  function Clamp(v: real, lo: real, hi: real): (r: real)
    requires lo <= hi
    ensures lo <= r <= hi
    ensures lo <= v <= hi ==> r == v
  {
    if v < lo then lo else if v > hi then hi else v
  }

  /** `noise2d` and `noise3d` once the octaves are summed: normalise by the
      total amplitude when it is positive, clamp to [-1, 1], map to
      [0, 1]. */
  function Fbm(n: PerlinNoise, sample: real -> real): (r: real)
    ensures 0.0 <= r <= 1.0
  {
    var s := Accumulate(n, sample, n.octaves);
    var v := if s.maxValue > 0.0 then s.value / s.maxValue else s.value;
    Clamp(v, -1.0, 1.0) * 0.5 + 0.5
  }

  function Noise2d(n: PerlinNoise, perlin2d: (real, real) -> real, x: real, y: real): (r: real)
    ensures 0.0 <= r <= 1.0
  {
    Fbm(n, f => perlin2d(x * f, y * f))
  }

  function Noise3d(n: PerlinNoise, perlin3d: (real, real, real) -> real,
                   x: real, y: real, z: real): (r: real)
    ensures 0.0 <= r <= 1.0
  {
    Fbm(n, f => perlin3d(x * f, y * f, z * f))
  }

  /** A power of a number in [0, 1] stays in [0, 1]. */
  lemma {:induction false} PowerBounds(x: real, k: nat)
    requires 0.0 <= x <= 1.0
    ensures 0.0 <= Power(x, k) <= 1.0
  {
    if k > 0 {
      PowerBounds(x, k - 1);
      MulNonneg(Power(x, k - 1), x);
      MulNonneg(Power(x, k - 1), 1.0 - x);
    }
  }

  /** The geometric sum of a number in [0, 1] is non-negative, and at least
      1 once it has a term. */
  lemma {:induction false} PowerSumBounds(x: real, k: nat)
    requires 0.0 <= x <= 1.0
    ensures 0.0 <= PowerSum(x, k)
    ensures k >= 1 ==> PowerSum(x, k) >= 1.0
  {
    if k > 0 {
      PowerSumBounds(x, k - 1);
      PowerBounds(x, k - 1);
    }
  }

  /** With persistence in [0, 1] the amplitude stays in [0, 1] and the
      total amplitude is non-negative, and at least 1 after one octave. */
  lemma AmplitudeBounds(n: PerlinNoise, sample: real -> real, k: nat)
    requires 0.0 <= n.persistence <= 1.0
    ensures 0.0 <= Accumulate(n, sample, k).amplitude <= 1.0
    ensures 0.0 <= Accumulate(n, sample, k).maxValue
    ensures k >= 1 ==> Accumulate(n, sample, k).maxValue >= 1.0
  {
    PowerBounds(n.persistence, k);
    PowerSumBounds(n.persistence, k);
  }

  /** With, in addition, every octave sample in [-1, 1], the weighted sum
      never exceeds the total amplitude in size. */
  /** One octave more adds the octave's weighted sample to the value and
      its amplitude to the normaliser. */
  lemma AccumulateStep(n: PerlinNoise, sample: real -> real, k: nat)
    requires k > 0
    ensures var s := Accumulate(n, sample, k - 1);
            && Accumulate(n, sample, k).value == s.value + sample(s.frequency) * s.amplitude
            && Accumulate(n, sample, k).maxValue == s.maxValue + s.amplitude
  {
  }

  /** The bound `|value| <= maxValue` survives adding an octave whose
      sample lies in [-1, 1]. */
  lemma OctaveBound(s: OctaveState, t: OctaveState, v: real)
    requires -s.maxValue <= s.value <= s.maxValue
    requires 0.0 <= s.amplitude && -1.0 <= v <= 1.0
    requires t.value == s.value + v * s.amplitude && t.maxValue == s.maxValue + s.amplitude
    ensures -t.maxValue <= t.value <= t.maxValue
  {
    SampleStep(s.value, s.maxValue, s.amplitude, v);
  }

  lemma {:induction false} AccumulateBounds(n: PerlinNoise, sample: real -> real, k: nat)
    requires 0.0 <= n.persistence <= 1.0
    requires forall f :: -1.0 <= sample(f) <= 1.0
    ensures -Accumulate(n, sample, k).maxValue <= Accumulate(n, sample, k).value
    ensures Accumulate(n, sample, k).value <= Accumulate(n, sample, k).maxValue
  {
    if k > 0 {
      AccumulateBounds(n, sample, k - 1);
      AmplitudeBounds(n, sample, k - 1);
      var s := Accumulate(n, sample, k - 1);
      AccumulateStep(n, sample, k);
      OctaveBound(s, Accumulate(n, sample, k), sample(s.frequency));
    }
  }

  /** One octave, in isolation: the weighted sample stays within the grown
      total. */
  lemma SampleStep(value: real, maxValue: real, amplitude: real, v: real)
    requires -maxValue <= value <= maxValue
    requires 0.0 <= amplitude && -1.0 <= v <= 1.0
    ensures -(maxValue + amplitude) <= value + v * amplitude <= maxValue + amplitude
  {
    MulNonneg(1.0 - v, amplitude);
    MulNonneg(1.0 + v, amplitude);
  }

  /** Under those conditions the clamp never bites: the result is exactly
      the normalised sum mapped to [0, 1]. */
  lemma FbmClampInactive(n: PerlinNoise, sample: real -> real)
    requires n.octaves >= 1 && 0.0 <= n.persistence <= 1.0
    requires forall f :: -1.0 <= sample(f) <= 1.0
    ensures var s := Accumulate(n, sample, n.octaves);
            s.maxValue >= 1.0 &&
            Fbm(n, sample) == (s.value / s.maxValue) * 0.5 + 0.5
  {
    AccumulateBounds(n, sample, n.octaves);
    AmplitudeBounds(n, sample, n.octaves);
    var s := Accumulate(n, sample, n.octaves);
    var v := s.value / s.maxValue;
    assert -1.0 <= v <= 1.0 by {
      DivBound(s.value, s.maxValue);
    }
  }

  lemma DivBound(v: real, m: real)
    requires m > 0.0 && -m <= v <= m
    ensures -1.0 <= v / m <= 1.0
  {
    assert v / m * m == v;
  }
}

=== FILE: spline.dfy ===
/** The piecewise-linear curves of `src/spline.rs`, over the reals. */
module Splines {

  import opened Utils

  datatype SplinePoint = SplinePoint(x: real, y: real)

  /** Control points in non-decreasing order of x. */
  predicate SortedByX(ps: seq<SplinePoint>) {
    forall i, j | 0 <= i < j < |ps| :: ps[i].x <= ps[j].x
  }

  /** A spline: its points are private and `Spline::new` always sorts them,
      so every spline is sorted by x. */
  type Spline = ps: seq<SplinePoint> | SortedByX(ps) witness []

  // ---------------------------------------------------------------------
  // Construction: a stable sort by x
  // ---------------------------------------------------------------------

  /** The points of `ps` whose x is `k`, in their original order. */
  function WithX(ps: seq<SplinePoint>, k: real): seq<SplinePoint> {
    if |ps| == 0 then []
    else (if ps[0].x == k then [ps[0]] else []) + WithX(ps[1..], k)
  }

  /** Insert `p` into sorted `s` in front of the first point whose x is not
      smaller, so it precedes the points of equal x. */
  function Insert(p: SplinePoint, s: seq<SplinePoint>): (r: seq<SplinePoint>)
    requires SortedByX(s)
    ensures SortedByX(r)
    ensures multiset(r) == multiset(s) + multiset{p}
    ensures |r| == |s| + 1
    ensures r[0] == p || (|s| > 0 && r[0] == s[0])
  {
    if |s| == 0 || p.x <= s[0].x then [p] + s
    else
      var rest := Insert(p, s[1..]);
      assert s == [s[0]] + s[1..];
      assert s[0].x <= rest[0].x;
      [s[0]] + rest
  }

  /** `Spline::new`: the points sorted by x. Rust's `sort_by` is a stable
      sort, so points of equal x keep their relative order. */
  function New(ps: seq<SplinePoint>): (r: Spline)
    ensures multiset(r) == multiset(ps)
    ensures |r| == |ps|
  {
    if |ps| == 0 then []
    else
      assert ps == [ps[0]] + ps[1..];
      Insert(ps[0], New(ps[1..]))
  }

  lemma {:induction false} InsertWithX(p: SplinePoint, s: seq<SplinePoint>, k: real)
    requires SortedByX(s)
    ensures WithX(Insert(p, s), k) == (if p.x == k then [p] else []) + WithX(s, k)
  {
    if |s| == 0 || p.x <= s[0].x {
      ConsWithX(p, s, k);
    } else {
      var tail := s[1..];
      SortedTail(s);
      var rest := Insert(p, tail);
      assert Insert(p, s) == [s[0]] + rest;
      InsertWithX(p, tail, k);
      ConsWithX(s[0], rest, k);
      assert s == [s[0]] + tail;
      ConsWithX(s[0], tail, k);
      if p.x == k {
        assert s[0].x != k;
      } else {
        assert WithX(rest, k) == WithX(tail, k);
      }
    }
  }

  /** `WithX` of a sequence with a given head. */
  lemma ConsWithX(a: SplinePoint, r: seq<SplinePoint>, k: real)
    ensures WithX([a] + r, k) == (if a.x == k then [a] else []) + WithX(r, k)
  {
  }

  lemma SortedTail(s: seq<SplinePoint>)
    requires SortedByX(s) && |s| > 0
    ensures SortedByX(s[1..])
  {
  }

  /** Stability: for every x value, the points with that x appear in the
      sorted spline in the order they were given. */
  lemma {:induction false} NewIsStable(ps: seq<SplinePoint>, k: real)
    ensures WithX(New(ps), k) == WithX(ps, k)
  {
    if |ps| > 0 {
      NewIsStable(ps[1..], k);
      InsertWithX(ps[0], New(ps[1..]), k);
    }
  }

  lemma {:induction false} InsertSorted(p: SplinePoint, s: seq<SplinePoint>)
    requires SortedByX(s) && (|s| > 0 ==> p.x <= s[0].x)
    ensures Insert(p, s) == [p] + s
  {
  }

  /** Points already in order come out unchanged. */
  lemma {:induction false} NewOfSorted(ps: seq<SplinePoint>)
    requires SortedByX(ps)
    ensures New(ps) == ps
  {
    if |ps| > 0 {
      assert SortedByX(ps[1..]);
      NewOfSorted(ps[1..]);
      assert ps == [ps[0]] + ps[1..];
      assert |ps| > 1 ==> ps[0].x <= ps[1].x;
      InsertSorted(ps[0], ps[1..]);
    }
  }

  // ---------------------------------------------------------------------
  // Sampling
  // ---------------------------------------------------------------------

  /** Interpolation on the segment from `p` to `q`. */
  function Interp(p: SplinePoint, q: SplinePoint, x: real): (r: real)
    requires p.x < q.x
    ensures p.x <= x <= q.x && p.y <= q.y ==> p.y <= r <= q.y
    ensures p.x <= x <= q.x && q.y <= p.y ==> q.y <= r <= p.y
    ensures x == q.x ==> r == q.y
    ensures x == p.x ==> r == p.y
  {
    var t := (x - p.x) / (q.x - p.x);
    assert p.x <= x <= q.x ==> 0.0 <= t <= 1.0;
    Lerp(p.y, q.y, t)
  }

  /** `x` lies on segment `j` (from point `j - 1` to point `j`): strictly
      past its start, up to and including its end. */
  predicate OnSegment(s: Spline, j: int, x: real) {
    1 <= j < |s| && s[j - 1].x < x <= s[j].x
  }

  /** The segment search of `sample` from index `i` on. Every segment
      before `i` ends left of `x` and `x` lies left of the last point, so
      the search always stops at a segment of positive width: the fallback
      after the loop is unreachable and the division never divides by
      zero. */
  function Scan(s: Spline, x: real, i: nat): (r: real)
    requires i < |s| && s[i].x < x < s[|s| - 1].x
    ensures forall j | i < j && OnSegment(s, j, x) :: r == Interp(s[j - 1], s[j], x)
    decreases |s| - i
  {
    if x <= s[i + 1].x then Interp(s[i], s[i + 1], x)
    else Scan(s, x, i + 1)
  }

  /** `Spline::sample`. */
  function Sample(s: Spline, x: real): (r: real)
    ensures |s| == 0 ==> r == 0.0
    ensures |s| == 1 ==> r == s[0].y
    ensures |s| > 0 && x <= s[0].x ==> r == s[0].y
    ensures |s| > 0 && s[0].x < x && s[|s| - 1].x <= x ==> r == s[|s| - 1].y
    ensures forall j | OnSegment(s, j, x) && x < s[|s| - 1].x :: r == Interp(s[j - 1], s[j], x)
  {
    if |s| == 0 then 0.0
    else if |s| == 1 then s[0].y
    else if x <= s[0].x then s[0].y
    else if x >= s[|s| - 1].x then s[|s| - 1].y
    else Scan(s, x, 0)
  }

  /** Between the first and the last point there is exactly one segment
      that holds `x`. */
  lemma SegmentExists(s: Spline, x: real) returns (j: int)
    requires |s| > 0 && s[0].x < x <= s[|s| - 1].x
    ensures OnSegment(s, j, x)
    ensures forall k | OnSegment(s, k, x) :: k == j
  {
    j := 1;
    while s[j].x < x
      invariant 1 <= j < |s| && s[j - 1].x < x
      decreases |s| - j
    {
      j := j + 1;
    }
  }

  /** Inside the curve the result lies between the y values of the two
      points that bracket `x`. */
  lemma SampleBetween(s: Spline, x: real) returns (j: int)
    requires |s| > 0 && s[0].x < x < s[|s| - 1].x
    ensures OnSegment(s, j, x)
    ensures Min(s[j - 1].y, s[j].y) <= Sample(s, x) <= Max(s[j - 1].y, s[j].y)
  {
    j := SegmentExists(s, x);
  }

  function Min(a: real, b: real): real { if a <= b then a else b }
  function Max(a: real, b: real): real { if a <= b then b else a }

  /** At the x of a control point the curve passes through that point,
      when the point is the first of its x and its x is left of the last
      point's (duplicates are resolved to the first, except at the right
      end, which clamps to the last). Distinct x values satisfy this for
      every point. */
  lemma SampleAtControlPoint(s: Spline, k: nat)
    requires k < |s|
    requires k == 0 || s[k - 1].x < s[k].x
    requires k == |s| - 1 || s[k].x < s[|s| - 1].x
    ensures Sample(s, s[k].x) == s[k].y
  {
    if 0 < k < |s| - 1 {
      assert OnSegment(s, k, s[k].x);
    } else if k == |s| - 1 && k > 0 {
      assert s[0].x <= s[k - 1].x;
    }
  }

  /** Every point at or after `i` is at least as high as point `i`. */
  predicate NonDecreasingY(s: seq<SplinePoint>) {
    forall i, j | 0 <= i < j < |s| :: s[i].y <= s[j].y
  }

  /** Every point at or after `i` is at most as high as point `i`. */
  predicate NonIncreasingY(s: seq<SplinePoint>) {
    forall i, j | 0 <= i < j < |s| :: s[j].y <= s[i].y
  }

  /** With non-increasing y values the curve stays between the last and
      the first y. */
  lemma SampleInRangeFalling(s: Spline, x: real)
    requires |s| > 0 && NonIncreasingY(s)
    ensures s[|s| - 1].y <= Sample(s, x) <= s[0].y
  {
    if s[0].x < x < s[|s| - 1].x {
      var j := SampleBetween(s, x);
      assert s[j].y <= s[j - 1].y <= s[0].y && s[|s| - 1].y <= s[j].y;
    }
  }

  /** With non-decreasing y values the curve stays between the first and
      the last y. */
  lemma SampleInRange(s: Spline, x: real)
    requires |s| > 0 && NonDecreasingY(s)
    ensures s[0].y <= Sample(s, x) <= s[|s| - 1].y
  {
    if s[0].x < x < s[|s| - 1].x {
      var j := SampleBetween(s, x);
      assert s[0].y <= s[j - 1].y && s[j].y <= s[|s| - 1].y;
    }
  }

  /** A curve whose control y values are non-decreasing in x is itself
      non-decreasing. */
  lemma SampleMonotone(s: Spline, x1: real, x2: real)
    requires NonDecreasingY(s) && x1 <= x2
    ensures Sample(s, x1) <= Sample(s, x2)
  {
    if |s| == 0 {
    } else if x1 <= s[0].x {
      SampleInRange(s, x2);
    } else if x2 >= s[|s| - 1].x {
      SampleInRange(s, x1);
    } else {
      var j1 := SampleBetween(s, x1);
      var j2 := SampleBetween(s, x2);
      if j1 == j2 {
        SegmentMonotone(s[j1 - 1], s[j1], x1, x2);
      } else {
        assert s[j1].y <= s[j2 - 1].y;
      }
    }
  }

  /** A curve whose control y values are non-increasing in x is itself
      non-increasing. */
  lemma SampleMonotoneFalling(s: Spline, x1: real, x2: real)
    requires NonIncreasingY(s) && x1 <= x2
    ensures Sample(s, x2) <= Sample(s, x1)
  {
    if |s| == 0 {
    } else if x1 <= s[0].x {
      SampleInRangeFalling(s, x2);
    } else if x2 >= s[|s| - 1].x {
      SampleInRangeFalling(s, x1);
    } else {
      var j1 := SampleBetween(s, x1);
      var j2 := SampleBetween(s, x2);
      if j1 == j2 {
        SegmentMonotoneFalling(s[j1 - 1], s[j1], x1, x2);
      } else {
        assert s[j2 - 1].y <= s[j1].y;
      }
    }
  }

  lemma SegmentMonotoneFalling(p: SplinePoint, q: SplinePoint, x1: real, x2: real)
    requires p.x < q.x && q.y <= p.y && x1 <= x2
    ensures Interp(p, q, x2) <= Interp(p, q, x1)
  {
    var d := q.x - p.x;
    var t1, t2 := (x1 - p.x) / d, (x2 - p.x) / d;
    assert t2 - t1 == (x2 - x1) / d;
    assert Lerp(p.y, q.y, t1) - Lerp(p.y, q.y, t2) == (t2 - t1) * (p.y - q.y);
    MulNonneg(t2 - t1, p.y - q.y);
  }

  lemma SegmentMonotone(p: SplinePoint, q: SplinePoint, x1: real, x2: real)
    requires p.x < q.x && p.y <= q.y && x1 <= x2
    ensures Interp(p, q, x1) <= Interp(p, q, x2)
  {
    var d := q.x - p.x;
    var t1, t2 := (x1 - p.x) / d, (x2 - p.x) / d;
    assert t2 - t1 == (x2 - x1) / d;
    LerpMonotone(p.y, q.y, t1, t2);
  }

  // ---------------------------------------------------------------------
  // The three terrain curves of `src/world.rs`
  // ---------------------------------------------------------------------

  /** Consecutive points in order: enough for the whole list to be. */
  lemma {:induction false} AdjacentSorted(ps: seq<SplinePoint>)
    requires forall i | 0 <= i < |ps| - 1 :: ps[i].x <= ps[i + 1].x
    ensures SortedByX(ps)
  {
    if |ps| > 1 {
      var t := ps[1..];
      AdjacentSorted(t);
      forall i, j | 0 <= i < j < |ps|
        ensures ps[i].x <= ps[j].x
      {
        if i > 0 {
          assert ps[i] == t[i - 1] && ps[j] == t[j - 1];
        } else if j > 1 {
          assert ps[1] == t[0] && ps[j] == t[j - 1];
        }
      }
    }
  }

  lemma {:induction false} AdjacentNonDecreasing(ps: seq<SplinePoint>)
    requires forall i | 0 <= i < |ps| - 1 :: ps[i].y <= ps[i + 1].y
    ensures NonDecreasingY(ps)
  {
    if |ps| > 1 {
      var t := ps[1..];
      AdjacentNonDecreasing(t);
      forall i, j | 0 <= i < j < |ps|
        ensures ps[i].y <= ps[j].y
      {
        if i > 0 {
          assert ps[i] == t[i - 1] && ps[j] == t[j - 1];
        } else if j > 1 {
          assert ps[1] == t[0] && ps[j] == t[j - 1];
        }
      }
    }
  }

  lemma {:induction false} AdjacentNonIncreasing(ps: seq<SplinePoint>)
    requires forall i | 0 <= i < |ps| - 1 :: ps[i + 1].y <= ps[i].y
    ensures NonIncreasingY(ps)
  {
    if |ps| > 1 {
      var t := ps[1..];
      AdjacentNonIncreasing(t);
      forall i, j | 0 <= i < j < |ps|
        ensures ps[j].y <= ps[i].y
      {
        if i > 0 {
          assert ps[i] == t[i - 1] && ps[j] == t[j - 1];
        } else if j > 1 {
          assert ps[1] == t[0] && ps[j] == t[j - 1];
        }
      }
    }
  }

  const CONTINENTALNESS_POINTS: seq<SplinePoint> := [
    SplinePoint(-1.0, -40.0), SplinePoint(-0.45, -20.0), SplinePoint(-0.2, -2.0),
    SplinePoint(-0.1, -1.0), SplinePoint(0.15, 2.0), SplinePoint(0.3, 8.0),
    SplinePoint(0.5, 10.0), SplinePoint(0.7, 18.0), SplinePoint(0.8, 20.0),
    SplinePoint(1.0, 30.0)]

  const EROSION_POINTS: seq<SplinePoint> := [
    SplinePoint(-1.0, 1.0), SplinePoint(-0.8, 0.9), SplinePoint(-0.38, 0.8),
    SplinePoint(-0.22, 0.6), SplinePoint(0.05, 0.5), SplinePoint(0.45, 0.4),
    SplinePoint(0.9, 0.2), SplinePoint(1.0, 0.1)]

  const PEAKS_VALLEYS_POINTS: seq<SplinePoint> := [
    SplinePoint(-1.0, -30.0), SplinePoint(-0.9, 0.0), SplinePoint(-0.2, 2.0),
    SplinePoint(0.2, 10.0), SplinePoint(0.6, 30.0), SplinePoint(0.9, 60.0),
    SplinePoint(1.0, 60.0)]

  /** The continentalness points are listed in order of x and rise. */
  lemma ContinentalnessPointsOrdered()
    ensures SortedByX(CONTINENTALNESS_POINTS) && NonDecreasingY(CONTINENTALNESS_POINTS)
  {
    AdjacentSorted(CONTINENTALNESS_POINTS);
    AdjacentNonDecreasing(CONTINENTALNESS_POINTS);
  }

  /** The peaks-and-valleys points are listed in order of x and never fall. */
  lemma PeaksValleysPointsOrdered()
    ensures SortedByX(PEAKS_VALLEYS_POINTS) && NonDecreasingY(PEAKS_VALLEYS_POINTS)
  {
    AdjacentSorted(PEAKS_VALLEYS_POINTS);
    AdjacentNonDecreasing(PEAKS_VALLEYS_POINTS);
  }

  /** The erosion points are listed in order of x and never rise. */
  lemma ErosionPointsOrdered()
    ensures SortedByX(EROSION_POINTS) && NonIncreasingY(EROSION_POINTS)
  {
    AdjacentSorted(EROSION_POINTS);
    AdjacentNonIncreasing(EROSION_POINTS);
  }

  /** `new` keeps the continentalness points as listed. */
  lemma ContinentalnessKept()
    ensures New(CONTINENTALNESS_POINTS) == CONTINENTALNESS_POINTS
  {
    ContinentalnessPointsOrdered();
    NewOfSorted(CONTINENTALNESS_POINTS);
  }

  /** The continentalness curve stays between -40.0 and 30.0. */
  lemma ContinentalnessRange(c: real)
    ensures -40.0 <= Sample(CONTINENTALNESS_POINTS, c) <= 30.0
  {
    ContinentalnessPointsOrdered();
    SampleInRange(CONTINENTALNESS_POINTS, c);
  }

  /** The continentalness curve is non-decreasing. */
  lemma ContinentalnessMonotone(c1: real, c2: real)
    requires c1 <= c2
    ensures Sample(CONTINENTALNESS_POINTS, c1) <= Sample(CONTINENTALNESS_POINTS, c2)
  {
    ContinentalnessPointsOrdered();
    SampleMonotone(CONTINENTALNESS_POINTS, c1, c2);
  }

  /** `new` keeps the peaks-and-valleys points as listed. */
  lemma PeaksValleysKept()
    ensures New(PEAKS_VALLEYS_POINTS) == PEAKS_VALLEYS_POINTS
  {
    PeaksValleysPointsOrdered();
    NewOfSorted(PEAKS_VALLEYS_POINTS);
  }

  /** The peaks-and-valleys curve stays between -30.0 and 60.0. */
  lemma PeaksValleysRange(v: real)
    ensures -30.0 <= Sample(PEAKS_VALLEYS_POINTS, v) <= 60.0
  {
    PeaksValleysPointsOrdered();
    SampleInRange(PEAKS_VALLEYS_POINTS, v);
  }

  /** The peaks-and-valleys curve is non-decreasing. */
  lemma PeaksValleysMonotone(v1: real, v2: real)
    requires v1 <= v2
    ensures Sample(PEAKS_VALLEYS_POINTS, v1) <= Sample(PEAKS_VALLEYS_POINTS, v2)
  {
    PeaksValleysPointsOrdered();
    SampleMonotone(PEAKS_VALLEYS_POINTS, v1, v2);
  }

  /** `new` keeps the erosion-factor points as listed. */
  lemma ErosionKept()
    ensures New(EROSION_POINTS) == EROSION_POINTS
  {
    ErosionPointsOrdered();
    NewOfSorted(EROSION_POINTS);
  }

  /** The erosion-factor curve stays between 0.1 and 1.0. */
  lemma ErosionRange(e: real)
    ensures 0.1 <= Sample(EROSION_POINTS, e) <= 1.0
  {
    ErosionPointsOrdered();
    SampleInRangeFalling(EROSION_POINTS, e);
  }

  /** The erosion-factor curve is non-increasing. */
  lemma ErosionMonotone(e1: real, e2: real)
    requires e1 <= e2
    ensures Sample(EROSION_POINTS, e2) <= Sample(EROSION_POINTS, e1)
  {
    ErosionPointsOrdered();
    SampleMonotoneFalling(EROSION_POINTS, e1, e2);
  }
}

=== FILE: state.dfy ===
/** Chunk streaming around the camera (`State::update_chunks` and
    `State::generate_chunk_mesh` in `src/state.rs`): the square of chunks
    within the render distance is loaded, render data outside it is
    dropped, and every chunk in it without render data is meshed and, if
    the mesh is not empty, uploaded. */
module Streaming {

  import opened Wrappers
  import opened Chunks
  import opened Coords
  import opened WorldCache

  /** `c` is within `r` chunks of `center` along both axes. */
  predicate InRange(center: ChunkCoords, r: int, c: ChunkCoords) {
    -r <= c.0 - center.0 <= r && -r <= c.1 - center.1 <= r
  }

  /** The chunks `(center.0 + dx, center.1 + dy)` for `lo <= dy < hi`. */
  function Strip(center: ChunkCoords, dx: int, lo: int, hi: int): set<ChunkCoords>
    decreases hi - lo
  {
    if hi <= lo then {} else Strip(center, dx, lo, hi - 1) + {(center.0 + dx, center.1 + hi - 1)}
  }

  /** The chunks `(center.0 + dx, center.1 + dy)` for `lo <= dx < hi` and
      `-r <= dy <= r`, strip by strip. */
  function Strips(center: ChunkCoords, r: int, lo: int, hi: int): set<ChunkCoords>
    decreases hi - lo
  {
    if hi <= lo then {} else Strips(center, r, lo, hi - 1) + Strip(center, hi - 1, -r, r + 1)
  }

  lemma {:induction false} StripMembers(center: ChunkCoords, dx: int, lo: int, hi: int, c: ChunkCoords)
    ensures c in Strip(center, dx, lo, hi) <==> c.0 == center.0 + dx && lo <= c.1 - center.1 < hi
    decreases hi - lo
  {
    if lo < hi {
      StripMembers(center, dx, lo, hi - 1, c);
    }
  }

  /** A strip grows by one chunk at its top end. */
  lemma StripStep(center: ChunkCoords, dx: int, lo: int, hi: int)
    requires lo <= hi
    ensures Strip(center, dx, lo, hi + 1) == Strip(center, dx, lo, hi) + {(center.0 + dx, center.1 + hi)}
  {
    assert center.1 + (hi + 1) - 1 == center.1 + hi;
  }

  /** The strips grow by one strip at their top end. */
  lemma StripsStep(center: ChunkCoords, r: int, lo: int, hi: int)
    requires lo <= hi
    ensures Strips(center, r, lo, hi + 1) == Strips(center, r, lo, hi) + Strip(center, hi, -r, r + 1)
  {
    assert hi + 1 - 1 == hi;
  }

  lemma {:induction false} StripSize(center: ChunkCoords, dx: int, lo: int, hi: int)
    requires lo <= hi
    ensures |Strip(center, dx, lo, hi)| == hi - lo
    decreases hi - lo
  {
    if lo < hi {
      StripSize(center, dx, lo, hi - 1);
      StripMembers(center, dx, lo, hi - 1, (center.0 + dx, center.1 + hi - 1));
    }
  }

  lemma {:induction false} StripsMembers(center: ChunkCoords, r: int, lo: int, hi: int, c: ChunkCoords)
    ensures c in Strips(center, r, lo, hi) <==>
              lo <= c.0 - center.0 < hi && -r <= c.1 - center.1 <= r
    decreases hi - lo
  {
    if lo < hi {
      StripsMembers(center, r, lo, hi - 1, c);
      StripMembers(center, hi - 1, -r, r + 1, c);
    }
  }

  lemma {:induction false} StripsSize(center: ChunkCoords, r: int, lo: int, hi: int)
    requires 0 <= r && lo <= hi
    ensures |Strips(center, r, lo, hi)| == (hi - lo) * (2 * r + 1)
    decreases hi - lo
  {
    if lo < hi {
      StripsSize(center, r, lo, hi - 1);
      StripSize(center, hi - 1, -r, r + 1);
      var prev, last := Strips(center, r, lo, hi - 1), Strip(center, hi - 1, -r, r + 1);
      forall c | c in prev
        ensures c !in last
      {
        StripsMembers(center, r, lo, hi - 1, c);
        StripMembers(center, hi - 1, -r, r + 1, c);
      }
      assert prev * last == {};
      assert (hi - lo) * (2 * r + 1) == (hi - 1 - lo) * (2 * r + 1) + (2 * r + 1);
    }
  }

  /** The square of radius `r` holds `(2r + 1)^2` chunks. */
  lemma SquareSize(center: ChunkCoords, r: int)
    requires r >= 0
    ensures |Strips(center, r, -r, r + 1)| == (2 * r + 1) * (2 * r + 1)
  {
    StripsSize(center, r, -r, r + 1);
    assert r + 1 - -r == 2 * r + 1;
  }

  /** The square of radius `r` is exactly the chunks within range; for a
      negative `r` both are empty. */
  lemma SquareMembers(center: ChunkCoords, r: int)
    ensures forall c :: c in Strips(center, r, -r, r + 1) <==> InRange(center, r, c)
  {
    forall c
      ensures c in Strips(center, r, -r, r + 1) <==> InRange(center, r, c)
    {
      StripsMembers(center, r, -r, r + 1, c);
    }
  }

  /** The first loop of `update_chunks`: walks `dx` and `dy` over
      `-r..=r`, collects every chunk of the square and loads it. (The load
      goes through a world method that is not part of this model; it is
      taken to be `load_chunk`.) */
  method ChunksInRange(generate: ChunkCoords -> Grid, w0: World, center: ChunkCoords, r: int)
    returns (inRange: set<ChunkCoords>, w: World)
    ensures forall c :: c in inRange <==> InRange(center, r, c)
    ensures r >= 0 ==> |inRange| == (2 * r + 1) * (2 * r + 1)
    ensures forall c | c in inRange :: c in w.chunks
    ensures w0.chunks.Keys <= w.chunks.Keys
    ensures w.deleted == w0.deleted
    ensures LoadedFrom(generate, w0, w)
    ensures Faithful(generate, w0) ==> Faithful(generate, w)
  {
    inRange := {};
    w := w0;
    var dx := -r;
    while dx <= r
      invariant dx == -r || -r <= dx <= r + 1
      invariant inRange == Strips(center, r, -r, dx)
      invariant inRange <= w.chunks.Keys
      invariant LoadedFrom(generate, w0, w)
      decreases r - dx
    {
      var w';
      StripsStep(center, r, -r, dx);
      inRange, w' := VisitStrip(generate, w, inRange, center, r, dx);
      LoadedFromTrans(generate, w0, w, w');
      w := w';
      dx := dx + 1;
    }
    assert inRange == Strips(center, r, -r, r + 1);
    SquareMembers(center, r);
    if r >= 0 {
      SquareSize(center, r);
    }
    if Faithful(generate, w0) {
      LoadedFromFaithful(generate, w0, w);
    }
  }

  /** The inner loop: the chunks at offset `dx` along x and every `dy` in
      `-r..=r`, added to the set and loaded. */
  method VisitStrip(generate: ChunkCoords -> Grid, w0: World, s0: set<ChunkCoords>,
                    center: ChunkCoords, r: int, dx: int)
    returns (s: set<ChunkCoords>, w: World)
    requires -r <= dx <= r
    ensures s == s0 + Strip(center, dx, -r, r + 1)
    ensures Strip(center, dx, -r, r + 1) <= w.chunks.Keys
    ensures w0.chunks.Keys <= w.chunks.Keys
    ensures w.deleted == w0.deleted
    ensures LoadedFrom(generate, w0, w)
    ensures Faithful(generate, w0) ==> Faithful(generate, w)
  {
    s := s0;
    w := w0;
    var dy := -r;
    while dy <= r
      invariant -r <= dy <= r + 1
      invariant s == s0 + Strip(center, dx, -r, dy)
      invariant Strip(center, dx, -r, dy) <= w.chunks.Keys
      invariant LoadedFrom(generate, w0, w)
      decreases r - dy
    {
      var coords := (center.0 + dx, center.1 + dy);
      VisitStep(generate, w0, w, s0, s, center, dx, r, dy);
      s := s + {coords};
      w := LoadChunk(generate, w, coords);
      dy := dy + 1;
    }
    if Faithful(generate, w0) {
      LoadedFromFaithful(generate, w0, w);
    }
  }

  /** One turn of the inner loop keeps its invariant: the strip grows by
      the chunk at `dy`, which is then loaded. */
  lemma VisitStep(generate: ChunkCoords -> Grid, w0: World, w: World, s0: set<ChunkCoords>,
                  s: set<ChunkCoords>, center: ChunkCoords, dx: int, r: int, dy: int)
    requires -r <= dy <= r
    requires s == s0 + Strip(center, dx, -r, dy)
    requires Strip(center, dx, -r, dy) <= w.chunks.Keys
    requires LoadedFrom(generate, w0, w)
    ensures var coords := (center.0 + dx, center.1 + dy);
      var w' := LoadChunk(generate, w, coords);
      && s + {coords} == s0 + Strip(center, dx, -r, dy + 1)
      && Strip(center, dx, -r, dy + 1) <= w'.chunks.Keys
      && LoadedFrom(generate, w0, w')
  {
    var coords := (center.0 + dx, center.1 + dy);
    StripStep(center, dx, -r, dy);
    LoadedFromTrans(generate, w0, w, LoadChunk(generate, w, coords));
  }

  /** A vertex position `[f32; 3]`; the other vertex attributes are carried
      unchanged and are not modelled. */
  datatype Vertex = Vertex(x: real, y: real, z: real)

  /** A chunk mesh, in chunk-local positions. */
  datatype Mesh = Mesh(vertices: seq<Vertex>, indices: seq<nat>)

  /** What is kept per chunk for drawing: the uploaded vertices and indices
      and the index count as a `u32`. */
  datatype RenderData = RenderData(vertices: seq<Vertex>, indices: seq<nat>, numIndices: nat)

  const U32_MODULUS: nat := 0x1_0000_0000

  /** The vertices moved from chunk-local to world positions: by 16 chunk
      widths per chunk along x and y. */
  function ToWorld(c: ChunkCoords, vs: seq<Vertex>): (r: seq<Vertex>)
    ensures |r| == |vs|
    ensures forall i | 0 <= i < |vs| ::
              r[i].x - vs[i].x == (c.0 * CHUNK_WIDTH) as real
              && r[i].y - vs[i].y == (c.1 * CHUNK_WIDTH) as real
              && r[i].z == vs[i].z
  {
    seq(|vs|, (i: int) requires 0 <= i < |vs| =>
      Vertex(vs[i].x + (c.0 * CHUNK_WIDTH) as real, vs[i].y + (c.1 * CHUNK_WIDTH) as real, vs[i].z))
  }

  /** `generate_chunk_mesh` after meshing: nothing for a mesh without
      vertices or without indices, else the render data, keyed by `c`. */
  function RenderDataFor(c: ChunkCoords, m: Mesh): (r: Option<RenderData>)
    ensures r.None? <==> |m.vertices| == 0 || |m.indices| == 0
    ensures r.Some? ==> r.value.indices == m.indices && |r.value.vertices| == |m.vertices|
    ensures r.Some? ==> r.value.vertices == ToWorld(c, m.vertices)
    ensures r.Some? && |m.indices| < U32_MODULUS ==> r.value.numIndices == |m.indices|
  {
    if |m.vertices| == 0 || |m.indices| == 0 then None
    else Some(RenderData(ToWorld(c, m.vertices), m.indices, |m.indices| % U32_MODULUS))
  }

  /** The retain step: render data outside the range is dropped. */
  function Retain(rd: map<ChunkCoords, RenderData>, inRange: set<ChunkCoords>)
    : (r: map<ChunkCoords, RenderData>)
    ensures r.Keys == rd.Keys * inRange
    ensures forall c | c in r :: r[c] == rd[c]
  {
    map c | c in rd && c in inRange :: rd[c]
  }

  /** Render data after meshing the chunks `cs` on top of `base`: a chunk
      that has an entry keeps it, one that has none gets its non-empty
      mesh. */
  function Filled(base: map<ChunkCoords, RenderData>, cs: set<ChunkCoords>, mesh: ChunkCoords -> Mesh)
    : (r: map<ChunkCoords, RenderData>)
    ensures r.Keys <= base.Keys + cs
    ensures forall c | c in base :: c in r && r[c] == base[c]
    ensures forall c | c in cs && c !in base ::
              (c in r <==> RenderDataFor(c, mesh(c)).Some?)
              && (c in r ==> r[c] == RenderDataFor(c, mesh(c)).value)
  {
    map c | c in base.Keys + cs && (c in base || RenderDataFor(c, mesh(c)).Some?) ::
      if c in base then base[c] else RenderDataFor(c, mesh(c)).value
  }

  /** The second half of `update_chunks`, over the chunks in range in
      whatever order the set yields them: each one without render data is
      meshed (which loads it and its four edge neighbours) and, if the mesh
      is not empty, inserted. The order does not matter: the result is the
      same `Filled` map for every order. */
  method MeshMissing(generate: ChunkCoords -> Grid, mesh: ChunkCoords -> Mesh, w0: World,
                     base: map<ChunkCoords, RenderData>, inRange: set<ChunkCoords>)
    returns (rd: map<ChunkCoords, RenderData>, w: World)
    requires base.Keys <= inRange
    ensures rd == Filled(base, inRange, mesh)
    ensures forall c | c in inRange && c !in base :: Neighbourhood(c) <= w.chunks.Keys
    ensures w0.chunks.Keys <= w.chunks.Keys
    ensures w.deleted == w0.deleted
    ensures LoadedFrom(generate, w0, w)
    ensures Faithful(generate, w0) ==> Faithful(generate, w)
  {
    rd := base;
    w := w0;
    var done: set<ChunkCoords> := {};
    FilledNothing(base, mesh);
    while inRange - done != {}
      invariant done <= inRange
      invariant rd == Filled(base, done, mesh)
      invariant forall c | c in done && c !in base :: Neighbourhood(c) <= w.chunks.Keys
      invariant LoadedFrom(generate, w0, w)
      decreases inRange - done
    {
      var c :| c in inRange - done;
      var w';
      rd, w' := MeshOne(generate, mesh, w, base, done, rd, c);
      LoadedFromTrans(generate, w0, w, w');
      w := w';
      done := done + {c};
    }
    assert done == inRange;
    if Faithful(generate, w0) {
      LoadedFromFaithful(generate, w0, w);
    }
  }

  lemma FilledNothing(base: map<ChunkCoords, RenderData>, mesh: ChunkCoords -> Mesh)
    ensures Filled(base, {}, mesh) == base
  {
  }

  /** One pass of the second loop: chunk `c`, not yet visited, is meshed
      when it has no render data. */
  method MeshOne(generate: ChunkCoords -> Grid, mesh: ChunkCoords -> Mesh, w0: World,
                 base: map<ChunkCoords, RenderData>, ghost done: set<ChunkCoords>,
                 rd0: map<ChunkCoords, RenderData>, c: ChunkCoords)
    returns (rd: map<ChunkCoords, RenderData>, w: World)
    requires c !in done && rd0 == Filled(base, done, mesh)
    ensures rd == Filled(base, done + {c}, mesh)
    ensures c !in base ==> Neighbourhood(c) <= w.chunks.Keys
    ensures w0.chunks.Keys <= w.chunks.Keys
    ensures w.deleted == w0.deleted
    ensures LoadedFrom(generate, w0, w)
    ensures Faithful(generate, w0) ==> Faithful(generate, w)
  {
    rd, w := rd0, w0;
    FilledStep(base, done, c, mesh);
    if c !in rd {
      w := LoadNeighbourhood(generate, w, c);
      assert c in w.chunks;
      var data := RenderDataFor(c, mesh(c));
      if data.Some? {
        rd := rd[c := data.value];
      }
    }
    if Faithful(generate, w0) {
      LoadedFromFaithful(generate, w0, w);
    }
  }

  /** Meshing one more chunk extends the filled map by that chunk's entry. */
  lemma FilledStep(base: map<ChunkCoords, RenderData>, done: set<ChunkCoords>, c: ChunkCoords,
                   mesh: ChunkCoords -> Mesh)
    requires c !in done
    ensures var before := Filled(base, done, mesh);
            Filled(base, done + {c}, mesh) ==
              if c in before then before
              else if RenderDataFor(c, mesh(c)).Some? then before[c := RenderDataFor(c, mesh(c)).value]
              else before
  {
  }

  /** One `update_chunks` call. */
  method UpdateChunks(generate: ChunkCoords -> Grid, mesh: ChunkCoords -> Mesh, w0: World,
                      rd0: map<ChunkCoords, RenderData>, center: ChunkCoords, r: int)
    returns (rd: map<ChunkCoords, RenderData>, w: World)
    ensures forall c | c in rd :: InRange(center, r, c)
    ensures forall c | c in rd0 && InRange(center, r, c) :: c in rd && rd[c] == rd0[c]
    ensures forall c | InRange(center, r, c) && c !in rd0 ::
              (c in rd <==> RenderDataFor(c, mesh(c)).Some?)
              && (c in rd ==> rd[c] == RenderDataFor(c, mesh(c)).value)
    ensures forall c | InRange(center, r, c) :: c in w.chunks
    ensures w0.chunks.Keys <= w.chunks.Keys
    ensures w.deleted == w0.deleted
    ensures LoadedFrom(generate, w0, w)
    ensures Faithful(generate, w0) ==> Faithful(generate, w)
  {
    var inRange, w1 := ChunksInRange(generate, w0, center, r);
    var retained := Retain(rd0, inRange);
    rd, w := MeshMissing(generate, mesh, w1, retained, inRange);
    LoadedFromTrans(generate, w0, w1, w);
    if Faithful(generate, w0) {
      LoadedFromFaithful(generate, w0, w);
    }
  }

  /** A chunk whose mesh is empty never gets render data, so every later
      update meshes it again. */
  lemma EmptyMeshNeverStored(base: map<ChunkCoords, RenderData>, cs: set<ChunkCoords>,
                             mesh: ChunkCoords -> Mesh, c: ChunkCoords)
    requires c !in base && (|mesh(c).vertices| == 0 || |mesh(c).indices| == 0)
    ensures c !in Filled(base, cs, mesh)
  {
  }

  /** Filling is idempotent: a second pass over the same chunks with the
      same meshes changes nothing. */
  lemma FilledIdempotent(base: map<ChunkCoords, RenderData>, cs: set<ChunkCoords>,
                         mesh: ChunkCoords -> Mesh)
    ensures Filled(Filled(base, cs, mesh), cs, mesh) == Filled(base, cs, mesh)
  {
  }
}

=== FILE: terrain.dfy ===
/** Terrain generation (`World::generate_chunk_blocks` in `src/world.rs`):
    each column is filled bottom-up from its height, biome and cave bounds,
    and the chunk's 16 x-planes are split into slices, one per worker. */
module Terrain {

  import opened Wrappers
  import opened Blocks
  import opened Biomes
  import opened Classify
  import opened Chunks
  import opened Utils

  /** Ground level before terrain offsets, the sea surface, and the top of
      the molten core. */
  const SURFACE: nat := 64
  const SEA: nat := 62
  const MAGMA_CORE: nat := 31

  // ---------------------------------------------------------------------
  // One column

  /** What the fill needs to know about a column: its biome, its surface
      height (already cast to an index) and the open interval of cave air. */
  datatype Column = Column(biome: BiomeType, height: nat, caveLow: real, caveHigh: real)

  /** A cell is carved out by a cave: never in an ocean, and only strictly
      inside the cave interval. */
  predicate Carved(col: Column, z: nat) {
    !IsOcean(col.biome) && col.caveLow < z as real && (z as real) < col.caveHigh
  }

  /** The cell at height `z`: the core, then caves, then ground (the first
      five layers from the top in the biome's surface block, deeper ones in
      its deep block), then water up to sea level, then air. */
  function CellAt(col: Column, z: nat): (r: Cell)
    ensures z <= MAGMA_CORE ==> r == Some(RedSand)
  {
    if z <= MAGMA_CORE then Some(RedSand)
    else if Carved(col, z) then None
    else if z <= col.height then
      Some(if col.height - z < 5 then SurfaceBlock(col.biome) else DeepBlock(col.biome))
    else if z <= SEA then Some(Water)
    else None
  }

  /** A cell holds ground: a block that is not water. */
  predicate Ground(r: Cell) {
    r.Some? && r.value != Water
  }

  /** Above the core, ground is exactly the uncarved cells at or below the
      surface height. */
  lemma GroundIff(col: Column, z: nat)
    requires z > MAGMA_CORE
    ensures Ground(CellAt(col, z)) <==> !Carved(col, z) && z <= col.height
  {
  }

  /** Water is exactly the uncarved cells above the ground and at or below
      sea level. */
  lemma WaterIff(col: Column, z: nat)
    ensures CellAt(col, z) == Some(Water) <==>
              MAGMA_CORE < z <= SEA && col.height < z && !Carved(col, z)
  {
  }

  /** Air is exactly the carved cells above the core and the cells above
      both the ground and the sea. */
  lemma AirIff(col: Column, z: nat)
    ensures CellAt(col, z) == None <==>
              z > MAGMA_CORE && (Carved(col, z) || (z > col.height && z > SEA))
  {
  }

  /** Carving wins over ground and water alike, but never reaches the core. */
  lemma CarvingPrecedence(col: Column, z: nat)
    requires Carved(col, z)
    ensures CellAt(col, z) == (if z <= MAGMA_CORE then Some(RedSand) else None)
  {
  }

  /** Ocean columns hold no air at or below sea level. */
  lemma OceanHasNoAirBelowSea(col: Column, z: nat)
    requires IsOcean(col.biome) && z <= SEA
    ensures CellAt(col, z).Some?
  {
  }

  /** Ground cells take the surface block in the top five layers and stone
      below them. */
  lemma GroundLayers(col: Column, z: nat)
    requires z > MAGMA_CORE && Ground(CellAt(col, z))
    ensures col.height - z < 5 ==> CellAt(col, z) == Some(SurfaceBlock(col.biome))
    ensures col.height - z >= 5 ==> CellAt(col, z) == Some(Stone)
  {
  }

  /** The 256 cells of a column, bottom to top. The ensures only read the
      comprehension back pointwise, for the fill proofs. */
  function ColumnCells(col: Column): (cells: seq<Cell>)
    ensures |cells| == CHUNK_HEIGHT
    ensures forall z | 0 <= z < CHUNK_HEIGHT :: cells[z] == CellAt(col, z)
  {
    seq(CHUNK_HEIGHT, (z: int) requires 0 <= z => CellAt(col, z))
  }

  // ---------------------------------------------------------------------
  // Columns of the world

  /** The world's noise sources, indexed by world column `(x, y)`, and the
      surface height of a column as a function of its noise values (the
      spline arithmetic and the saturating cast to an index are not
      modelled). */
  datatype Generator = Generator(
    temperature: (int, int) -> real,
    humidity: (int, int) -> real,
    continentalness: (int, int) -> real,
    erosion: (int, int) -> real,
    weirdness: (int, int) -> real,
    caveLowNoise: (int, int) -> real,
    caveHighNoise: (int, int) -> real,
    height: NoiseValues -> nat)

  /** The noise values sampled at world `(wx, wy)`. The column classifies as
      an ocean exactly when its continentalness is below -0.2, and its pv
      stays in [-1, 1] when the weirdness does. */
  function NoiseAt(gen: Generator, wx: int, wy: int): (v: NoiseValues)
    ensures v.continentalness == gen.continentalness(wx, wy)
    ensures IsOcean(BiomeAt(v)) <==> -1.0 <= gen.continentalness(wx, wy) < -0.2
    ensures -1.0 <= gen.weirdness(wx, wy) <= 1.0 ==> -1.0 <= v.pv <= 1.0
  {
    var v := ColumnNoise(gen.temperature(wx, wy), gen.humidity(wx, wy), gen.continentalness(wx, wy),
                         gen.erosion(wx, wy), gen.weirdness(wx, wy));
    OceanIffLowContinentalness(v);
    v
  }

  /** The column at world `(wx, wy)`: its biome, height, and cave bounds
      `low = 20 n + 110 - 0.6 h` and `high = 25 n' + lerp(56, h, 0.3)`.
      With cave noise in [-1, 1] the floor lies within 20 of `110 - 0.6 h`
      and the roof within 25 of `39.2 + 0.3 h`. */
  function ColumnAt(gen: Generator, wx: int, wy: int): (col: Column)
    ensures col.height == gen.height(NoiseAt(gen, wx, wy))
    ensures IsOcean(col.biome) <==> -1.0 <= gen.continentalness(wx, wy) < -0.2
    ensures -1.0 <= gen.caveLowNoise(wx, wy) <= 1.0 ==>
      90.0 - (col.height as real) * 0.6 <= col.caveLow <= 130.0 - (col.height as real) * 0.6
    ensures -1.0 <= gen.caveHighNoise(wx, wy) <= 1.0 ==>
      14.2 + (col.height as real) * 0.3 <= col.caveHigh <= 64.2 + (col.height as real) * 0.3
  {
    var v := NoiseAt(gen, wx, wy);
    var h := gen.height(v);
    assert Lerp(56.0, h as real, 0.3) == 39.2 + (h as real) * 0.3;
    Column(BiomeAt(v), h,
           gen.caveLowNoise(wx, wy) * 20.0 + 110.0 - (h as real) * 0.6,
           gen.caveHighNoise(wx, wy) * 25.0 + Lerp(56.0, h as real, 0.3))
  }

  /** The column at in-chunk position `(x, y)` of chunk `c`. */
  function ChunkColumn(gen: Generator, c: (int, int), x: nat, y: nat): Column {
    ColumnAt(gen, c.0 * 16 + x, c.1 * 16 + y)
  }

  /** The x-plane `x` of chunk `c`: its 16 columns. The ensures only read
      the comprehension back pointwise, for the fill proofs. */
  function Plane(gen: Generator, c: (int, int), x: nat): (p: seq<seq<Cell>>)
    ensures |p| == CHUNK_WIDTH
    ensures forall y | 0 <= y < CHUNK_WIDTH :: p[y] == ColumnCells(ChunkColumn(gen, c, x, y))
  {
    seq(CHUNK_WIDTH, (y: int) requires 0 <= y => ColumnCells(ChunkColumn(gen, c, x, y)))
  }

  /** The freshly generated blocks of chunk `c`: each cell is the column
      rule applied to the column at the cell's world position, so every
      chunk is solid red sand at its core layers. */
  function GenerateChunkBlocks(gen: Generator, c: (int, int)): (g: Grid)
    ensures forall x | 0 <= x < CHUNK_WIDTH :: g[x] == Plane(gen, c, x)
    ensures forall x: nat, y: nat, z: nat | InBounds(x, y, z) ::
      GetBlock(g, x, y, z) == CellAt(ColumnAt(gen, c.0 * 16 + x, c.1 * 16 + y), z)
    ensures forall x: nat, y: nat, z: nat | InBounds(x, y, z) && z <= MAGMA_CORE ::
      GetBlock(g, x, y, z) == Some(RedSand)
  {
    var g: Grid := seq(CHUNK_WIDTH, (x: int) requires 0 <= x => Plane(gen, c, x));
    PlanesHoldColumns(gen, c, g);
    g
  }

  /** A grid made of the chunk's planes holds, at every cell, the column
      rule of that cell's world column. */
  lemma PlanesHoldColumns(gen: Generator, c: (int, int), g: Grid)
    requires forall x | 0 <= x < CHUNK_WIDTH :: g[x] == Plane(gen, c, x)
    ensures forall x: nat, y: nat, z: nat | InBounds(x, y, z) ::
      GetBlock(g, x, y, z) == CellAt(ChunkColumn(gen, c, x, y), z)
  {
    forall x: nat, y: nat, z: nat | InBounds(x, y, z)
      ensures GetBlock(g, x, y, z) == CellAt(ChunkColumn(gen, c, x, y), z)
    {
      PlaneCell(gen, c, g[x], x, y, z);
    }
  }

  /** One cell of plane `x`. */
  lemma PlaneCell(gen: Generator, c: (int, int), p: seq<seq<Cell>>, x: nat, y: nat, z: nat)
    requires p == Plane(gen, c, x) && InBounds(x, y, z)
    ensures p[y][z] == CellAt(ChunkColumn(gen, c, x, y), z)
  {
  }

  // ---------------------------------------------------------------------
  // Worker slices

  /** A positive count: what the platform reports as available
      parallelism. */
  type Pos = n: int | n >= 1 witness 1

  /** The worker count: the platform's parallelism, 1 when it cannot be
      queried, capped at the chunk width. */
  function WorkerCount(available: Option<Pos>): (w: nat)
    ensures 1 <= w <= CHUNK_WIDTH
    ensures available.None? ==> w == 1
    ensures available.Some? ==> w == if available.value < CHUNK_WIDTH then available.value else CHUNK_WIDTH
  {
    var n := match available case Some(p) => p case None => 1;
    if n < CHUNK_WIDTH then n else CHUNK_WIDTH
  }

  /** The x-planes `[start, start + len)` one worker fills. */
  datatype Slice = Slice(start: nat, len: nat)

  function End(s: Slice): nat {
    s.start + s.len
  }

  predicate InSlice(s: Slice, x: int) {
    s.start <= x < End(s)
  }

  /** The slices run back to back from `from` to `to`. */
  predicate TilesFrom(slices: seq<Slice>, from: nat, to: nat)
    decreases |slices|
  {
    if |slices| == 0 then from == to
    else slices[0].start == from && TilesFrom(slices[1..], End(slices[0]), to)
  }

  lemma {:induction false} TilesAppend(slices: seq<Slice>, from: nat, to: nat, s: Slice)
    requires TilesFrom(slices, from, to) && s.start == to
    ensures TilesFrom(slices + [s], from, End(s))
    decreases |slices|
  {
    if |slices| == 0 {
      assert (slices + [s])[1..] == [];
    } else {
      assert (slices + [s])[1..] == slices[1..] + [s];
      TilesAppend(slices[1..], End(slices[0]), to, s);
    }
  }

  /** Back-to-back slices never run backwards. */
  lemma {:induction false} TilesOrdered(slices: seq<Slice>, from: nat, to: nat)
    requires TilesFrom(slices, from, to)
    ensures from <= to
    ensures forall k | 0 <= k < |slices| :: from <= slices[k].start && End(slices[k]) <= to
    decreases |slices|
  {
    if |slices| > 0 {
      TilesOrdered(slices[1..], End(slices[0]), to);
      forall k | 0 < k < |slices|
        ensures from <= slices[k].start && End(slices[k]) <= to
      {
        assert slices[k] == slices[1..][k - 1];
      }
    }
  }

  /** The slice that owns plane `x`. */
  function Owner(slices: seq<Slice>, from: nat, to: nat, x: int): (k: nat)
    requires TilesFrom(slices, from, to) && from <= x < to
    ensures k < |slices| && InSlice(slices[k], x)
    decreases |slices|
  {
    if InSlice(slices[0], x) then 0
    else 1 + Owner(slices[1..], End(slices[0]), to, x)
  }

  /** Slices that tile a range are disjoint: each plane has one owner. */
  lemma {:induction false} OwnerUnique(slices: seq<Slice>, from: nat, to: nat, x: int, k: nat)
    requires TilesFrom(slices, from, to) && k < |slices| && InSlice(slices[k], x)
    ensures from <= x < to
    ensures k == Owner(slices, from, to, x)
    decreases |slices|
  {
    TilesOrdered(slices, from, to);
    if k > 0 {
      assert slices[k] == slices[1..][k - 1];
      OwnerUnique(slices[1..], End(slices[0]), to, x, k - 1);
      TilesOrdered(slices[1..], End(slices[0]), to);
    }
  }

  function Min(a: int, b: int): int {
    if a < b then a else b
  }

  /** `k` full slices of `n` planes reach plane `k * n`, counted one
      slice at a time so that the loop below stays linear. */
  function Reach(k: nat, n: nat): nat {
    if k == 0 then 0 else Reach(k - 1, n) + n
  }

  lemma {:induction false} ReachIsProduct(k: nat, n: nat)
    ensures Reach(k, n) == k * n
  {
    if k > 0 {
      ReachIsProduct(k - 1, n);
      assert (k - 1) * n + n == k * n;
    }
  }

  /** The slice arithmetic of the fork: slice `k` starts where slice
      `k-1` ended and is `ceil_div(16, workers)` planes long, or what is
      left. The slices tile the 16 planes; a slice shorter than the chunk
      size reaches the last plane, so every slice after it is empty (with
      7 workers the lengths are 3,3,3,3,3,1,0). */
  method WorkerSlices(workers: nat) returns (slices: seq<Slice>)
    requires 1 <= workers <= CHUNK_WIDTH
    ensures |slices| == workers
    ensures TilesFrom(slices, 0, CHUNK_WIDTH)
    ensures forall k | 0 <= k < |slices| :: slices[k].len <= CeilDiv(CHUNK_WIDTH, workers)
    ensures forall k | 0 <= k < |slices| ::
      slices[k].len == Min(CHUNK_WIDTH - slices[k].start, CeilDiv(CHUNK_WIDTH, workers))
    ensures forall k | 0 <= k < |slices| && slices[k].len < CeilDiv(CHUNK_WIDTH, workers) ::
      End(slices[k]) == CHUNK_WIDTH
  {
    var chunkSize := CeilDiv(CHUNK_WIDTH, workers);
    slices := CutSlices(workers, chunkSize);
    CeilDivCoversWidth(workers);
    ReachIsProduct(workers, chunkSize);
    ClippedSlices(slices, chunkSize);
  }

  /** The loop of the fork: `count` slices of `chunkSize` planes each,
      back to back from plane 0, each clipped to what is left of the
      chunk. */
  method CutSlices(count: nat, chunkSize: nat) returns (slices: seq<Slice>)
    ensures |slices| == count
    ensures TilesFrom(slices, 0, Min(Reach(count, chunkSize), CHUNK_WIDTH))
    ensures forall k | 0 <= k < |slices| ::
      slices[k].len == Min(CHUNK_WIDTH - slices[k].start, chunkSize)
  {
    slices := [];
    var start: nat := 0;
    for k := 0 to count
      invariant |slices| == k
      invariant start == Min(Reach(k, chunkSize), CHUNK_WIDTH)
      invariant TilesFrom(slices, 0, start)
      invariant forall j | 0 <= j < k :: slices[j].len == Min(CHUNK_WIDTH - slices[j].start, chunkSize)
    {
      var len: nat := Min(CHUNK_WIDTH - start, chunkSize);
      CutStep(slices, k, chunkSize, start);
      slices := slices + [Slice(start, len)];
      start := start + len;
    }
  }

  /** One turn of the loop keeps its invariant. */
  lemma CutStep(slices: seq<Slice>, k: nat, chunkSize: nat, start: nat)
    requires start == Min(Reach(k, chunkSize), CHUNK_WIDTH)
    requires TilesFrom(slices, 0, start)
    requires forall j | 0 <= j < |slices| :: slices[j].len == Min(CHUNK_WIDTH - slices[j].start, chunkSize)
    ensures var s := Slice(start, Min(CHUNK_WIDTH - start, chunkSize));
      && End(s) == Min(Reach(k + 1, chunkSize), CHUNK_WIDTH)
      && TilesFrom(slices + [s], 0, End(s))
      && forall j | 0 <= j < |slices + [s]| ::
        (slices + [s])[j].len == Min(CHUNK_WIDTH - (slices + [s])[j].start, chunkSize)
  {
    var s := Slice(start, Min(CHUNK_WIDTH - start, chunkSize));
    TilesAppend(slices, 0, start, s);
    ClippedAppend(slices, chunkSize, s);
    ReachStep(k, chunkSize, start);
  }

  /** One more slice moves the start to where `k + 1` full slices reach,
      or to the last plane. */
  lemma ReachStep(k: nat, chunkSize: nat, start: int)
    requires start == Min(Reach(k, chunkSize), CHUNK_WIDTH)
    ensures start + Min(CHUNK_WIDTH - start, chunkSize) == Min(Reach(k + 1, chunkSize), CHUNK_WIDTH)
  {
  }

  /** Appending a clipped slice keeps every slice clipped. */
  lemma ClippedAppend(slices: seq<Slice>, chunkSize: nat, s: Slice)
    requires forall k | 0 <= k < |slices| :: slices[k].len == Min(CHUNK_WIDTH - slices[k].start, chunkSize)
    requires s.len == Min(CHUNK_WIDTH - s.start, chunkSize)
    ensures forall k | 0 <= k < |slices + [s]| ::
      (slices + [s])[k].len == Min(CHUNK_WIDTH - (slices + [s])[k].start, chunkSize)
  {
    forall k | 0 <= k < |slices + [s]|
      ensures (slices + [s])[k].len == Min(CHUNK_WIDTH - (slices + [s])[k].start, chunkSize)
    {
      if k < |slices| {
        assert (slices + [s])[k] == slices[k];
      }
    }
  }

  /** A slice clipped to what is left of the chunk is no longer than the
      chunk size, and when it is shorter it ends at the last plane. */
  lemma ClippedSlices(slices: seq<Slice>, chunkSize: nat)
    requires forall k | 0 <= k < |slices| :: slices[k].len == Min(CHUNK_WIDTH - slices[k].start, chunkSize)
    ensures forall k | 0 <= k < |slices| :: slices[k].len <= chunkSize
    ensures forall k | 0 <= k < |slices| && slices[k].len < chunkSize :: End(slices[k]) == CHUNK_WIDTH
  {
  }

  /** The workers' writes, in sequence: each fills the planes of its own
      slice. The result is the whole chunk, as generated in one piece. */
  method FillBySlices(gen: Generator, c: (int, int), slices: seq<Slice>)
    returns (blocks: seq<seq<seq<Cell>>>)
    requires TilesFrom(slices, 0, CHUNK_WIDTH)
    ensures blocks == GenerateChunkBlocks(gen, c)
  {
    blocks := EMPTY;
    var pos: nat := 0;
    for k := 0 to |slices|
      invariant TilesFrom(slices[k..], pos, CHUNK_WIDTH)
      invariant pos <= CHUNK_WIDTH
      invariant |blocks| == CHUNK_WIDTH
      invariant forall x | 0 <= x < pos :: blocks[x] == Plane(gen, c, x)
    {
      assert slices[k..][1..] == slices[k + 1..];
      TilesOrdered(slices[k..], pos, CHUNK_WIDTH);
      var s := slices[k];
      assert s == slices[k..][0];
      assert s.start == pos && End(s) <= CHUNK_WIDTH;
      blocks := FillSlice(gen, c, blocks, s);
      pos := End(s);
    }
    assert slices[|slices|..] == [];
    assert blocks == GenerateChunkBlocks(gen, c);
  }

  /** One worker's share: the planes of its slice, written after the
      planes already filled in front of it. The planes behind the slice are
      left alone, as the disjoint `split_at_mut` halves guarantee. */
  method FillSlice(gen: Generator, c: (int, int), blocks0: seq<seq<seq<Cell>>>, s: Slice)
    returns (blocks: seq<seq<seq<Cell>>>)
    requires |blocks0| == CHUNK_WIDTH && End(s) <= CHUNK_WIDTH
    requires forall x | 0 <= x < s.start :: blocks0[x] == Plane(gen, c, x)
    ensures |blocks| == CHUNK_WIDTH
    ensures forall x | 0 <= x < End(s) :: blocks[x] == Plane(gen, c, x)
    ensures forall x | End(s) <= x < CHUNK_WIDTH :: blocks[x] == blocks0[x]
  {
    blocks := FillWith((x: nat) => Plane(gen, c, x), blocks0, s);
  }

  /** The worker's loop over `head.iter_mut().enumerate()`: plane
      `s.start + dx` is set to `f(s.start + dx)` for each `dx` below
      `s.len`, one plane at a time; nothing outside the slice is written. */
  method FillWith<T>(f: nat -> T, a0: seq<T>, s: Slice) returns (a: seq<T>)
    requires End(s) <= |a0|
    requires forall x | 0 <= x < s.start :: a0[x] == f(x)
    ensures |a| == |a0|
    ensures forall x | 0 <= x < End(s) :: a[x] == f(x)
    ensures forall x | End(s) <= x < |a0| :: a[x] == a0[x]
  {
    a := a0;
    for dx := 0 to s.len
      invariant |a| == |a0|
      invariant forall x | 0 <= x < s.start + dx :: a[x] == f(x)
      invariant forall x | s.start + dx <= x < |a0| :: a[x] == a0[x]
    {
      a := a[s.start + dx := f(s.start + dx)];
    }
  }
}

=== FILE: utils.dfy ===
/** The two numeric helpers of `src/utils.rs`. */
module Utils {

  /** Linear interpolation `a + t * (b - a)`, over the reals. */
  function Lerp(a: real, b: real, t: real): (r: real)
    ensures t == 0.0 ==> r == a
    ensures t == 1.0 ==> r == b
    ensures 0.0 <= t <= 1.0 && a <= b ==> a <= r <= b
    ensures 0.0 <= t <= 1.0 && b <= a ==> b <= r <= a
  {
    LerpBounded(a, b, t);
    a + t * (b - a)
  }

  lemma MulNonneg(x: real, y: real)
    requires x >= 0.0 && y >= 0.0
    ensures x * y >= 0.0
  {
  }

  lemma LerpBounded(a: real, b: real, t: real)
    ensures 0.0 <= t <= 1.0 && a <= b ==> 0.0 <= t * (b - a) <= b - a
    ensures 0.0 <= t <= 1.0 && b <= a ==> a - b >= t * (a - b) >= 0.0
  {
    if 0.0 <= t <= 1.0 {
      var d := if a <= b then b - a else a - b;
      MulNonneg(t, d);
      MulNonneg(1.0 - t, d);
      assert (1.0 - t) * d == d - t * d;
    }
  }

  /** With a fixed, non-decreasing pair of end points, interpolation is
      non-decreasing in the parameter. */
  lemma LerpMonotone(a: real, b: real, t1: real, t2: real)
    requires a <= b && t1 <= t2
    ensures Lerp(a, b, t1) <= Lerp(a, b, t2)
  {
    MulNonneg(t2 - t1, b - a);
    assert (t2 - t1) * (b - a) == t2 * (b - a) - t1 * (b - a);
  }

  /** Integer ceiling division `(numer + denom - 1) / denom` on `usize`.
      A zero divisor panics in the source, hence the precondition. */
  function CeilDiv(numer: nat, denom: nat): (q: nat)
    requires denom > 0
    ensures denom * q >= numer
    ensures denom * (q - 1) < numer
  {
    var q := (numer + denom - 1) / denom;
    CeilDivIsCeiling(numer, denom, q);
    q
  }

  lemma CeilDivIsCeiling(n: nat, d: nat, q: nat)
    requires d > 0 && q == (n + d - 1) / d
    ensures d * q >= n
    ensures d * (q - 1) < n
  {
    var m := n + d - 1;
    assert m == d * q + m % d;
    assert 0 <= m % d < d;
  }

  /** The property the worker split relies on: for 1 to 16 workers each
      slice is non-empty and the slices together reach the chunk width. */
  lemma CeilDivCoversWidth(workers: nat)
    requires 1 <= workers <= 16
    ensures CeilDiv(16, workers) >= 1
    ensures workers * CeilDiv(16, workers) >= 16
    ensures workers * (CeilDiv(16, workers) - 1) < 16
  {
  }
}

=== FILE: world.dfy ===
/** The world's chunk cache (`World` in `src/world.rs`): resident chunks by
    chunk coordinates, and an overlay of the blocks the player deleted,
    which outlives eviction so a reloaded chunk comes back with its holes. */
module WorldCache {

  import opened Wrappers
  import opened Blocks
  import opened Chunks
  import opened Coords
  import opened Terrain

  /** The two maps of the cache. The noise sources live in a `Generator`;
      the operations that generate receive the chunk generator it induces,
      `Fresh(gen)`, as a function from chunk coordinates to grids. */
  datatype World = World(chunks: map<ChunkCoords, Grid>, deleted: map<ChunkCoords, set<BlockCoords>>)

  const EMPTY_WORLD: World := World(map[], map[])

  /** `generate_chunk_blocks` for each chunk. */
  function Fresh(gen: Generator): ChunkCoords -> Grid {
    c => GenerateChunkBlocks(gen, c)
  }

  /** The deletions recorded for chunk `c` (none when it has no entry). */
  function DeletedAt(w: World, c: ChunkCoords): set<BlockCoords> {
    if c in w.deleted then w.deleted[c] else {}
  }

  /** Grid `g` with every cell listed in `ds` cleared to air. */
  function Overlay(g: Grid, ds: set<BlockCoords>): (r: Grid)
    ensures forall x: nat, y: nat, z: nat ::
              GetBlock(r, x, y, z) == if (x, y, z) in ds then None else GetBlock(g, x, y, z)
  {
    seq(CHUNK_WIDTH, (x: int) requires 0 <= x < CHUNK_WIDTH => OverlayPlane(g, ds, x))
  }

  /** Plane `x` of `Overlay(g, ds)`; named so that a caller which meets
      an overlaid grid unfolds one level of it, not all three. */
  function OverlayPlane(g: Grid, ds: set<BlockCoords>, x: nat): (r: seq<seq<Cell>>)
    requires x < CHUNK_WIDTH
    ensures |r| == CHUNK_WIDTH
    ensures forall y | 0 <= y < CHUNK_WIDTH :: r[y] == OverlayColumn(g, ds, x, y)
  {
    seq(CHUNK_WIDTH, (y: int) requires 0 <= y < CHUNK_WIDTH => OverlayColumn(g, ds, x, y))
  }

  /** Column `(x, y)` of `Overlay(g, ds)`. */
  function OverlayColumn(g: Grid, ds: set<BlockCoords>, x: nat, y: nat): (r: seq<Cell>)
    requires x < CHUNK_WIDTH && y < CHUNK_WIDTH
    ensures |r| == CHUNK_HEIGHT
    ensures forall z | 0 <= z < CHUNK_HEIGHT :: r[z] == if (x, y, z) in ds then None else g[x][y][z]
  {
    seq(CHUNK_HEIGHT, (z: int) requires 0 <= z < CHUNK_HEIGHT => if (x, y, z) in ds then None else g[x][y][z])
  }

  /** The cache invariant: every recorded deletion names an in-range block,
      and every resident chunk is its freshly generated grid with the
      chunk's recorded deletions cleared. */
  predicate Faithful(generate: ChunkCoords -> Grid, w: World) {
    RecordsValid(w) && ChunksOverlaid(generate, w)
  }

  predicate RecordsValid(w: World) {
    forall c, b | c in w.deleted && b in w.deleted[c] :: ValidBlock(b)
  }

  predicate ChunksOverlaid(generate: ChunkCoords -> Grid, w: World) {
    forall c | c in w.chunks :: w.chunks[c] == Overlay(generate(c), DeletedAt(w, c))
  }

  /** `w` is `w0` with some chunks loaded: the resident chunks and the
      deletion record are untouched, and each newly resident chunk is its
      generated grid with its recorded deletions cleared. */
  predicate LoadedFrom(generate: ChunkCoords -> Grid, w0: World, w: World) {
    && w0.chunks.Keys <= w.chunks.Keys
    && w.deleted == w0.deleted
    && (forall c {:trigger w.chunks[c]} | c in w0.chunks :: w.chunks[c] == w0.chunks[c])
    && (forall c {:trigger w.chunks[c]} | c in w.chunks && c !in w0.chunks ::
          w.chunks[c] == Overlay(generate(c), DeletedAt(w0, c)))
  }

  /** Loading in two rounds is loading once. */
  lemma LoadedFromTrans(generate: ChunkCoords -> Grid, w0: World, w1: World, w2: World)
    requires LoadedFrom(generate, w0, w1) && LoadedFrom(generate, w1, w2)
    ensures LoadedFrom(generate, w0, w2)
  {
    forall c | c in w2.chunks && c !in w0.chunks
      ensures w2.chunks[c] == Overlay(generate(c), DeletedAt(w0, c))
    {
      assert DeletedAt(w1, c) == DeletedAt(w0, c);
    }
  }

  /** Loading keeps the cache invariant. */
  lemma LoadedFromFaithful(generate: ChunkCoords -> Grid, w0: World, w: World)
    requires LoadedFrom(generate, w0, w) && Faithful(generate, w0)
    ensures Faithful(generate, w)
  {
    forall c | c in w.chunks
      ensures w.chunks[c] == Overlay(generate(c), DeletedAt(w, c))
    {
      assert DeletedAt(w, c) == DeletedAt(w0, c);
    }
  }

  // ---------------------------------------------------------------------
  // Operations

  /** `load_chunk`: a resident chunk is left alone; otherwise the chunk is
      generated and every deletion recorded for it is cleared before it is
      inserted (`LoadedCells`). */
  function LoadChunk(generate: ChunkCoords -> Grid, w: World, c: ChunkCoords): (r: World)
    ensures c in r.chunks && r.deleted == w.deleted
    ensures r.chunks.Keys == w.chunks.Keys + {c}
    ensures c in w.chunks ==> r == w
    ensures forall c' | c' in w.chunks :: r.chunks[c'] == w.chunks[c']
    ensures LoadedFrom(generate, w, r)
  {
    if c in w.chunks then w
    else World(w.chunks[c := Overlay(generate(c), DeletedAt(w, c))], w.deleted)
  }

  /** A chunk loaded generate reads as the column rule everywhere except at
      its recorded deletions, which read as air. */
  lemma LoadedCells(gen: Generator, w: World, c: ChunkCoords, x: nat, y: nat, z: nat)
    requires c !in w.chunks && InBounds(x, y, z)
    ensures GetBlock(LoadChunk(Fresh(gen), w, c).chunks[c], x, y, z) ==
              if (x, y, z) in DeletedAt(w, c) then None else CellAt(ChunkColumn(gen, c, x, y), z)
  {
  }

  /** `retain_chunks`: evicts every chunk not listed; the deletion record is
      not touched. */
  function RetainChunks(w: World, keep: set<ChunkCoords>): (r: World)
    ensures r.chunks.Keys == w.chunks.Keys * keep
    ensures forall c | c in r.chunks :: r.chunks[c] == w.chunks[c]
    ensures r.deleted == w.deleted
  {
    World(map c | c in w.chunks && c in keep :: w.chunks[c], w.deleted)
  }

  /** `World::get_block`: air for an out-of-range height or a chunk that is
      not resident, else the chunk's cell. */
  function WorldGetBlock(w: World, wc: WorldCoords): (r: Cell)
    ensures r.Some? ==> SplitCoords(wc).Some? && SplitCoords(wc).value.0 in w.chunks
    ensures SplitCoords(wc).Some? && SplitCoords(wc).value.0 in w.chunks ==>
      var (c, b) := SplitCoords(wc).value;
      r == GetBlock(w.chunks[c], b.0, b.1, b.2)
  {
    match SplitCoords(wc)
    case None => None
    case Some((c, b)) =>
      if c in w.chunks then GetBlock(w.chunks[c], b.0, b.1, b.2) else None
  }

  /** `delete_block`: nothing happens for an out-of-range height or a chunk
      that is not resident; otherwise the cell is cleared and the deletion
      recorded against its chunk. */
  function DeleteBlock(w: World, wc: WorldCoords): (r: World)
    ensures SplitCoords(wc).None? ==> r == w
    ensures SplitCoords(wc).Some? && SplitCoords(wc).value.0 !in w.chunks ==> r == w
    ensures r.chunks.Keys == w.chunks.Keys
    ensures WorldGetBlock(r, wc) == None
    ensures SplitCoords(wc).Some? && SplitCoords(wc).value.0 in w.chunks ==>
              SplitCoords(wc).value.1 in DeletedAt(r, SplitCoords(wc).value.0)
    ensures forall c | c in w.deleted :: c in r.deleted && w.deleted[c] <= r.deleted[c]
    ensures SplitCoords(wc).Some? && SplitCoords(wc).value.0 in w.chunks ==>
      var (c, b) := SplitCoords(wc).value;
      r.deleted == w.deleted[c := DeletedAt(w, c) + {b}]
  {
    match SplitCoords(wc)
    case None => w
    case Some((c, b)) =>
      if c !in w.chunks then w
      else World(w.chunks[c := SetBlock(w.chunks[c], b.0, b.1, b.2, None)],
                 w.deleted[c := DeletedAt(w, c) + {b}])
  }

  /** The loads of `generate_chunk_mesh`: the chunk and its four edge
      neighbours. */
  method LoadNeighbourhood(generate: ChunkCoords -> Grid, w: World, c: ChunkCoords) returns (r: World)
    ensures r.chunks.Keys == w.chunks.Keys + Neighbourhood(c)
    ensures forall c' | c' in w.chunks :: r.chunks[c'] == w.chunks[c']
    ensures r.deleted == w.deleted
    ensures LoadedFrom(generate, w, r)
    ensures Faithful(generate, w) ==> Faithful(generate, r)
  {
    var order := [c, (c.0, c.1 + 1), (c.0, c.1 - 1), (c.0 + 1, c.1), (c.0 - 1, c.1)];
    assert (set i | 0 <= i < |order| :: order[i]) == Neighbourhood(c) by {
      assert forall n | n in Neighbourhood(c) :: n == order[0] || n == order[1] || n == order[2] || n == order[3] || n == order[4];
    }
    r := LoadAll(generate, w, order);
  }

  /** `load_chunk` on each of `cs` in turn. */
  method LoadAll(generate: ChunkCoords -> Grid, w: World, cs: seq<ChunkCoords>) returns (r: World)
    ensures r.chunks.Keys == w.chunks.Keys + set i | 0 <= i < |cs| :: cs[i]
    ensures forall c' | c' in w.chunks :: r.chunks[c'] == w.chunks[c']
    ensures r.deleted == w.deleted
    ensures LoadedFrom(generate, w, r)
    ensures Faithful(generate, w) ==> Faithful(generate, r)
  {
    r := w;
    for k := 0 to |cs|
      invariant r.chunks.Keys == w.chunks.Keys + set i | 0 <= i < k :: cs[i]
      invariant forall c' | c' in w.chunks :: r.chunks[c'] == w.chunks[c']
      invariant r.deleted == w.deleted
      invariant LoadedFrom(generate, w, r)
    {
      LoadedFromTrans(generate, w, r, LoadChunk(generate, r, cs[k]));
      r := LoadChunk(generate, r, cs[k]);
      assert (set i | 0 <= i < k + 1 :: cs[i]) == (set i | 0 <= i < k :: cs[i]) + {cs[k]};
    }
    if Faithful(generate, w) {
      LoadedFromFaithful(generate, w, r);
    }
  }

  function Neighbourhood(c: ChunkCoords): set<ChunkCoords> {
    {c, (c.0, c.1 + 1), (c.0, c.1 - 1), (c.0 + 1, c.1), (c.0 - 1, c.1)}
  }

  /** `delete_center_block`, with the ray cast supplied as its result: no hit
      changes nothing; a hit is deleted and reported back. */
  function DeleteCenterBlock(w: World, hit: Option<(WorldCoords, BlockType)>)
    : (r: (World, Option<(WorldCoords, BlockType)>))
    ensures r.1 == hit
    ensures hit.None? ==> r.0 == w
    ensures hit.Some? ==> WorldGetBlock(r.0, hit.value.0) == None
    ensures hit.Some? ==> forall wc | wc != hit.value.0 :: WorldGetBlock(r.0, wc) == WorldGetBlock(w, wc)
  {
    match hit
    case None => (w, None)
    case Some((wc, _)) =>
      DeleteFrame(w, wc);
      (DeleteBlock(w, wc), hit)
  }

  // ---------------------------------------------------------------------
  // Properties

  /** A deletion clears one world position and no other. */
  lemma DeleteFrame(w: World, wc: WorldCoords)
    ensures forall wc' | wc' != wc :: WorldGetBlock(DeleteBlock(w, wc), wc') == WorldGetBlock(w, wc')
  {
    forall wc' | wc' != wc
      ensures WorldGetBlock(DeleteBlock(w, wc), wc') == WorldGetBlock(w, wc')
    {
      if SplitCoords(wc).Some? && SplitCoords(wc').Some? {
        if SplitCoords(wc) == SplitCoords(wc') {
          SplitInjective(wc, wc');
        }
      }
    }
  }

  /** Deleting the same position twice is deleting it once. */
  lemma DeleteIdempotent(w: World, wc: WorldCoords)
    ensures DeleteBlock(DeleteBlock(w, wc), wc) == DeleteBlock(w, wc)
  {
    match SplitCoords(wc)
    case None =>
    case Some((c, b)) =>
      if c in w.chunks {
        var w1 := DeleteBlock(w, wc);
        var g := w1.chunks[c];
        assert GetBlock(g, b.0, b.1, b.2) == None;
        GridExtensionality(SetBlock(g, b.0, b.1, b.2, None), g);
        assert DeletedAt(w1, c) + {b} == DeletedAt(w1, c);
      }
  }

  /** The empty cache is faithful. */
  lemma EmptyFaithful(generate: ChunkCoords -> Grid)
    ensures Faithful(generate, EMPTY_WORLD)
  {
  }

  lemma LoadFaithful(generate: ChunkCoords -> Grid, w: World, c: ChunkCoords)
    requires Faithful(generate, w)
    ensures Faithful(generate, LoadChunk(generate, w, c))
  {
  }

  lemma RetainFaithful(generate: ChunkCoords -> Grid, w: World, keep: set<ChunkCoords>)
    requires Faithful(generate, w)
    ensures Faithful(generate, RetainChunks(w, keep))
  {
  }

  /** Clearing one more cell of an overlaid grid is overlaying one more
      deletion. */
  lemma {:induction false} OverlayStep(g: Grid, ds: set<BlockCoords>, b: BlockCoords)
    requires ValidBlock(b)
    ensures SetBlock(Overlay(g, ds), b.0, b.1, b.2, None) == Overlay(g, ds + {b})
  {
    var lhs := SetBlock(Overlay(g, ds), b.0, b.1, b.2, None);
    var rhs := Overlay(g, ds + {b});
    forall x: nat, y: nat, z: nat | InBounds(x, y, z)
      ensures GetBlock(lhs, x, y, z) == GetBlock(rhs, x, y, z)
    {
    }
    GridExtensionality(lhs, rhs);
  }

  lemma DeleteFaithful(generate: ChunkCoords -> Grid, w: World, wc: WorldCoords)
    requires Faithful(generate, w)
    ensures Faithful(generate, DeleteBlock(w, wc))
  {
    if SplitCoords(wc).Some? && SplitCoords(wc).value.0 in w.chunks {
      var c, b := SplitCoords(wc).value.0, SplitCoords(wc).value.1;
      DeleteUnfolds(w, wc);
      ClearOverlaid(generate, w, c, b);
      ClearRecordsValid(w, c, b);
    }
  }

  lemma DeleteUnfolds(w: World, wc: WorldCoords)
    requires SplitCoords(wc).Some? && SplitCoords(wc).value.0 in w.chunks
    ensures var c, b := SplitCoords(wc).value.0, SplitCoords(wc).value.1;
            && ValidBlock(b)
            && DeleteBlock(w, wc) == World(w.chunks[c := SetBlock(w.chunks[c], b.0, b.1, b.2, None)],
                                           w.deleted[c := DeletedAt(w, c) + {b}])
  {
  }

  lemma ClearRecordsValid(w: World, c: ChunkCoords, b: BlockCoords)
    requires RecordsValid(w) && c in w.chunks && ValidBlock(b)
    ensures RecordsValid(World(w.chunks[c := SetBlock(w.chunks[c], b.0, b.1, b.2, None)],
                               w.deleted[c := DeletedAt(w, c) + {b}]))
  {
    var w' := World(w.chunks[c := SetBlock(w.chunks[c], b.0, b.1, b.2, None)],
                    w.deleted[c := DeletedAt(w, c) + {b}]);
    forall c', b' | c' in w'.deleted && b' in w'.deleted[c']
      ensures ValidBlock(b')
    {
      if c' != c {
        assert b' in w.deleted[c'];
      }
    }
  }

  /** Clearing cell `b` of resident chunk `c` and recording it keeps every
      resident chunk overlaid. */
  lemma ClearOverlaid(generate: ChunkCoords -> Grid, w: World, c: ChunkCoords, b: BlockCoords)
    requires ChunksOverlaid(generate, w) && c in w.chunks && ValidBlock(b)
    ensures ChunksOverlaid(generate, World(w.chunks[c := SetBlock(w.chunks[c], b.0, b.1, b.2, None)],
                                           w.deleted[c := DeletedAt(w, c) + {b}]))
  {
    var w' := World(w.chunks[c := SetBlock(w.chunks[c], b.0, b.1, b.2, None)],
                    w.deleted[c := DeletedAt(w, c) + {b}]);
    OverlayStep(generate(c), DeletedAt(w, c), b);
    forall c' | c' in w'.chunks
      ensures w'.chunks[c'] == Overlay(generate(c'), DeletedAt(w', c'))
    {
      if c' != c {
        assert w'.chunks[c'] == w.chunks[c'] && DeletedAt(w', c') == DeletedAt(w, c');
      }
    }
  }

  /** In a faithful cache every recorded deletion of a resident chunk reads
      as air. */
  lemma RecordedDeletionsAreAir(generate: ChunkCoords -> Grid, w: World, c: ChunkCoords, b: BlockCoords)
    requires Faithful(generate, w) && c in w.chunks && b in DeletedAt(w, c)
    ensures WorldGetBlock(w, Join(c, b)) == None
  {
    SplitJoin(c, b);
  }

  /** In a faithful cache a resident cell that was never deleted reads as
      the column rule of the generator. */
  lemma ResidentCellsAreGenerated(gen: Generator, w: World, c: ChunkCoords, b: BlockCoords)
    requires Faithful(Fresh(gen), w) && c in w.chunks && ValidBlock(b) && b !in DeletedAt(w, c)
    ensures WorldGetBlock(w, Join(c, b)) == CellAt(ChunkColumn(gen, c, b.0, b.1), b.2)
  {
    SplitJoin(c, b);
  }

  /** A deleted block stays deleted through eviction and reload: delete,
      keep any set of chunks, load the chunk again, and the position still
      reads as air. */
  lemma DeletionSurvivesReload(generate: ChunkCoords -> Grid, w: World, wc: WorldCoords, keep: set<ChunkCoords>)
    requires Faithful(generate, w)
    requires SplitCoords(wc).Some? && SplitCoords(wc).value.0 in w.chunks
    ensures WorldGetBlock(LoadChunk(generate, RetainChunks(DeleteBlock(w, wc), keep), SplitCoords(wc).value.0), wc)
              == None
  {
    var c, b := SplitCoords(wc).value.0, SplitCoords(wc).value.1;
    var w1 := DeleteBlock(w, wc);
    DeleteFaithful(generate, w, wc);
    var w2 := RetainChunks(w1, keep);
    RetainFaithful(generate, w1, keep);
    var w3 := LoadChunk(generate, w2, c);
    LoadFaithful(generate, w2, c);
    assert b in DeletedAt(w3, c);
    RecordedDeletionsAreAir(generate, w3, c, b);
  }
}

=== FILE: wrappers.dfy ===
/** Absence as a value: the model of Rust's `Option`, used wherever the
    source answers "no block", "chunk not loaded" or "out of range". */
module Wrappers {

  datatype Option<+T> = None | Some(value: T)
}
